=== FILE: README.md ===
# Record stores, blog services and accounts: a Dafny model

This project models the request-handling core of two Spring applications that live in one repository.

- **File-management application** (`com.bar.gestiondesfichier`)
  - Thirteen document controllers share one soft-delete record store:
    - validated create;
    - get of active rows only;
    - partial update;
    - logical delete;
    - a list endpoint that applies exactly one filter, chosen by precedence.
  - The JPQL search conditions of the document repositories.
  - The fixed-sort listings: expiring documents, claims by status, assets by section.
  - The location-entity and account-category endpoints.
- **Blog application** (`com.igihecyubuntu.app`)
  - The blog, post, comment, picture and category services, with hard deletes. Deleting a blog also deletes its posts and their likes, and deleting a post also deletes its likes.
  - The like service and its toggle.
  - Login (with the lazy move of plain-text passwords to hashes), registration and token refresh.
  - Profile update and password change.
  - The start-up data.
  - The mapping from an account to its security principal.

Every endpoint is a pure function from a store and a request to a reply and a new store. A reply is `Done(code, value)` or `Fail(code, reason)`. Stores are maps from ids to immutable rows, and the next IDENTITY id is kept with them (`Tables.Table`). A Java `null` is `Option.None`. `String.trim` strips chars up to U+0020, and "blank" means empty after trim (`JavaText`). The password encoder, the token utility and the clock are outside the model and enter as parameters.

Modules, one per file:

| file | module | what it holds |
|---|---|---|
| `common.dfy` | `Common` | `Option`, `Reply`, `Reason`, the status codes |
| `java_text.dfy` | `JavaText` | trim, blank and ASCII case mapping |
| `sql_like.dfy` | `SqlLike` | the LIKE operator |
| `tables.dfy` | `Tables` | keyed tables and single-result finders |
| `soft_delete.dfy` | `SoftDelete` | the generic document engine and its lemmas |
| `document_controllers.dfy` | `DocumentControllers` | the thirteen instances |
| `document_repositories.dfy` | `DocumentRepositories` | JPQL conditions |
| `sorted_listing.dfy` | `SortedListing` | fixed-sort listings |
| `location.dfy` | `Locations` | location entities |
| `account_categories.dfy` | `AccountCategories` | account-category endpoints |
| `blog_services.dfy` | `BlogServices` | blogs, posts, comments, pictures, categories |
| `likes.dfy` | `Likes` | likes and the toggle |
| `blog_deletes.dfy` | `BlogDeletes` | the cascading deletes of blogs and posts |
| `accounts.dfy` | `Accounts` | accounts and the security principal |
| `auth.dfy` | `Auth` | login, registration, refresh |
| `user_profile.dfy` | `UserProfile` | profile update and password change |
| `data_init.dfy` | `DataInit` | start-up data |

Status codes follow the code:
- The document controllers answer every refusal with 400.
- The location and account-category controllers use 404, 400, 201 and 204.
- The blog services throw a bad-request exception (400). The blog, post and likes controllers turn every other exception, such as a finder that sees several rows, into a bad request too (400). The category and picture controllers answer it with 500. Creating a blog or a post answers 201; every other successful call answers 200.
- The profile controller turns every exception into 400 and an unauthenticated call into 401.
- The authentication controller answers a failed login or refresh with 401; an exception it does not catch is a 500.

## Model

| member | source | states |
|---|---|---|
| SoftDelete.ChooseBranch | src/main/java/com/bar/gestiondesfichier/document/controller/PermiConstructionController.java:61-75 | Exactly one filter is applied. A non-blank search is chosen if and only if one is sent; status, section and document follow only when the filters before them are absent. |
| SoftDelete.List | src/main/java/com/bar/gestiondesfichier/document/controller/BatchControllers1.java:50-58 | No list request ever returns a soft-deleted or unknown row. |
| SoftDelete.ListPrecedence | src/main/java/com/bar/gestiondesfichier/document/controller/CommAssetLandController.java:61-75 | Each level of the precedence search > status > section > document > all returns exactly what that filter selects among active rows. |
| SoftDelete.BlankSearchIgnored | src/main/java/com/bar/gestiondesfichier/document/controller/BatchControllers1.java:50-58 | A whitespace-only search gives the same result as no search: it falls through to the next filter. |
| SoftDelete.UnsupportedFiltersIgnored | src/main/java/com/bar/gestiondesfichier/document/controller/CertLicensesController.java:60-71 | A filter the controller does not accept (section, document) has no effect on the result. |
| SoftDelete.SearchIsCaseInsensitiveSubstring | src/main/java/com/bar/gestiondesfichier/document/repository/DueDiligenceRepository.java:22-25 | Without wildcards in the term, a column matches the search exactly when it contains the term, ignoring ASCII case; a null column never matches. |
| SoftDelete.GetById | src/main/java/com/bar/gestiondesfichier/document/controller/PermiConstructionController.java:95-106 | A row is returned if and only if it is stored, active, and (where the controller checks) its id is positive. Everything else is a 400, and a bad id is refused as invalid before any lookup. |
| SoftDelete.Create | src/main/java/com/bar/gestiondesfichier/document/controller/PermiConstructionController.java:124-146 | Create succeeds if and only if the name is non-blank, the three references are present, and (for permits) no active row holds the name. On success the body is stored under a fresh id with active forced to true. Any refusal leaves the store unchanged. |
| SoftDelete.Patch | src/main/java/com/bar/gestiondesfichier/document/controller/BatchControllers1.java:112-119 | An updatable column the request carries replaces the stored value. Every other column, and the flag, is kept. |
| SoftDelete.Update | src/main/java/com/bar/gestiondesfichier/document/controller/BatchControllers1.java:105-119 | Update succeeds if and only if the row is stored and active. Only that row changes, it stays active, and only updatable non-null request columns are written. A refused update changes nothing. |
| SoftDelete.Delete | src/main/java/com/bar/gestiondesfichier/document/controller/BatchControllers1.java:131-138 | Delete succeeds if and only if the row is stored and active. It keeps the row with its columns, clears only its flag, and leaves every other row alone. |
| SoftDelete.DeleteHidesRow | src/main/java/com/bar/gestiondesfichier/document/controller/BatchControllers2.java:130-137 | After a delete the row is still stored, but get, update and a second delete refuse it, and no list returns it. |
| SoftDelete.UpdateIdempotent | src/main/java/com/bar/gestiondesfichier/document/controller/BatchControllers1.java:105-119 | Repeating a successful update with the same request answers the same and changes nothing more. |
| SoftDelete.CreateThenGet | src/main/java/com/bar/gestiondesfichier/document/controller/BatchControllers1.java:86-93 | Get on the id a create answered returns the body sent, marked active. |
| SoftDelete.WritesKeepValid | src/main/java/com/bar/gestiondesfichier/document/controller/BatchControllers1.java:86-93 | Create, update and delete keep every stored id positive and below the next id to be handed out. |
| SoftDelete.NameFreedByDelete | src/main/java/com/bar/gestiondesfichier/document/controller/PermiConstructionController.java:141-146 | The uniqueness rule only looks at active rows. Once the holder of a name is soft-deleted, a create with that name succeeds, and two stored rows then share it. |
| SoftDelete.UpdateSkipsUniqueness | src/main/java/com/bar/gestiondesfichier/document/controller/PermiConstructionController.java:173-175 | Update never re-checks uniqueness: an active row can take the name of another active row. |
| SoftDelete.NoUniquenessWithoutRule | src/main/java/com/bar/gestiondesfichier/document/controller/EquipmentIdController.java:126-145 | Without a uniqueness rule, create accepts every valid body, whatever the store holds. |
| DocumentControllers.CommFollowupAuditList | src/main/java/com/bar/gestiondesfichier/document/controller/BatchControllers1.java:50-58 | The list result is exactly: search on auditTitle/findings, then status, else all active. |
| DocumentControllers.CommFollowupAuditCreate | src/main/java/com/bar/gestiondesfichier/document/controller/BatchControllers1.java:86-93 | Create refuses with the first failed check (the name, then the three references together). Otherwise it stores the body as a new active row. |
| DocumentControllers.CommFollowupAuditUpdate | src/main/java/com/bar/gestiondesfichier/document/controller/BatchControllers1.java:105-119 | A successful update writes exactly the controller's listed columns that the request carries. doneBy, document and the active flag never change. |
| DocumentControllers.DueDiligenceList | src/main/java/com/bar/gestiondesfichier/document/controller/BatchControllers1.java:230-238 | The list result is exactly: search on projectName/scope, then status, else all active. |
| DocumentControllers.DueDiligenceCreate | src/main/java/com/bar/gestiondesfichier/document/controller/BatchControllers1.java:266-274 | Create refuses with the first failed check (the name, then the three references together). Otherwise it stores the body as a new active row. |
| DocumentControllers.DueDiligenceUpdate | src/main/java/com/bar/gestiondesfichier/document/controller/BatchControllers1.java:285-298 | A successful update writes exactly the controller's listed columns that the request carries. doneBy, document and the active flag never change. |
| DocumentControllers.CommThirdPartyList | src/main/java/com/bar/gestiondesfichier/document/controller/BatchControllers2.java:50-58 | The list result is exactly: search on thirdPartyName/serviceType, then status, else all active. |
| DocumentControllers.CommThirdPartyCreate | src/main/java/com/bar/gestiondesfichier/document/controller/BatchControllers2.java:86-94 | Create refuses with the first failed check (the name, then the three references together). Otherwise it stores the body as a new active row. |
| DocumentControllers.CommThirdPartyUpdate | src/main/java/com/bar/gestiondesfichier/document/controller/BatchControllers2.java:105-117 | A successful update writes exactly the controller's listed columns that the request carries. doneBy, document and the active flag never change. |
| DocumentControllers.CargoDamageList | src/main/java/com/bar/gestiondesfichier/document/controller/BatchControllers2.java:227-235 | The list result is exactly: search on incidentId/cargoType, then status, else all active. |
| DocumentControllers.CargoDamageCreate | src/main/java/com/bar/gestiondesfichier/document/controller/BatchControllers2.java:263-271 | Create refuses with the first failed check (the name, then the three references together). Otherwise it stores the body as a new active row. |
| DocumentControllers.CargoDamageUpdate | src/main/java/com/bar/gestiondesfichier/document/controller/BatchControllers2.java:282-295 | A successful update writes exactly the controller's listed columns that the request carries. doneBy, document and the active flag never change. |
| DocumentControllers.LitigationFollowupList | src/main/java/com/bar/gestiondesfichier/document/controller/BatchControllers2.java:407-415 | The list result is exactly: search on caseNumber/caseName, then status, else all active. |
| DocumentControllers.LitigationFollowupCreate | src/main/java/com/bar/gestiondesfichier/document/controller/BatchControllers2.java:443-451 | Create refuses with the first failed check (the name, then the three references together). Otherwise it stores the body as a new active row. |
| DocumentControllers.LitigationFollowupUpdate | src/main/java/com/bar/gestiondesfichier/document/controller/BatchControllers2.java:462-475 | A successful update writes exactly the controller's listed columns that the request carries. doneBy, document and the active flag never change. |
| DocumentControllers.InsuranceList | src/main/java/com/bar/gestiondesfichier/document/controller/BatchControllers3.java:49-57 | The list result is exactly: search on policyNumber/insuranceType, then status, else all active. |
| DocumentControllers.InsuranceCreate | src/main/java/com/bar/gestiondesfichier/document/controller/BatchControllers3.java:85-93 | Create refuses with the first failed check (the name, then the three references together). Otherwise it stores the body as a new active row. |
| DocumentControllers.InsuranceUpdate | src/main/java/com/bar/gestiondesfichier/document/controller/BatchControllers3.java:104-118 | A successful update writes exactly the controller's listed columns that the request carries. doneBy, document and the active flag never change. |
| DocumentControllers.ThirdPartyClaimsList | src/main/java/com/bar/gestiondesfichier/document/controller/BatchControllers3.java:249-257 | The list result is exactly: search on claimNumber/claimantName, then status, else all active. |
| DocumentControllers.ThirdPartyClaimsCreate | src/main/java/com/bar/gestiondesfichier/document/controller/BatchControllers3.java:285-293 | Create refuses with the first failed check (the name, then the three references together). Otherwise it stores the body as a new active row. |
| DocumentControllers.ThirdPartyClaimsUpdate | src/main/java/com/bar/gestiondesfichier/document/controller/BatchControllers3.java:304-318 | A successful update writes exactly the controller's listed columns that the request carries. doneBy, document and the active flag never change. |
| DocumentControllers.PermiConstructionList | src/main/java/com/bar/gestiondesfichier/document/controller/PermiConstructionController.java:61-75 | The list result is exactly: search > status > section category > document > all active. |
| DocumentControllers.PermiConstructionCreate | src/main/java/com/bar/gestiondesfichier/document/controller/PermiConstructionController.java:124-146 | Create refuses with the first failed check (numeroPermis, doneBy, document, status one at a time, then no active permit with that number). Otherwise it stores the body as a new active row. |
| DocumentControllers.PermiConstructionUpdate | src/main/java/com/bar/gestiondesfichier/document/controller/PermiConstructionController.java:165-198 | A successful update writes exactly the controller's listed columns that the request carries. doneBy, document and the active flag never change. |
| DocumentControllers.CommAssetLandList | src/main/java/com/bar/gestiondesfichier/document/controller/CommAssetLandController.java:61-75 | The list result is exactly: search > status > section category > document > all active. |
| DocumentControllers.CommAssetLandCreate | src/main/java/com/bar/gestiondesfichier/document/controller/CommAssetLandController.java:124-141 | Create refuses with the first failed check (assetName, doneBy, document, status one at a time). Otherwise it stores the body as a new active row. |
| DocumentControllers.CommAssetLandUpdate | src/main/java/com/bar/gestiondesfichier/document/controller/CommAssetLandController.java:160-190 | A successful update writes exactly the controller's listed columns that the request carries. doneBy, document and the active flag never change. |
| DocumentControllers.CertLicensesList | src/main/java/com/bar/gestiondesfichier/document/controller/CertLicensesController.java:60-71 | The list result is exactly: search > status > document > all active, with no section filter. |
| DocumentControllers.CertLicensesCreate | src/main/java/com/bar/gestiondesfichier/document/controller/CertLicensesController.java:120-137 | Create refuses with the first failed check (certificateName, doneBy, document, status one at a time). Otherwise it stores the body as a new active row. |
| DocumentControllers.CertLicensesUpdate | src/main/java/com/bar/gestiondesfichier/document/controller/CertLicensesController.java:156-183 | A successful update writes exactly the controller's listed columns that the request carries. doneBy, document and the active flag never change. |
| DocumentControllers.EquipmentIdList | src/main/java/com/bar/gestiondesfichier/document/controller/EquipmentIdController.java:63-77 | The list result is exactly: search > status > section category > document > all active. |
| DocumentControllers.EquipmentIdCreate | src/main/java/com/bar/gestiondesfichier/document/controller/EquipmentIdController.java:126-145 | Create refuses with the first failed check (equipmentName, doneBy, document, status one at a time). Otherwise it stores the body as a new active row. |
| DocumentControllers.EquipmentIdUpdate | src/main/java/com/bar/gestiondesfichier/document/controller/EquipmentIdController.java:162-193 | A successful update writes exactly the controller's listed columns that the request carries. doneBy, document and the active flag never change. |
| DocumentControllers.EstateList | src/main/java/com/bar/gestiondesfichier/document/controller/EstateController.java:61-75 | The list result is exactly: search > status > section category > document > all active. |
| DocumentControllers.EstateCreate | src/main/java/com/bar/gestiondesfichier/document/controller/EstateController.java:124-143 | Create refuses with the first failed check (propertyName, doneBy, document, status one at a time). Otherwise it stores the body as a new active row. |
| DocumentControllers.EstateUpdate | src/main/java/com/bar/gestiondesfichier/document/controller/EstateController.java:160-191 | A successful update writes exactly the controller's listed columns that the request carries. doneBy, document and the active flag never change. |
| DocumentControllers.CommCompPoliciesList | src/main/java/com/bar/gestiondesfichier/document/controller/CommCompPoliciesController.java:54-65 | The list result is exactly: search > status > document > all active. |
| DocumentControllers.CommCompPoliciesCreate | src/main/java/com/bar/gestiondesfichier/document/controller/CommCompPoliciesController.java:97-106 | Create refuses with the first failed check (policyName, then the three references together). Otherwise it stores the body as a new active row. |
| DocumentControllers.CommCompPoliciesUpdate | src/main/java/com/bar/gestiondesfichier/document/controller/CommCompPoliciesController.java:116-131 | A successful update writes exactly the controller's listed columns that the request carries. doneBy, document and the active flag never change. |
| DocumentControllers.PermitNumberReusableAfterDelete | src/main/java/com/bar/gestiondesfichier/document/controller/PermiConstructionController.java:141-146 | A number held by one active permit is refused. After that permit is deleted the same number is accepted, and two stored permits then share it. |
| DocumentControllers.PermitUpdateAllowsDuplicateNumber | src/main/java/com/bar/gestiondesfichier/document/controller/PermiConstructionController.java:173-175 | An update can give an active permit the number of another active permit. |
| DocumentControllers.EquipmentSerialNotUnique | src/main/java/com/bar/gestiondesfichier/document/controller/EquipmentIdController.java:126-145 | Create accepts a serial number an active row already holds, so two active rows then share it. |
| DocumentRepositories.GuardedSelectsActiveOnly | src/main/java/com/bar/gestiondesfichier/document/repository/InsuranceRepository.java:21-24 | A query of the shape active AND (...) never returns a soft-deleted row, whatever the term. |
| DocumentRepositories.TwoColumnSearchIsSearchHit | src/main/java/com/bar/gestiondesfichier/document/repository/CommCompPoliciesRepository.java:22-25 | The JPQL two-column search selects exactly the rows the list endpoints' search selects. |
| DocumentRepositories.DeclaredSearchesGuarded | src/main/java/com/bar/gestiondesfichier/document/repository/DueDiligenceRepository.java:27-30 | Every declared search query carries the active guard over its whole condition, except the equipment search-terms query as written. |
| DocumentRepositories.ControllersUseDeclaredSearches | src/main/java/com/bar/gestiondesfichier/document/repository/EquipmentIdRepository.java:25-28 | The controllers' search on each declared repository matches a row if and only if the declared query does. |
| DocumentRepositories.EquipmentSearchTermsLeaksDeleted | src/main/java/com/bar/gestiondesfichier/document/repository/EquipmentIdRepository.java:30-34 | As written, a soft-deleted row whose serial number matches is returned. |
| DocumentRepositories.EquipmentSearchTermsCorrected | src/main/java/com/bar/gestiondesfichier/document/repository/EquipmentIdRepository.java:30-34 | Parenthesised, the query returns only active rows, and exactly the active rows the as-written query returns. |
| DocumentRepositories.SearchIgnoresTermCase | src/main/java/com/bar/gestiondesfichier/document/repository/CommAssetLandRepository.java:24-27 | Upper- or lower-casing the term selects the same rows, for every query. |
| DocumentRepositories.ExpiringWindowMonotone | src/main/java/com/bar/gestiondesfichier/document/repository/InsuranceRepository.java:34-36 | A wider window selects every row a narrower one does. Already-expired active policies are always included, because there is no lower bound. Only active rows are selected. |
| SqlLike.ContainsPattern | src/main/java/com/bar/gestiondesfichier/document/repository/InsuranceRepository.java:21-24 | The pattern '%'+s+'%' with a wildcard-free s matches exactly the strings that contain s. |
| SqlLike.WildcardTermMatchesAll | src/main/java/com/bar/gestiondesfichier/document/repository/InsuranceRepository.java:21-24 | A search term made only of '%' (the empty term included) matches every non-null column. |
| SqlLike.UnderscoreNeedsChar | src/main/java/com/bar/gestiondesfichier/document/repository/InsuranceRepository.java:21-24 | A term holding a '_' does not match an empty column, so a term made of wildcards does not always match everything. |
| SortedListing.SortedIds | src/main/java/com/bar/gestiondesfichier/document/controller/BatchControllers3.java:147-162 | The output is ordered by the sort column, and it lists each selected id exactly once and no other id. |
| SortedListing.ExpiringListing | src/main/java/com/bar/gestiondesfichier/document/controller/PermiConstructionController.java:232-254 | Exactly the active rows whose date column lies within the window, each once, sorted by that date ascending: the permits on `dateExpiration` here, the certificates on `expiryDate` (CertLicensesController.java, lines 217-239), and the insurance policies on `endDate` (BatchControllers3.java, lines 147-162). |
| SortedListing.ClaimsByStatusListing | src/main/java/com/bar/gestiondesfichier/document/controller/BatchControllers3.java:347-362 | Exactly the active claims of that claim status, each once, sorted by claim date descending, with nulls last. |
| SortedListing.AssetLandBySectionListing | src/main/java/com/bar/gestiondesfichier/document/controller/CommAssetLandController.java:224-246 | Exactly the active assets of that section, each once, sorted by asset name ascending, with nulls first. |
| Locations.ToDto | src/main/java/com/bar/gestiondesfichier/location/controller/LocationEntityController.java:220-225 | The response's countryId is null exactly when the location has no country. Otherwise it is that country's id. |
| Locations.ListAll | src/main/java/com/bar/gestiondesfichier/location/controller/LocationEntityController.java:44-48 | Exactly the active locations, each as its response body. |
| Locations.ListByCountry | src/main/java/com/bar/gestiondesfichier/location/controller/LocationEntityController.java:81 | Exactly the active locations of that country. |
| Locations.Get | src/main/java/com/bar/gestiondesfichier/location/controller/LocationEntityController.java:64-66 | A location is returned if and only if it is stored and active; otherwise 404. |
| Locations.Create | src/main/java/com/bar/gestiondesfichier/location/controller/LocationEntityController.java:102-114 | 201 with a new active location if and only if the country is found among the active ones; otherwise 400 and no change. |
| Locations.Update | src/main/java/com/bar/gestiondesfichier/location/controller/LocationEntityController.java:131-148 | 404 with no change unless the location is active. Name and description are overwritten, null included. The country changes only to a found active one. Nothing else changes. |
| Locations.Delete | src/main/java/com/bar/gestiondesfichier/location/controller/LocationEntityController.java:164-172 | 204 and the flag cleared if and only if the location is active; otherwise 404. |
| Locations.WritesKeepCountriesResolved | src/main/java/com/bar/gestiondesfichier/location/controller/LocationEntityController.java:140-145 | While the active countries stay the same, every active location keeps a country from them. |
| Locations.UpdateErasesName | src/main/java/com/bar/gestiondesfichier/location/controller/LocationEntityController.java:137-138 | A null name in an update erases the stored name. |
| Locations.UpdateIgnoresUnknownCountry | src/main/java/com/bar/gestiondesfichier/location/controller/LocationEntityController.java:140-145 | An update naming an unknown or inactive country succeeds and keeps the old country. |
| Locations.DeleteHides | src/main/java/com/bar/gestiondesfichier/location/controller/LocationEntityController.java:164-172 | After a delete the location is stored but hidden: get and a second delete answer 404, and no list shows it. |
| Locations.CreateThenGet | src/main/java/com/bar/gestiondesfichier/location/controller/LocationEntityController.java:102-114 | What create answers is what a later get answers. |
| AccountCategories.ListAll | src/main/java/com/bar/gestiondesfichier/controller/AccountCategoryController.java:31-47 | Exactly the stored categories. |
| AccountCategories.Get | src/main/java/com/bar/gestiondesfichier/controller/AccountCategoryController.java:59-61 | A category is returned if and only if it is stored; otherwise 404. |
| AccountCategories.Create | src/main/java/com/bar/gestiondesfichier/controller/AccountCategoryController.java:78-87 | 201 and a new row if and only if no category holds the name; otherwise 400 and no change. |
| AccountCategories.Update | src/main/java/com/bar/gestiondesfichier/controller/AccountCategoryController.java:104-114 | 404 unless the id is stored. Otherwise name and description are overwritten, null included, with no name check. |
| AccountCategories.Delete | src/main/java/com/bar/gestiondesfichier/controller/AccountCategoryController.java:130-136 | 204 and the row physically removed if and only if it is stored; otherwise 404. |
| AccountCategories.CreateDeleteKeepNamesUnique | src/main/java/com/bar/gestiondesfichier/controller/AccountCategoryController.java:78-87 | Create and delete keep category names unique. |
| AccountCategories.UpdateCanDuplicateName | src/main/java/com/bar/gestiondesfichier/controller/AccountCategoryController.java:104-114 | Renaming a category to another's name succeeds and breaks uniqueness. |
| AccountCategories.DeleteFreesName | src/main/java/com/bar/gestiondesfichier/controller/AccountCategoryController.java:130-136 | After a delete the id answers 404, and its name can be used by a new category. |
| BlogServices.Locate | src/main/java/com/igihecyubuntu/app/service/BlogService.java:44-50 | Update and delete go on if and only if the id is non-null and positive and stored. A bad id is reported as invalid, before the not-found check. |
| BlogServices.Delete | src/main/java/com/igihecyubuntu/app/service/CommentService.java:61-71 | The delete of a comment, picture, category or like, which own no other rows: it succeeds if and only if the id is good and stored, and then removes exactly that row. A refusal is a 400 and changes nothing. |
| BlogServices.DeleteIsFinal | src/main/java/com/igihecyubuntu/app/service/CommentService.java:61-71 | A second delete of the same id fails with not-found. |
| BlogServices.SaveChecked | src/main/java/com/igihecyubuntu/app/service/CommentService.java:39-42 | A save happens if and only if validation passed, answered with the status code the endpoint uses. The new id is fresh and larger than every stored id. |
| BlogServices.IdsDescending | src/main/java/com/igihecyubuntu/app/service/BlogService.java:32-37 | The result is strictly descending and holds exactly the selected ids in range. |
| BlogServices.ValidateBlog | src/main/java/com/igihecyubuntu/app/service/BlogService.java:82-95 | A blog passes if and only if the body, title, content and status are all present and non-blank. The first one missing is the one reported. |
| BlogServices.CreateBlog | src/main/java/com/igihecyubuntu/app/service/BlogService.java:39-42 | A blog is stored as sent if and only if it validates, answered with 201 (`HttpStatus.CREATED`, BlogController.java line 120); otherwise 400 and no change. |
| BlogServices.UpdateBlog | src/main/java/com/igihecyubuntu/app/service/BlogService.java:44-59 | The id and existence are checked before validation. A successful update overwrites title, content and status with the body. |
| BlogServices.BlogsByStatus | src/main/java/com/igihecyubuntu/app/service/BlogService.java:32-37 | A blank status is refused. Otherwise the result is exactly the blogs with that status, newest id first. |
| BlogServices.CreatedBlogListedFirst | src/main/java/com/igihecyubuntu/app/service/BlogService.java:39-42 | A newly created blog heads the listing of its status. |
| BlogServices.ValidatePost | src/main/java/com/igihecyubuntu/app/service/PostService.java:96-111 | A post passes if and only if its blog id and user id are good and the blog exists. A missing blog is reported as not found. |
| BlogServices.CreatePost | src/main/java/com/igihecyubuntu/app/service/PostService.java:49-53 | A valid post is stored under a fresh id, stamped with the current time, and answered with 201 (`HttpStatus.CREATED`, PostController.java line 120); an invalid one is 400 with no change. |
| BlogServices.UpdatePost | src/main/java/com/igihecyubuntu/app/service/PostService.java:55-69 | Existence, then validation. Then blog id and user id are overwritten and the creation time is kept. |
| BlogServices.GetPost | src/main/java/com/igihecyubuntu/app/service/PostService.java:28-33 | A bad id is refused. Otherwise the stored post, or nothing. |
| BlogServices.CreatedPostFound | src/main/java/com/igihecyubuntu/app/service/PostService.java:49-53 | A created post is found again with its creation time. |
| BlogServices.ValidateComment | src/main/java/com/igihecyubuntu/app/service/CommentService.java:82-95 | A comment passes if and only if its title and content are present and its user id is good. |
| BlogServices.CreateComment | src/main/java/com/igihecyubuntu/app/service/CommentService.java:39-42 | A valid comment is stored unchanged and answered with 200; an invalid one is 400 with no change. |
| BlogServices.UpdateComment | src/main/java/com/igihecyubuntu/app/service/CommentService.java:44-59 | Existence, then validation. Then title, content and user id are overwritten. |
| BlogServices.ValidatePicture | src/main/java/com/igihecyubuntu/app/service/PictureService.java:92-105 | A picture passes if and only if its type and path are present and its user id is good. The alt text is optional. |
| BlogServices.CreatePicture | src/main/java/com/igihecyubuntu/app/service/PictureService.java:47-51 | A valid picture is stored stamped with the current time and answered with 200 (`ok`, PictureController.java line 55); an invalid one is 400 with no change. |
| BlogServices.UpdatePicture | src/main/java/com/igihecyubuntu/app/service/PictureService.java:53-68 | Existence, then validation. Then type, path, alt text (null included) and user id are overwritten, and the upload time is kept. |
| BlogServices.PicturesByType | src/main/java/com/igihecyubuntu/app/service/PictureService.java:33-37 | A blank type is refused. Otherwise exactly the pictures of that type. |
| BlogServices.PictureUpdateMovesType | src/main/java/com/igihecyubuntu/app/service/PictureService.java:53-68 | After an update the picture is listed under its new type, no longer under the old one, and its upload time is unchanged. |
| BlogServices.ValidateCategory | src/main/java/com/igihecyubuntu/app/service/CategoryService.java:101-111 | A category passes if and only if its name is present and its user id is good. |
| BlogServices.CreateCategory | src/main/java/com/igihecyubuntu/app/service/CategoryService.java:46-56 | Create succeeds if and only if the body validates and no category holds the name. A held name is a 400 duplicate. |
| BlogServices.UpdateCategory | src/main/java/com/igihecyubuntu/app/service/CategoryService.java:58-77 | Existence, then validation, then the name check. The update succeeds if and only if no other category holds the name, so a category may keep its own. Name and user id are overwritten. |
| BlogServices.UniqueNamesNeverSeveral | src/main/java/com/igihecyubuntu/app/service/CategoryService.java:69-72 | While names are unique, the single-result finder never throws. |
| BlogServices.CategoryWritesKeepNamesUnique | src/main/java/com/igihecyubuntu/app/service/CategoryService.java:46-90 | Create, update and delete keep category names unique. |
| BlogServices.CategoryRenameRule | src/main/java/com/igihecyubuntu/app/service/CategoryService.java:69-72 | Saving a category under its own name succeeds. Taking another category's name is refused as a duplicate. |
| BlogServices.ContentUpdatesIdempotent | src/main/java/com/igihecyubuntu/app/service/PictureService.java:53-68 | Repeating a blog, post, comment or picture update changes nothing more. |
| BlogServices.CategoryUpdateIdempotent | src/main/java/com/igihecyubuntu/app/service/CategoryService.java:58-77 | Repeating a category update changes nothing more. |
| Likes.ValidateLikeData | src/main/java/com/igihecyubuntu/app/service/LikesService.java:113-124 | Passes if and only if the post id and user id are good and the post exists, reporting the first failure in that order. |
| Likes.Toggle | src/main/java/com/igihecyubuntu/app/service/LikesService.java:49-66 | Validation first, before any write. An existing like is removed and nothing is returned. Otherwise exactly one like with that post, user and the current time is added and returned. Every refusal is a 400 with no change, including several likes of one user on the post, which LikesController.java (lines 105-108) turns into a bad request. |
| Likes.CreateLike | src/main/java/com/igihecyubuntu/app/service/LikesService.java:68-79 | Succeeds if and only if the body validates and the user does not already like the post; an existing like is a 400 duplicate, and several existing likes are a 400 too (LikesController.java, lines 129-132). The like is stored stamped with the current time and answered with 200. |
| Likes.CountByPost | src/main/java/com/igihecyubuntu/app/service/LikesService.java:42-47 | A bad id is refused. Otherwise the count is the number of likes of that post. |
| Likes.UniquePairsNeverSeveral | src/main/java/com/igihecyubuntu/app/service/LikesService.java:52-57 | While pairs are unique, the single-result finder never throws. |
| Likes.WritesKeepAtMostOnePerPair | src/main/java/com/igihecyubuntu/app/service/LikesService.java:49-91 | Toggle, create and delete keep at most one like per post and user. |
| Likes.CountAfterRemoveAndAdd | src/main/java/com/igihecyubuntu/app/service/LikesService.java:49-66 | Removing one like of a post and adding another leaves the count unchanged. |
| Likes.ToggleTwiceRestores | src/main/java/com/igihecyubuntu/app/service/LikesService.java:49-66 | Toggling twice succeeds and restores the set of liked pairs and every post's count. |
| Likes.DeleteLikeDropsCount | src/main/java/com/igihecyubuntu/app/service/LikesService.java:81-91 | Deleting a like takes exactly one off its post's count. |
| BlogDeletes.DeletePost | src/main/java/com/igihecyubuntu/app/service/PostService.java:71-81 | A delete succeeds if and only if the id is good and stored. It removes that post and exactly the likes of that post (the cascade declared at Post.java line 64), and keeps every other row as it was. A refusal is a 400 and changes nothing. |
| BlogDeletes.DeleteBlog | src/main/java/com/igihecyubuntu/app/service/BlogService.java:61-71 | A delete succeeds if and only if the id is good and stored. It removes that blog, exactly the posts of that blog and exactly the likes of those posts (the cascades declared at Blog.java line 32 and Post.java line 64), and keeps every other row as it was. A refusal is a 400 and changes nothing. |
| BlogDeletes.DeletesKeepLinked | src/main/java/com/igihecyubuntu/app/entity/Blog.java:32-33 | Because the deletes cascade, every remaining post still names a stored blog and every remaining like a stored post, and likes stay unique per post and user. |
| BlogDeletes.PostWritesKeepLinked | src/main/java/com/igihecyubuntu/app/service/PostService.java:49-69 | Creating or updating a post keeps every post's blog stored, because validation looks the blog up first. |
| BlogDeletes.LikeWritesKeepLinked | src/main/java/com/igihecyubuntu/app/service/LikesService.java:49-91 | Toggling, creating and deleting likes keep every like's post stored, because validation looks the post up first. |
| BlogDeletes.DeletePostClearsCount | src/main/java/com/igihecyubuntu/app/entity/Post.java:64-65 | After a post is deleted its like count is 0, and every other post's count is unchanged. |
| BlogDeletes.UpdatePostAfterBlogDelete | src/main/java/com/igihecyubuntu/app/service/PostService.java:55-69 | After a blog is deleted, updating one of its posts fails with post-not-found. Moving another blog's post to it fails with blog-not-found. Any other update still succeeds. |
| BlogDeletes.DeleteBlogIsFinal | src/main/java/com/igihecyubuntu/app/service/BlogService.java:61-71 | After a blog is deleted, a second delete of the blog, or a delete of one of its posts, fails with not-found. |
| Accounts.FindAccount | src/main/java/com/igihecyubuntu/app/repository/AccountRepository.java:15 | Finds the one account with that username, if there is one. A null name finds nothing. |
| Accounts.FindCategory | src/main/java/com/igihecyubuntu/app/repository/AccountCategoryRepository.java:10 | Finds the category with that name, if there is one. |
| Accounts.AddAccount | src/main/java/com/igihecyubuntu/app/entity/Account.java:33-34 | Saving an account with a free username and an existing category keeps usernames unique and every category reference valid. |
| Accounts.AddCategory | src/main/java/com/igihecyubuntu/app/entity/AccountCategory.java:30-31 | Saving a category with a free name keeps category names unique. |
| Accounts.PutAccount | src/main/java/com/igihecyubuntu/app/entity/Account.java:51-54 | Overwriting an account that keeps its username and category keeps the schema's guarantees. |
| Accounts.RoleOf | src/main/java/com/igihecyubuntu/app/service/CustomUserDetailsService.java:26 | The role is the name under which the account's own category is found. |
| Accounts.LoadUserByUsername | src/main/java/com/igihecyubuntu/app/service/CustomUserDetailsService.java:22-38 | No principal if and only if the name is unknown. Otherwise username and password are copied, the single authority is ROLE_ plus the category name, and the principal is disabled if and only if the account is inactive. |
| Auth.Session | src/main/java/com/igihecyubuntu/app/controller/AuthController.java:62-74 | The response carries the account's username, full name and category name as role, tokens issued for them, and the configured expiry. |
| Auth.Login | src/main/java/com/igihecyubuntu/app/controller/AuthController.java:45-79 | Success if and only if the account exists and the password opens it: through the encoder for a "$2" hash, by equality otherwise. An unknown user or a wrong password is a 401. On a plain-text match the stored password becomes its hash. Nothing else is written. |
| Auth.LoginMovesPasswordToHash | src/main/java/com/igihecyubuntu/app/controller/AuthController.java:54-58 | After a plain-text login the stored password is hashed, and the same password logs in again without a write. |
| Auth.LoginIgnoresActive | src/main/java/com/igihecyubuntu/app/controller/AuthController.java:45-60 | A deactivated account still logs in, though its principal is disabled. |
| Auth.RequestedCategory | src/main/java/com/igihecyubuntu/app/controller/AuthController.java:119-122 | The requested category upper-cased, or CLIENT when none is sent. Position by position, a lower-case ASCII letter becomes its upper-case letter and every other char is kept. |
| Auth.Register | src/main/java/com/igihecyubuntu/app/controller/AuthController.java:103-135 | Username, password and phone are checked in that order, then the username must be free, all before any write. A missing category is a 500. Otherwise the account is created active, with the hashed password and the email and full-name defaults. |
| Auth.RegisterThenLogin | src/main/java/com/igihecyubuntu/app/controller/AuthController.java:124-133 | A registration that passes every check succeeds; the new account then logs in with its password, and its principal carries the requested role. |
| Auth.Refresh | src/main/java/com/igihecyubuntu/app/controller/AuthController.java:137-162 | New tokens if and only if the token is present and valid and its subject is a known user; otherwise 401. |
| Auth.LoginThenRefresh | src/main/java/com/igihecyubuntu/app/controller/AuthController.java:137-162 | The refresh token of a login refreshes to the same user and role. |
| UserProfile.EmailCheck | src/main/java/com/igihecyubuntu/app/service/UserService.java:36-41 | The email passes if and only if no account but the user's own holds it. |
| UserProfile.UpdateUserAsWritten | src/main/java/com/igihecyubuntu/app/service/UserService.java:36-43 | As written, the check is made against the email as sent, while the trimmed email is stored. |
| UserProfile.UpdateUser | src/main/java/com/igihecyubuntu/app/service/UserService.java:27-56 | Corrected (see ## Findings): the email is looked up trimmed; the code as written is UserProfile.UpdateUserAsWritten. An unknown user and an email held by another account are refused, with no change. Otherwise only the present fields are stored, trimmed (gender also lower-cased), and no other account holds the stored email. |
| UserProfile.UpdateUserAsWrittenSharesEmail | src/main/java/com/igihecyubuntu/app/service/UserService.java:36-43 | As written, a user takes another account's email by sending it with surrounding blanks: the lookup misses the holder, and both accounts then hold the trimmed email. |
| UserProfile.SharedEmailExample | src/main/java/com/igihecyubuntu/app/service/UserService.java:36-43 | As written, user "b" sending " a@x.com" while "a" holds "a@x.com" succeeds, and both accounts then hold "a@x.com". |
| UserProfile.RevisedIdempotent | src/main/java/com/igihecyubuntu/app/service/UserService.java:32-51 | Writing the same profile fields twice stores what writing them once stores. |
| UserProfile.UpdateUserIdempotent | src/main/java/com/igihecyubuntu/app/service/UserService.java:27-56 | A successful profile update succeeds again when repeated, and changes nothing more. |
| UserProfile.ChangePassword | src/main/java/com/igihecyubuntu/app/service/UserService.java:58-83 | Success if and only if the user exists, the current password matches, the new one has at least 6 chars and equals its confirmation. A wrong current password is reported before length and confirmation. Only then is the hash of the new password stored; every failure changes nothing. |
| UserProfile.ChangePasswordThenLogin | src/main/java/com/igihecyubuntu/app/service/UserService.java:77-80 | After a password change the new password logs in. |
| DataInit.EnsureCategory | src/main/java/com/igihecyubuntu/app/service/DataInitializationService.java:41-49 | An existing category is returned unchanged. Otherwise a new category with that name and description is added. Either way it can then be found by name. |
| DataInit.EnsureAdmin | src/main/java/com/igihecyubuntu/app/service/DataInitializationService.java:51-61 | An existing "admin" account is returned untouched. Otherwise the default administrator is added. |
| DataInit.EnsureCategories | src/main/java/com/igihecyubuntu/app/service/DataInitializationService.java:28-30 | ADMIN, CLIENT and MEMBER all exist afterwards, and nothing stored is changed. |
| DataInit.Run | src/main/java/com/igihecyubuntu/app/service/DataInitializationService.java:24-39 | Afterwards the three categories and the admin account exist, and no stored row was changed. A newly created admin has the hashed default password and the ADMIN role. |
| DataInit.RunIdempotent | src/main/java/com/igihecyubuntu/app/service/DataInitializationService.java:24-39 | Running the initialisation twice is running it once. |

## Left out

- Paging and size caps (`ResponseUtil.createPageable`), the response envelopes, and the projection interfaces and `convertToProjection` copies: a list is modelled as the set (or ordered sequence) of ids it returns, before paging.
- Queries the repository files do not declare are modelled after the names of the methods the controllers call: active, and either of two named columns contains the term. Each search is `search` in its `DocumentControllers` schema.
  - The CargoDamage, LitigationFollowup and ThirdPartyClaims repositories declare search methods other than the ones their controllers call.
  - The repositories of CommFollowupAudit, CommThirdParty, PermiConstruction, CertLicenses and Estate are not part of this model. Their searches, the permit-number `existsBy...AndActiveTrue` check and the expiry listings of permits and certificates follow the method names.
  - `findExpiringWithinDaysProjections` (insurance), the claim-status projection query and `findAllBySectionCategoryProjections` (CommAssetLandController.java line 239) are declared nowhere. Neither is `findByActiveTrueAndSectionCategory_Id` (CommAssetLandController.java line 68, EquipmentIdController.java line 70; CommAssetLandRepository declares `findByActiveTrueAndSection_Id` instead), and CommAssetLandRepository does not declare `findByActiveTrueAndDocument_Id` (CommAssetLandController.java line 71). The section and document branches of `DocumentControllers.CommAssetLandList` and `DocumentControllers.EquipmentIdList` follow these method names. Their selections follow the method names (`SortedListing.ExpiringListing`, `SortedListing.ClaimsByStatusListing`, `SortedListing.AssetLandBySectionListing`).
- SortedListing.ExpiringListing: for insurance, the window is checked on `endDate`, the date the controller writes and sorts by. The declared but unused `findExpiringWithinDays` compares `expiryDate`, which the insurance controller never writes; that query is `DocumentRepositories.InsuranceExpiring`.
- `findAllActiveProjections`, `findByIdAndActiveTrue` and the `existsBy...AndActiveTrue` queries enter as the active-row selections (`SoftDelete.ActiveIds`, `SoftDelete.GetById`, `SoftDelete.Taken`), not as separate members.
- Database collation: string equality is exact, whereas MySQL may compare case-insensitively and ignore trailing blanks. LIKE has no escape char, and none is modelled.
- Case mapping covers ASCII letters only; Java's full Unicode `toLowerCase`/`toUpperCase` is not modelled. `String.length()` counts UTF-16 units, the model counts chars.
- BigDecimal amounts and dates are opaque numbers. A date is a day number; date arithmetic beyond adding days is not modelled.
- Clocks: `@PrePersist`/`@PreUpdate` timestamps and `LocalDateTime.now()` become the parameter `now`, and the creation and update times of accounts and documents are not stored.
- Concurrency: one request at a time, so races on the like toggle and on uniqueness checks are out of scope. Database unique constraints are not modelled.
- BCrypt and the JWT utility are functions passed in (`Accounts.Encoder`, `Accounts.Tokens`), with no properties beyond what a lemma assumes explicitly (`Auth.Consistent`).
- `EmailService`, `CorsConfigurationValidator`, logging, the dashboard GROUP BY queries and `DashboardController` have no behaviour the model could state.
- Join tables: the model keeps no `post_comment`, `post_pictures` or `post_category` rows. So it does not model that removing a post also removes its join rows. Nor does it model the foreign-key error raised by deleting a comment, picture or category that a join row still references.
- `GlobalExceptionHandler` dispatch is folded into the status codes of the replies.
- Blog's default status "PENDING" is unreachable through `BlogService`, because validation requires a status, so it is not modelled.
- `getBlogById`, `getCategoryByName`, `getCategoriesByUser` and the other projection getters of the blog services are reads with no rule beyond the id check, and are not modelled.
- BlogServices.PicturesByType: the pictures are returned as a set; their order by upload time is not modelled.
- The registration request's `confirmPassword` field is not used by `register`, so it is not modelled.
- JPA's merge of an id sent in a create body is not modelled: create always takes a fresh id.

## Findings

| source | as written | input that shows it | evidently intended | confidence | as-written member | corrected member |
|---|---|---|---|---|---|---|
| src/main/java/com/bar/gestiondesfichier/document/repository/EquipmentIdRepository.java:30-34 | `active = true AND type LIKE .. OR serial LIKE .. OR plate LIKE ..` with no parentheses; AND binds tighter, so a deleted row matches through its serial or plate number | a row with active = false and serialNumber "sn1", search "sn1": the row is returned | `active = true AND (type LIKE .. OR serial LIKE .. OR plate LIKE ..)`, like every other search query of the application | medium, not executed | DocumentRepositories.EquipmentSearchTermsLeaksDeleted | DocumentRepositories.EquipmentSearchTermsCorrected |
| src/main/java/com/igihecyubuntu/app/service/UserService.java:36-43 | the "already in use" lookup uses the email as sent, but the trimmed email is stored | account "a" holds "a@x.com"; user "b" updates the email to " a@x.com": the lookup finds no holder, and both accounts then hold "a@x.com" | look up the trimmed email, the form that is stored, so that no other account holds it | medium, not executed | UserProfile.SharedEmailExample | UserProfile.UpdateUser |

=== FILE: account_categories.dfy ===
/**
 * The account-category endpoints of the file-management application. Categories are deleted
 * for good, and the only name check happens on create, through `existsByName`, which compares
 * a null name with IS NULL.
 */
module AccountCategories {
  import opened Common
  import opened Tables

  datatype Category = Category(name: Option<string>, description: Option<string>)

  datatype CategoryRequest = CategoryRequest(name: Option<string>, description: Option<string>)

  datatype CategoryDto = CategoryDto(id: int, name: Option<string>, description: Option<string>)

  type CategoryStore = Table<Category>

  function ToDto(id: int, c: Category): (d: CategoryDto)
    ensures d.id == id && d.name == c.name && d.description == c.description
  {
    CategoryDto(id, c.name, c.description)
  }

  /** `existsByName(name)`. */
  predicate NameExists(st: CategoryStore, name: Option<string>) {
    exists id :: id in st.rows && st.rows[id].name == name
  }

  /** No two stored categories share a name. */
  ghost predicate NamesUnique(st: CategoryStore) {
    forall a, b :: a in st.rows && b in st.rows && st.rows[a].name == st.rows[b].name ==> a == b
  }

  function ListAll(st: CategoryStore): (ds: set<CategoryDto>)
    ensures forall d :: d in ds <==> d.id in st.rows && d == ToDto(d.id, st.rows[d.id])
  {
    set id | id in st.rows :: ToDto(id, st.rows[id])
  }

  function Get(st: CategoryStore, id: int): (r: Reply<CategoryDto>)
    ensures r.Done? <==> id in st.rows
    ensures r.Done? ==> r == Done(OK, ToDto(id, st.rows[id]))
    ensures r.Fail? ==> r.code == NOT_FOUND
  {
    if id in st.rows then Done(OK, ToDto(id, st.rows[id])) else Fail(NOT_FOUND, NotFound("category"))
  }

  /** Create: refused when any category already holds the name (null matching null). */
  function Create(st: CategoryStore, req: CategoryRequest): (r: (Reply<CategoryDto>, CategoryStore))
    requires st.Valid()
    ensures r.1.Valid()
    ensures r.0.Done? <==> !NameExists(st, req.name)
    ensures r.0.Fail? ==> r.0.code == BAD_REQUEST && r.1 == st
    ensures r.0.Done? ==> (r.0.code == CREATED && r.0.value.id !in st.rows
                           && r.1.rows == st.rows[r.0.value.id := Category(req.name, req.description)])
  {
    if NameExists(st, req.name) then (Fail(BAD_REQUEST, Duplicate("name")), st)
    else
      var c := Category(req.name, req.description);
      var (st', id) := st.Insert(c);
      (Done(CREATED, ToDto(id, c)), st')
  }

  /** Update: name and description are overwritten, null included, with no name check. */
  function Update(st: CategoryStore, id: int, req: CategoryRequest): (r: (Reply<CategoryDto>, CategoryStore))
    ensures r.0.Done? <==> id in st.rows
    ensures r.0.Fail? ==> r.0.code == NOT_FOUND && r.1 == st
    ensures r.0.Done? ==> (r.0.code == OK && r.1.rows == st.rows[id := Category(req.name, req.description)]
                           && r.0.value == ToDto(id, Category(req.name, req.description)))
  {
    if id !in st.rows then (Fail(NOT_FOUND, NotFound("category")), st)
    else
      var c := Category(req.name, req.description);
      (Done(OK, ToDto(id, c)), st.Put(id, c))
  }

  /** Delete: a hard delete answering 204. */
  function Delete(st: CategoryStore, id: int): (r: (Reply<Unit>, CategoryStore))
    ensures r.0.Done? <==> id in st.rows
    ensures r.0.Fail? ==> r.0.code == NOT_FOUND && r.1 == st
    ensures r.0.Done? ==> r.0.code == NO_CONTENT && r.1.rows == st.rows - {id}
  {
    if id !in st.rows then (Fail(NOT_FOUND, NotFound("category")), st)
    else (Done(NO_CONTENT, Unit), st.Remove(id))
  }

  /** Create and delete keep names unique. */
  lemma CreateDeleteKeepNamesUnique(st: CategoryStore, req: CategoryRequest, id: int)
    requires st.Valid() && NamesUnique(st)
    ensures NamesUnique(Create(st, req).1)
    ensures NamesUnique(Delete(st, id).1)
  {
  }

  /** Update does not: renaming one category to another's name succeeds and leaves the two sharing it. */
  lemma UpdateCanDuplicateName(st: CategoryStore, a: int, b: int)
    requires a != b && a in st.rows && b in st.rows
    ensures var (r, st') := Update(st, a, CategoryRequest(st.rows[b].name, None));
      r.Done? && !NamesUnique(st')
  {
    var st' := Update(st, a, CategoryRequest(st.rows[b].name, None)).1;
    assert st'.rows[a].name == st'.rows[b].name;
  }

  /** After a hard delete the id is gone, and its name is free for a new category. */
  lemma DeleteFreesName(st: CategoryStore, id: int, description: Option<string>)
    requires st.Valid() && NamesUnique(st) && id in st.rows
    ensures var st1 := Delete(st, id).1;
      Get(st1, id).code == NOT_FOUND && id !in st1.rows
      && Create(st1, CategoryRequest(st.rows[id].name, description)).0.Done?
  {
    var st1 := Delete(st, id).1;
    forall k | k in st1.rows ensures st1.rows[k].name != st.rows[id].name {
      assert k in st.rows && k != id;
    }
  }
}

=== FILE: accounts.dfy ===
/**
 * The accounts of the blog application and the services around them that need no request
 * handling: looking an account up, the password encoder and token utility it relies on (both
 * outside this model, so they enter as functions), and the mapping from an account to the
 * security principal.
 */
module Accounts {
  import opened Common
  import opened Tables

  datatype AccountCategory = AccountCategory(name: string, description: Option<string>)

  /** `category` is the id of the account's category: a non-null foreign key. */
  datatype Account = Account(username: string, password: string, email: string, fullName: string,
                             phoneNumber: Option<string>, gender: Option<string>, active: bool, category: int)

  /** The two tables the account code touches. */
  datatype Directory = Directory(accounts: Table<Account>, categories: Table<AccountCategory>)

  /**
   * What the schema guarantees: usernames and category names are unique columns, and every
   * account's category exists.
   */
  ghost predicate Valid(d: Directory) {
    && d.accounts.Valid() && d.categories.Valid()
    && (forall a, b :: a in d.accounts.rows && b in d.accounts.rows && d.accounts.rows[a].username == d.accounts.rows[b].username ==> a == b)
    && (forall a, b :: a in d.categories.rows && b in d.categories.rows && d.categories.rows[a].name == d.categories.rows[b].name ==> a == b)
    && (forall a :: a in d.accounts.rows ==> d.accounts.rows[a].category in d.categories.rows)
  }

  /** `accountRepository.findByUsername`: a null name finds nothing. */
  function FindAccount(d: Directory, username: Option<string>): (r: Option<int>)
    requires Valid(d)
    ensures r.Some? ==> username.Some? && r.value in d.accounts.rows && d.accounts.rows[r.value].username == username.value
    ensures r.Some? ==> forall id :: id in d.accounts.rows && d.accounts.rows[id].username == username.value ==> id == r.value
    ensures r.None? <==> username.None? || forall id :: id in d.accounts.rows ==> d.accounts.rows[id].username != username.value
  {
    if username.None? then None
    else d.accounts.Find(set id | id in d.accounts.rows && d.accounts.rows[id].username == username.value)
  }

  /** `accountCategoryRepository.findByName`. */
  function FindCategory(d: Directory, name: string): (r: Option<int>)
    requires Valid(d)
    ensures r.Some? ==> r.value in d.categories.rows && d.categories.rows[r.value].name == name
    ensures r.None? <==> forall id :: id in d.categories.rows ==> d.categories.rows[id].name != name
  {
    d.categories.Find(set id | id in d.categories.rows && d.categories.rows[id].name == name)
  }

  /** Saves a new account under a fresh id; the schema's guarantees survive when its username is free and its category exists. */
  function AddAccount(d: Directory, a: Account): (r: (Directory, int))
    requires Valid(d) && FindAccount(d, Some(a.username)).None? && a.category in d.categories.rows
    ensures Valid(r.0) && r.0.categories == d.categories
    ensures r.1 !in d.accounts.rows && r.0.accounts.rows == d.accounts.rows[r.1 := a]
  {
    var (accounts, id) := d.accounts.Insert(a);
    (d.(accounts := accounts), id)
  }

  /** Saves a new category under a fresh id; the schema's guarantees survive when its name is free. */
  function AddCategory(d: Directory, c: AccountCategory): (r: (Directory, int))
    requires Valid(d) && FindCategory(d, c.name).None?
    ensures Valid(r.0) && r.0.accounts == d.accounts
    ensures r.1 !in d.categories.rows && r.0.categories.rows == d.categories.rows[r.1 := c]
  {
    var (categories, id) := d.categories.Insert(c);
    (d.(categories := categories), id)
  }

  /** Overwrites a stored account; the schema's guarantees survive when its username and category are kept. */
  function PutAccount(d: Directory, id: int, a: Account): (r: Directory)
    requires Valid(d) && id in d.accounts.rows
    requires a.username == d.accounts.rows[id].username && a.category == d.accounts.rows[id].category
    ensures Valid(r) && r.categories == d.categories
    ensures r.accounts.rows == d.accounts.rows[id := a]
  {
    d.(accounts := d.accounts.Put(id, a))
  }

  /** The name of an account's category: the role the application grants it. */
  function RoleOf(d: Directory, id: int): (role: string)
    requires Valid(d) && id in d.accounts.rows
    ensures FindCategory(d, role) == Some(d.accounts.rows[id].category)
  {
    d.categories.rows[d.accounts.rows[id].category].name
  }

  /** The password encoder: `encode` hashes a raw password, `matches` checks a raw password against a stored hash. */
  datatype Encoder = Encoder(encode: string -> string, matches: (string, string) -> bool)

  /**
   * The token utility: `access(username, role, fullName)` and `refresh(username)` issue tokens,
   * `valid` checks one, `subject` reads the username back.
   */
  datatype Tokens = Tokens(access: (string, string, string) -> string, refresh: string -> string,
                           valid: string -> bool, subject: string -> string)

  /** What the security layer sees of an account. */
  datatype Principal = Principal(username: string, password: string, authorities: seq<string>, disabled: bool)

  /** `loadUserByUsername`: the account as a principal with the single authority `ROLE_<category>`; none when the name is unknown. */
  function LoadUserByUsername(d: Directory, username: string): (p: Option<Principal>)
    requires Valid(d)
    ensures p.None? <==> FindAccount(d, Some(username)).None?
    ensures p.Some? ==> var id := FindAccount(d, Some(username)).value;
      && p.value.username == username && p.value.password == d.accounts.rows[id].password
      && p.value.authorities == ["ROLE_" + RoleOf(d, id)]
      && (p.value.disabled <==> !d.accounts.rows[id].active)
  {
    match FindAccount(d, Some(username))
    case None => None
    case Some(id) =>
      var a := d.accounts.rows[id];
      Some(Principal(a.username, a.password, ["ROLE_" + RoleOf(d, id)], !a.active))
  }
}

=== FILE: auth.dfy ===
/**
 * The authentication endpoints of the blog application: login (with the lazy move of a
 * plain-text password to a hash), registration and token refresh. An exception these
 * endpoints do not catch is answered with 500.
 */
module Auth {
  import opened Common
  import opened JavaText
  import opened Tables
  import opened Accounts

  datatype LoginRequest = LoginRequest(username: Option<string>, password: Option<string>)

  /** The body of a successful login or refresh; a refresh leaves `userId` unset. */
  datatype LoginResponse = LoginResponse(userId: Option<int>, username: string, fullName: string, role: string,
                                         token: string, refreshToken: string, expiresIn: int)

  /** A stored password in the encoder's hash format: one that starts with "$2". */
  predicate Hashed(stored: string) {
    StartsWith(stored, "$2")
  }

  /** Whether `given` opens an account whose stored password is `stored`, on the path the stored form selects. */
  predicate Opens(enc: Encoder, given: string, stored: string) {
    if Hashed(stored) then enc.matches(given, stored) else given == stored
  }

  /** The tokens and fields a successful login or refresh answers with. */
  function Session(d: Directory, id: int, tokens: Tokens, expiration: int, userId: Option<int>): (s: LoginResponse)
    requires Valid(d) && id in d.accounts.rows
    ensures s.username == d.accounts.rows[id].username && s.fullName == d.accounts.rows[id].fullName && s.role == RoleOf(d, id)
    ensures s.token == tokens.access(s.username, s.role, s.fullName) && s.refreshToken == tokens.refresh(s.username)
    ensures s.expiresIn == expiration && s.userId == userId
  {
    var a := d.accounts.rows[id];
    LoginResponse(userId, a.username, a.fullName, RoleOf(d, id), tokens.access(a.username, RoleOf(d, id), a.fullName), tokens.refresh(a.username), expiration)
  }

  /**
   * `login`: an unknown username or a password that does not open the account is answered
   * with 401. A hashed password is checked with the encoder only; any other stored password is
   * compared as text and, when it matches, replaced by its hash. Whether the account is active
   * is not consulted. A null password for a known account makes the check throw.
   */
  function Login(d: Directory, req: LoginRequest, enc: Encoder, tokens: Tokens, expiration: int): (r: (Reply<LoginResponse>, Directory))
    requires Valid(d)
    ensures Valid(r.1)
    ensures FindAccount(d, req.username).None? ==> r == (Fail(UNAUTHORIZED, BadCredentials), d)
    ensures r.0.Done? <==> FindAccount(d, req.username).Some? && req.password.Some?
                           && Opens(enc, req.password.value, d.accounts.rows[FindAccount(d, req.username).value].password)
    ensures r.0.Fail? ==> r.1 == d && r.0.code in {UNAUTHORIZED, SERVER_ERROR}
    ensures r.0.Done? ==> var id := FindAccount(d, req.username).value;
      && r.0.code == OK && r.0.value == Session(d, id, tokens, expiration, Some(id))
      && (Hashed(d.accounts.rows[id].password) ==> r.1 == d)
      && (!Hashed(d.accounts.rows[id].password) ==>
            r.1 == d.(accounts := d.accounts.Put(id, d.accounts.rows[id].(password := enc.encode(req.password.value)))))
  {
    match FindAccount(d, req.username)
    case None => (Fail(UNAUTHORIZED, BadCredentials), d)
    case Some(id) =>
      var a := d.accounts.rows[id];
      if req.password.None? then (Fail(SERVER_ERROR, Internal), d)
      else if !Opens(enc, req.password.value, a.password) then (Fail(UNAUTHORIZED, BadCredentials), d)
      else
        var d' := if Hashed(a.password) then d else PutAccount(d, id, a.(password := enc.encode(req.password.value)));
        (Done(OK, Session(d, id, tokens, expiration, Some(id))), d')
  }

  /** An encoder whose hashes carry the "$2" prefix and match the password they were made from. */
  predicate Consistent(enc: Encoder, pw: string) {
    Hashed(enc.encode(pw)) && enc.matches(pw, enc.encode(pw))
  }

  /**
   * After a plain-text login the stored password is a hash: the same password logs in again,
   * now through the encoder, and the second login writes nothing.
   */
  lemma LoginMovesPasswordToHash(d: Directory, req: LoginRequest, enc: Encoder, tokens: Tokens, expiration: int)
    requires Valid(d) && req.password.Some? && Consistent(enc, req.password.value)
    requires Login(d, req, enc, tokens, expiration).0.Done?
    ensures var d1 := Login(d, req, enc, tokens, expiration).1;
      var (r2, d2) := Login(d1, req, enc, tokens, expiration);
      && Hashed(d1.accounts.rows[FindAccount(d, req.username).value].password)
      && r2.Done? && d2 == d1
  {
    var id := FindAccount(d, req.username).value;
    var d1 := Login(d, req, enc, tokens, expiration).1;
    assert FindAccount(d1, req.username) == Some(id);
  }

  /** Login ignores the active flag: a deactivated account still logs in, though its principal is disabled. */
  lemma LoginIgnoresActive(d: Directory, req: LoginRequest, enc: Encoder, tokens: Tokens, expiration: int)
    requires Valid(d) && FindAccount(d, req.username).Some? && req.password.Some?
    requires var a := d.accounts.rows[FindAccount(d, req.username).value]; !a.active && Opens(enc, req.password.value, a.password)
    ensures Login(d, req, enc, tokens, expiration).0.Done?
    ensures LoadUserByUsername(d, req.username.value).value.disabled
  {
  }

  datatype RegistrationRequest = RegistrationRequest(username: Option<string>, password: Option<string>, phoneNumber: Option<string>,
                                                     email: Option<string>, fullName: Option<string>, accountCategory: Option<string>,
                                                     gender: Option<string>)

  /** The category a registration asks for: the requested name upper-cased, or CLIENT. */
  function RequestedCategory(req: RegistrationRequest): (name: string)
    ensures req.accountCategory.None? ==> name == "CLIENT"
    ensures req.accountCategory.Some? ==> |name| == |req.accountCategory.value| && Upper(name) == name
    ensures req.accountCategory.Some? ==> forall i :: 0 <= i < |name| ==>
      var c := req.accountCategory.value[i];
      if 'a' <= c <= 'z' then name[i] as int == c as int - ('a' as int - 'A' as int) else name[i] == c
  {
    if req.accountCategory.Some? then UpperIdempotent(req.accountCategory.value); Upper(req.accountCategory.value) else "CLIENT"
  }

  lemma UpperIdempotent(s: string)
    ensures Upper(Upper(s)) == Upper(s)
  {
  }

  /** The account a registration creates, field by field. */
  predicate Registered(a: Account, req: RegistrationRequest, enc: Encoder)
    requires req.username.Some? && req.password.Some?
  {
    && a.username == req.username.value && a.password == enc.encode(req.password.value)
    && a.email == (if req.email.Some? then req.email.value else req.username.value + "@example.com")
    && a.fullName == (if req.fullName.Some? then req.fullName.value else req.username.value)
    && a.phoneNumber == req.phoneNumber && a.gender == req.gender && a.active
  }

  /**
   * `register`: username, password and phone number must be present, in that order, and the
   * username free; the requested category must exist, or the call throws. The new account is
   * active, holds the encoded password, and falls back to `<username>@example.com` and the
   * username for a missing email and full name.
   */
  function Register(d: Directory, req: RegistrationRequest, enc: Encoder): (r: (Reply<int>, Directory))
    requires Valid(d)
    ensures Valid(r.1)
    ensures r.0.Fail? ==> r.1 == d
    ensures !Present(req.username) ==> r.0 == Fail(BAD_REQUEST, Required("username"))
    ensures Present(req.username) && !Present(req.password) ==> r.0 == Fail(BAD_REQUEST, Required("password"))
    ensures Present(req.username) && Present(req.password) && !Present(req.phoneNumber) ==> r.0 == Fail(BAD_REQUEST, Required("phone number"))
    ensures Present(req.username) && Present(req.password) && Present(req.phoneNumber) && FindAccount(d, req.username).Some?
            ==> r.0 == Fail(BAD_REQUEST, Duplicate("username"))
    ensures r.0.Done? <==> Present(req.username) && Present(req.password) && Present(req.phoneNumber)
                           && FindAccount(d, req.username).None? && FindCategory(d, RequestedCategory(req)).Some?
    ensures r.0.Done? ==> var id := r.0.value;
      && r.0.code == OK && id !in d.accounts.rows && r.1.categories == d.categories && id in r.1.accounts.rows
      && r.1.accounts.rows == d.accounts.rows[id := r.1.accounts.rows[id]]
      && Registered(r.1.accounts.rows[id], req, enc)
      && RoleOf(r.1, id) == RequestedCategory(req)
  {
    if !Present(req.username) then (Fail(BAD_REQUEST, Required("username")), d)
    else if !Present(req.password) then (Fail(BAD_REQUEST, Required("password")), d)
    else if !Present(req.phoneNumber) then (Fail(BAD_REQUEST, Required("phone number")), d)
    else if FindAccount(d, req.username).Some? then (Fail(BAD_REQUEST, Duplicate("username")), d)
    else match FindCategory(d, RequestedCategory(req))
      case None => (Fail(SERVER_ERROR, Internal), d)
      case Some(cat) =>
        var u := req.username.value;
        var a := Account(u, enc.encode(req.password.value),
                         if req.email.Some? then req.email.value else u + "@example.com",
                         if req.fullName.Some? then req.fullName.value else u,
                         req.phoneNumber, req.gender, true, cat);
        var (d', id) := AddAccount(d, a);
        assert d'.categories == d.categories && id in d'.accounts.rows;
        assert RoleOf(d', id) == d.categories.rows[cat].name == RequestedCategory(req);
        assert Registered(d'.accounts.rows[id], req, enc);
        (Done(OK, id), d')
  }

  /** A registered account can log in with the password it registered, and its principal carries the requested role. */
  lemma RegisterThenLogin(d: Directory, req: RegistrationRequest, enc: Encoder, tokens: Tokens, expiration: int)
    requires Valid(d) && Present(req.username) && Present(req.password) && Present(req.phoneNumber)
    requires FindAccount(d, req.username).None? && FindCategory(d, RequestedCategory(req)).Some?
    requires Consistent(enc, req.password.value)
    ensures var (r, d1) := Register(d, req, enc);
      && r.Done?
      && Login(d1, LoginRequest(req.username, req.password), enc, tokens, expiration).0.Done?
      && LoadUserByUsername(d1, req.username.value) == Some(Principal(req.username.value, enc.encode(req.password.value),
                                                                      ["ROLE_" + RequestedCategory(req)], false))
  {
    var (r, d1) := Register(d, req, enc);
    assert FindAccount(d1, req.username) == Some(r.value);
  }

  /**
   * `refreshToken`: a present, valid token whose subject names an account yields a new pair of
   * tokens for that account; anything else is answered with 401.
   */
  function Refresh(d: Directory, token: Option<string>, tokens: Tokens, expiration: int): (r: Reply<LoginResponse>)
    requires Valid(d)
    ensures r.Done? <==> token.Some? && tokens.valid(token.value) && FindAccount(d, Some(tokens.subject(token.value))).Some?
    ensures r.Fail? ==> r == Fail(UNAUTHORIZED, BadToken)
    ensures r.Done? ==> r.code == OK && r.value == Session(d, FindAccount(d, Some(tokens.subject(token.value))).value, tokens, expiration, None)
  {
    if token.None? || !tokens.valid(token.value) then Fail(UNAUTHORIZED, BadToken)
    else match FindAccount(d, Some(tokens.subject(token.value)))
      case None => Fail(UNAUTHORIZED, BadToken)
      case Some(id) => Done(OK, Session(d, id, tokens, expiration, None))
  }

  /** With a token utility that reads back what it issued, the refresh token of a login refreshes to the same user and role. */
  lemma LoginThenRefresh(d: Directory, req: LoginRequest, enc: Encoder, tokens: Tokens, expiration: int)
    requires Valid(d) && Login(d, req, enc, tokens, expiration).0.Done?
    requires var t := Login(d, req, enc, tokens, expiration).0.value.refreshToken; tokens.valid(t) && tokens.subject(t) == req.username.value
    ensures var (r, d1) := Login(d, req, enc, tokens, expiration);
      var s := Refresh(d1, Some(r.value.refreshToken), tokens, expiration);
      s.Done? && s.value.username == r.value.username && s.value.role == r.value.role && s.value.userId.None?
  {
    var id := FindAccount(d, req.username).value;
    var d1 := Login(d, req, enc, tokens, expiration).1;
    assert FindAccount(d1, req.username) == Some(id);
  }
}

=== FILE: blog_deletes.dfy ===
/**
 * The deletes of the blog application that reach beyond their own table. A blog owns its posts
 * and a post owns its likes (both relations cascade every operation), so removing a blog removes
 * its posts and their likes, and removing a post removes its likes.
 */
module BlogDeletes {
  import opened Common
  import opened Tables
  import opened BlogServices
  import opened Likes

  /** The likes of any post in `ps`. */
  function LikesOfAny(likes: LikeStore, ps: set<int>): (ids: set<int>)
    ensures forall id :: id in ids <==> id in likes.rows && likes.rows[id].postId.Some? && likes.rows[id].postId.value in ps
  {
    set id | id in likes.rows && likes.rows[id].postId.Some? && likes.rows[id].postId.value in ps
  }

  /** A like that belongs to a post of blog `blogId`. */
  predicate LikeOfBlog(posts: PostStore, l: Like, blogId: int) {
    l.postId.Some? && l.postId.value in posts.rows && posts.rows[l.postId.value].blogId == Some(blogId)
  }

  /** `deletePost`: the checked delete of the post, and with it every like of the post. */
  function DeletePost(posts: PostStore, likes: LikeStore, id: Option<int>): (r: (Reply<Unit>, PostStore, LikeStore))
    ensures posts.Valid() ==> r.1.Valid()
    ensures likes.Valid() ==> r.2.Valid()
    ensures r.0.Done? <==> GoodId(id) && id.value in posts.rows
    ensures r.0.Fail? ==> r.0.code == BAD_REQUEST && r.1 == posts && r.2 == likes
    ensures r.0.Fail? ==> (r.0.reason == InvalidId <==> !GoodId(id))
    ensures r.0.Done? ==> r.0.code == OK && r.1.rows.Keys == posts.rows.Keys - {id.value}
                          && (forall k :: k in r.1.rows ==> r.1.rows[k] == posts.rows[k])
    ensures r.0.Done? ==> (forall k :: k in r.2.rows <==> k in likes.rows && likes.rows[k].postId != Some(id.value))
                          && (forall k :: k in r.2.rows ==> r.2.rows[k] == likes.rows[k])
  {
    var (reply, posts') := Delete(posts, id, "post");
    if reply.Fail? then (reply, posts', likes)
    else (reply, posts', likes.RemoveAll(LikesOf(likes, id.value)))
  }

  /** `deleteBlog`: the checked delete of the blog, and with it every post of the blog and every like of those posts. */
  function DeleteBlog(blogs: BlogStore, posts: PostStore, likes: LikeStore, id: Option<int>): (r: (Reply<Unit>, BlogStore, PostStore, LikeStore))
    ensures blogs.Valid() ==> r.1.Valid()
    ensures posts.Valid() ==> r.2.Valid()
    ensures likes.Valid() ==> r.3.Valid()
    ensures r.0.Done? <==> GoodId(id) && id.value in blogs.rows
    ensures r.0.Fail? ==> r.0.code == BAD_REQUEST && r.1 == blogs && r.2 == posts && r.3 == likes
    ensures r.0.Fail? ==> (r.0.reason == InvalidId <==> !GoodId(id))
    ensures r.0.Done? ==> r.0.code == OK && r.1.rows.Keys == blogs.rows.Keys - {id.value}
                          && (forall k :: k in r.1.rows ==> r.1.rows[k] == blogs.rows[k])
    ensures r.0.Done? ==> (forall k :: k in r.2.rows <==> k in posts.rows && posts.rows[k].blogId != Some(id.value))
                          && (forall k :: k in r.2.rows ==> r.2.rows[k] == posts.rows[k])
    ensures r.0.Done? ==> (forall k :: k in r.3.rows <==> k in likes.rows && !LikeOfBlog(posts, likes.rows[k], id.value))
                          && (forall k :: k in r.3.rows ==> r.3.rows[k] == likes.rows[k])
  {
    var (reply, blogs') := Delete(blogs, id, "blog");
    if reply.Fail? then (reply, blogs', posts, likes)
    else
      var gone := posts.Children((p: Post) => p.blogId, id.value);
      (reply, blogs', posts.RemoveAll(gone), likes.RemoveAll(LikesOfAny(likes, gone)))
  }

  /** Every post names a stored blog and every like a stored post: what the foreign keys of the schema demand. */
  ghost predicate Linked(blogs: BlogStore, posts: PostStore, likes: LikeStore) {
    && (forall p :: p in posts.rows ==> posts.rows[p].blogId.Some? && posts.rows[p].blogId.value in blogs.rows)
    && (forall l :: l in likes.rows ==> likes.rows[l].postId.Some? && likes.rows[l].postId.value in posts.rows)
  }

  /** The cascading deletes keep every post's blog and every like's post stored, and keep likes unique per pair. */
  lemma DeletesKeepLinked(blogs: BlogStore, posts: PostStore, likes: LikeStore, id: Option<int>)
    requires Linked(blogs, posts, likes)
    ensures var (_, blogs', posts', likes') := DeleteBlog(blogs, posts, likes, id); Linked(blogs', posts', likes')
    ensures var (_, posts', likes') := DeletePost(posts, likes, id); Linked(blogs, posts', likes')
    ensures AtMostOnePerPair(likes) ==> AtMostOnePerPair(DeleteBlog(blogs, posts, likes, id).3) && AtMostOnePerPair(DeletePost(posts, likes, id).2)
  {
    var (r, blogs', posts', likes') := DeleteBlog(blogs, posts, likes, id);
    if r.Done? {
      forall l | l in likes'.rows ensures likes'.rows[l].postId.Some? && likes'.rows[l].postId.value in posts'.rows {
        var p := likes.rows[l].postId.value;
        assert !LikeOfBlog(posts, likes.rows[l], id.value);
        assert posts.rows[p].blogId != Some(id.value);
      }
    }
  }

  /** Creating or updating a post keeps every post's blog and every like's post stored. */
  lemma PostWritesKeepLinked(blogs: BlogStore, posts: PostStore, likes: LikeStore, id: Option<int>, post: Option<Post>, now: int)
    requires posts.Valid() && Linked(blogs, posts, likes)
    ensures Linked(blogs, CreatePost(posts, blogs, post, now).1, likes)
    ensures Linked(blogs, UpdatePost(posts, blogs, id, post).1, likes)
  {
    var (c, posts1) := CreatePost(posts, blogs, post, now);
    if c.Done? {
      forall l | l in likes.rows ensures likes.rows[l].postId.value in posts1.rows {
      }
    }
  }

  /** Toggling, creating or deleting a like keeps every like's post stored. */
  lemma LikeWritesKeepLinked(blogs: BlogStore, posts: PostStore, likes: LikeStore, id: Option<int>,
                             like: Option<Like>, postId: Option<int>, doneBy: Option<int>, now: int)
    requires likes.Valid() && Linked(blogs, posts, likes)
    ensures Linked(blogs, posts, Toggle(likes, posts, postId, doneBy, now).1)
    ensures Linked(blogs, posts, CreateLike(likes, posts, like, now).1)
    ensures Linked(blogs, posts, Delete(likes, id, "like").1)
  {
    var (t, likes1) := Toggle(likes, posts, postId, doneBy, now);
    if t.Done? && t.value.Some? {
      assert likes1.rows == likes.rows[t.value.value.0 := t.value.value.1];
    }
    var (c, likes2) := CreateLike(likes, posts, like, now);
    if c.Done? {
      assert likes2.rows == likes.rows[c.value.0 := c.value.1];
    }
  }

  /** Deleting a post takes its like count to zero and leaves every other post's count alone. */
  lemma DeletePostClearsCount(posts: PostStore, likes: LikeStore, p: int, q: int)
    requires p > 0 && p in posts.rows && q > 0
    ensures var likes' := DeletePost(posts, likes, Some(p)).2;
      && CountByPost(likes', Some(p)) == Done(OK, 0)
      && (q != p ==> CountByPost(likes', Some(q)) == CountByPost(likes, Some(q)))
  {
    var likes' := DeletePost(posts, likes, Some(p)).2;
    assert LikesOf(likes', p) == {};
    assert q != p ==> LikesOf(likes', q) == LikesOf(likes, q);
  }

  /**
   * After its blog is deleted a post is gone, so its update fails on the post lookup; a post of
   * another blog that asks to move to the deleted blog fails on the blog lookup instead.
   */
  lemma UpdatePostAfterBlogDelete(blogs: BlogStore, posts: PostStore, likes: LikeStore, b: int, p: int, body: Post)
    requires b > 0 && b in blogs.rows && p > 0 && p in posts.rows
    requires GoodId(body.blogId) && GoodId(body.doneBy) && body.blogId.value in blogs.rows
    ensures var (_, blogs', posts', _) := DeleteBlog(blogs, posts, likes, Some(b));
      var r := UpdatePost(posts', blogs', Some(p), Some(body)).0;
      && (posts.rows[p].blogId == Some(b) ==> r == Fail(BAD_REQUEST, NotFound("post")))
      && (posts.rows[p].blogId != Some(b) && body.blogId == Some(b) ==> r == Fail(BAD_REQUEST, NotFound("blog")))
      && (posts.rows[p].blogId != Some(b) && body.blogId != Some(b) ==> r.Done?)
  {
  }

  /** A deleted blog cannot be deleted again, and none of its posts remains to be deleted. */
  lemma DeleteBlogIsFinal(blogs: BlogStore, posts: PostStore, likes: LikeStore, b: int, p: int)
    requires b > 0 && b in blogs.rows && p > 0 && p in posts.rows && posts.rows[p].blogId == Some(b)
    ensures var (_, blogs', posts', likes') := DeleteBlog(blogs, posts, likes, Some(b));
      && DeleteBlog(blogs', posts', likes', Some(b)).0 == Fail(BAD_REQUEST, NotFound("blog"))
      && DeletePost(posts', likes', Some(p)).0 == Fail(BAD_REQUEST, NotFound("post"))
  {
  }
}

=== FILE: blog_services.dfy ===
/**
 * The content services of the blog application: blogs, posts, comments, pictures and blog
 * categories. These stores delete for good. A service refuses a request by throwing a
 * bad-request exception, which the application answers with 400. The blog, post and like
 * controllers turn every other exception into a bad request too; the category and picture
 * controllers answer it with 500. A call that returns normally is answered with 200, except
 * that creating a blog or a post is answered with 201. The clock enters as the parameter
 * `now`, a timestamp the model does not interpret.
 */
module BlogServices {
  import opened Common
  import opened JavaText
  import opened Tables

  /** A `Long` argument or field that is neither null nor `<= 0`: what every id check demands. */
  predicate GoodId(id: Option<int>) {
    id.Some? && id.value > 0
  }

  /** The first steps of update and delete: the id must be good, then a row must hold it. */
  function Locate<T>(st: Table<T>, id: Option<int>, what: string): (e: Option<Reason>)
    ensures e.None? <==> GoodId(id) && id.value in st.rows
    ensures e == Some(InvalidId) <==> !GoodId(id)
    ensures e.Some? && GoodId(id) ==> e.value == NotFound(what)
  {
    if !GoodId(id) then Some(InvalidId)
    else if id.value !in st.rows then Some(NotFound(what))
    else None
  }

  /**
   * `deleteComment`, `deletePicture`, `deleteCategory`, `deleteLike`: a checked hard delete of one
   * row. Blogs and posts own other rows, and their deletes are the cascading ones of `BlogDeletes`.
   */
  function Delete<T>(st: Table<T>, id: Option<int>, what: string): (r: (Reply<Unit>, Table<T>))
    ensures r.0.Done? <==> GoodId(id) && id.value in st.rows
    ensures r.0.Fail? ==> r.0.code == BAD_REQUEST && r.1 == st
    ensures r.0.Fail? ==> (r.0.reason == InvalidId <==> !GoodId(id))
    ensures r.0.Done? ==> r.0.code == OK && r.1.rows.Keys == st.rows.Keys - {id.value}
    ensures r.0.Done? ==> forall k :: k in r.1.rows ==> r.1.rows[k] == st.rows[k]
  {
    match Locate(st, id, what)
    case Some(e) => (Fail(BAD_REQUEST, e), st)
    case None => (Done(OK, Unit), st.Remove(id.value))
  }

  /** A delete is final: the row cannot be deleted again, and the table stays well formed. */
  lemma DeleteIsFinal<T>(st: Table<T>, id: Option<int>, what: string)
    requires st.Valid()
    ensures Delete(st, id, what).1.Valid()
    ensures Delete(st, id, what).0.Done? ==> Delete(Delete(st, id, what).1, id, what).0 == Fail(BAD_REQUEST, NotFound(what))
  {
  }

  /** A new row under a fresh id, answered with `code`, unless the check refused the request. */
  function SaveChecked<T>(st: Table<T>, check: Option<Reason>, row: T, code: int): (r: (Reply<(int, T)>, Table<T>))
    requires st.Valid()
    ensures r.1.Valid()
    ensures r.0.Done? <==> check.None?
    ensures r.0.Fail? ==> r.0 == Fail(BAD_REQUEST, check.value) && r.1 == st
    ensures r.0.Done? ==> r.0.code == code && r.0.value.0 >= 1 && r.0.value.0 !in st.rows
                          && r.0.value.1 == row && r.1.rows == st.rows[r.0.value.0 := row]
    ensures r.0.Done? ==> forall id :: id in r.1.rows ==> id <= r.0.value.0
  {
    if check.Some? then (Fail(BAD_REQUEST, check.value), st)
    else
      var (st', id) := st.Insert(row);
      (Done(code, (id, row)), st')
  }

  /**
   * The ids of `keep` between 1 and `n`, largest first: an `ORDER BY id DESC` over a table
   * whose ids all lie below `n + 1`.
   */
  function IdsDescending(keep: set<int>, n: int): (s: seq<int>)
    ensures forall i, j :: 0 <= i < j < |s| ==> s[i] > s[j]
    ensures forall id :: id in s <==> id in keep && 1 <= id <= n
    decreases n
  {
    if n < 1 then []
    else
      var rest := IdsDescending(keep, n - 1);
      assert forall j :: 0 <= j < |rest| ==> rest[j] in rest && rest[j] < n;
      if n in keep then [n] + rest else rest
  }

  // Blogs.

  datatype Blog = Blog(title: Option<string>, content: Option<string>, status: Option<string>)

  type BlogStore = Table<Blog>

  /** `validateBlog`: a body, then title, content and status, each present; the first one missing is reported. */
  function ValidateBlog(b: Option<Blog>): (e: Option<Reason>)
    ensures e.None? <==> b.Some? && Present(b.value.title) && Present(b.value.content) && Present(b.value.status)
    ensures b.Some? && !Present(b.value.title) ==> e == Some(Required("title"))
    ensures b.Some? && Present(b.value.title) && !Present(b.value.content) ==> e == Some(Required("content"))
    ensures e.Some? ==> e.value.Required?
  {
    if b.None? then Some(Required("blog"))
    else if !Present(b.value.title) then Some(Required("title"))
    else if !Present(b.value.content) then Some(Required("content"))
    else if !Present(b.value.status) then Some(Required("status"))
    else None
  }

  /** `createBlog`: the validated body is stored as it is. */
  function CreateBlog(st: BlogStore, body: Option<Blog>): (r: (Reply<(int, Blog)>, BlogStore))
    requires st.Valid()
    ensures r.1.Valid()
    ensures r.0.Done? <==> ValidateBlog(body).None?
    ensures r.0.Fail? ==> r.0.code == BAD_REQUEST && r.1 == st
    ensures r.0.Done? ==> r.0.code == CREATED
    ensures r.0.Done? ==> r.0.value.0 !in st.rows && r.0.value.1 == body.value && r.1.rows == st.rows[r.0.value.0 := body.value]
  {
    SaveChecked(st, ValidateBlog(body), if body.Some? then body.value else Blog(None, None, None), CREATED)
  }

  /** `updateBlog`: the id and the row are checked before the body; then title, content and status are all overwritten. */
  function UpdateBlog(st: BlogStore, id: Option<int>, body: Option<Blog>): (r: (Reply<Blog>, BlogStore))
    ensures r.0.Done? <==> GoodId(id) && id.value in st.rows && ValidateBlog(body).None?
    ensures r.0.Fail? ==> r.0.code == BAD_REQUEST && r.1 == st
    ensures Locate(st, id, "blog").Some? ==> r.0.reason == Locate(st, id, "blog").value
    ensures r.0.Done? ==> r.0.value == body.value && r.1.rows == st.rows[id.value := body.value] && r.1.next == st.next
  {
    if Locate(st, id, "blog").Some? then (Fail(BAD_REQUEST, Locate(st, id, "blog").value), st)
    else if ValidateBlog(body).Some? then (Fail(BAD_REQUEST, ValidateBlog(body).value), st)
    else (Done(OK, body.value), st.Put(id.value, body.value))
  }

  /** `getBlogsByStatus`: the blogs whose status equals the argument, newest id first; a blank status is refused. */
  function BlogsByStatus(st: BlogStore, status: Option<string>): (r: Reply<seq<int>>)
    requires st.Valid()
    ensures r.Fail? <==> !Present(status)
    ensures r.Fail? ==> r.code == BAD_REQUEST
    ensures r.Done? ==> forall id :: id in r.value <==> id in st.rows && st.rows[id].status == status
    ensures r.Done? ==> forall i, j :: 0 <= i < j < |r.value| ==> r.value[i] > r.value[j]
  {
    if !Present(status) then Fail(BAD_REQUEST, Required("status"))
    else Done(OK, IdsDescending((set id | id in st.rows && st.rows[id].status == status), st.next - 1))
  }

  /** A created blog is listed under its status, ahead of every older blog. */
  lemma CreatedBlogListedFirst(st: BlogStore, body: Option<Blog>)
    requires st.Valid() && ValidateBlog(body).None?
    ensures var (r, st') := CreateBlog(st, body);
      var listed := BlogsByStatus(st', body.value.status);
      listed.Done? && |listed.value| > 0 && listed.value[0] == r.value.0
  {
    var (r, st') := CreateBlog(st, body);
    var listed := BlogsByStatus(st', body.value.status);
    var k :| 0 <= k < |listed.value| && listed.value[k] == r.value.0;
    assert listed.value[0] >= listed.value[k];
    assert listed.value[0] in st'.rows;
  }

  // Posts.

  datatype Post = Post(dateTime: Option<int>, blogId: Option<int>, doneBy: Option<int>)

  type PostStore = Table<Post>

  /** `validatePost`: a body, a good blog id, a good user id, and a blog that exists. */
  function ValidatePost(blogs: BlogStore, p: Option<Post>): (e: Option<Reason>)
    ensures e.None? <==> p.Some? && GoodId(p.value.blogId) && GoodId(p.value.doneBy) && p.value.blogId.value in blogs.rows
    ensures e == Some(NotFound("blog")) <==> p.Some? && GoodId(p.value.blogId) && GoodId(p.value.doneBy) && p.value.blogId.value !in blogs.rows
  {
    if p.None? then Some(Required("post"))
    else if !GoodId(p.value.blogId) then Some(Required("blog ID"))
    else if !GoodId(p.value.doneBy) then Some(Required("user ID"))
    else if p.value.blogId.value !in blogs.rows then Some(NotFound("blog"))
    else None
  }

  /** `createPost`: validated, then stamped with the current time and stored. */
  function CreatePost(st: PostStore, blogs: BlogStore, body: Option<Post>, now: int): (r: (Reply<(int, Post)>, PostStore))
    requires st.Valid()
    ensures r.1.Valid()
    ensures r.0.Done? <==> ValidatePost(blogs, body).None?
    ensures r.0.Fail? ==> r.0.code == BAD_REQUEST && r.1 == st
    ensures r.0.Done? ==> r.0.code == CREATED
    ensures r.0.Done? ==> var (id, p) := r.0.value;
      id !in st.rows && r.1.rows == st.rows[id := p]
      && p.dateTime == Some(now) && p.blogId == body.value.blogId && p.doneBy == body.value.doneBy
  {
    SaveChecked(st, ValidatePost(blogs, body), if body.Some? then body.value.(dateTime := Some(now)) else Post(Some(now), None, None), CREATED)
  }

  /** `updatePost`: blog id and user id are overwritten; the creation time is kept. */
  function UpdatePost(st: PostStore, blogs: BlogStore, id: Option<int>, body: Option<Post>): (r: (Reply<Post>, PostStore))
    ensures r.0.Done? <==> GoodId(id) && id.value in st.rows && ValidatePost(blogs, body).None?
    ensures r.0.Fail? ==> r.0.code == BAD_REQUEST && r.1 == st
    ensures Locate(st, id, "post").Some? ==> r.0.reason == Locate(st, id, "post").value
    ensures r.0.Done? ==> r.1.rows == st.rows[id.value := r.0.value] && r.1.next == st.next
    ensures r.0.Done? ==> r.0.value.dateTime == st.rows[id.value].dateTime
                          && r.0.value.blogId == body.value.blogId && r.0.value.doneBy == body.value.doneBy
  {
    if Locate(st, id, "post").Some? then (Fail(BAD_REQUEST, Locate(st, id, "post").value), st)
    else if ValidatePost(blogs, body).Some? then (Fail(BAD_REQUEST, ValidatePost(blogs, body).value), st)
    else
      var p := st.rows[id.value].(blogId := body.value.blogId, doneBy := body.value.doneBy);
      (Done(OK, p), st.Put(id.value, p))
  }

  /** `getPostById`: a bad id is refused; otherwise the post, or nothing. */
  function GetPost(st: PostStore, id: Option<int>): (r: Reply<Option<Post>>)
    ensures r.Fail? <==> !GoodId(id)
    ensures r.Fail? ==> r == Fail(BAD_REQUEST, InvalidId)
    ensures r.Done? ==> (r.value.Some? <==> id.value in st.rows) && (r.value.Some? ==> r.value.value == st.rows[id.value])
  {
    if !GoodId(id) then Fail(BAD_REQUEST, InvalidId)
    else if id.value in st.rows then Done(OK, Some(st.rows[id.value]))
    else Done(OK, None)
  }

  /** A created post is found again with the creation time it was stamped with. */
  lemma CreatedPostFound(st: PostStore, blogs: BlogStore, body: Option<Post>, now: int)
    requires st.Valid() && ValidatePost(blogs, body).None?
    ensures var (r, st') := CreatePost(st, blogs, body, now);
      var got := GetPost(st', Some(r.value.0));
      got.Done? && got.value.Some? && got.value.value.dateTime == Some(now)
  {
  }

  // Comments.

  datatype Comment = Comment(title: Option<string>, content: Option<string>, doneBy: Option<int>)

  type CommentStore = Table<Comment>

  /** `validateComment`: a body, then title and content present, then a good user id. */
  function ValidateComment(c: Option<Comment>): (e: Option<Reason>)
    ensures e.None? <==> c.Some? && Present(c.value.title) && Present(c.value.content) && GoodId(c.value.doneBy)
    ensures c.Some? && !Present(c.value.title) ==> e == Some(Required("title"))
    ensures e.Some? ==> e.value.Required?
  {
    if c.None? then Some(Required("comment"))
    else if !Present(c.value.title) then Some(Required("title"))
    else if !Present(c.value.content) then Some(Required("content"))
    else if !GoodId(c.value.doneBy) then Some(Required("user ID"))
    else None
  }

  /** `createComment`: the validated body is stored unchanged. */
  function CreateComment(st: CommentStore, body: Option<Comment>): (r: (Reply<(int, Comment)>, CommentStore))
    requires st.Valid()
    ensures r.1.Valid()
    ensures r.0.Done? <==> ValidateComment(body).None?
    ensures r.0.Fail? ==> r.0.code == BAD_REQUEST && r.1 == st
    ensures r.0.Done? ==> r.0.code == OK
    ensures r.0.Done? ==> r.0.value.0 !in st.rows && r.0.value.1 == body.value && r.1.rows == st.rows[r.0.value.0 := body.value]
  {
    SaveChecked(st, ValidateComment(body), if body.Some? then body.value else Comment(None, None, None), OK)
  }

  /** `updateComment`: existence first, then validation, then title, content and user id all overwritten. */
  function UpdateComment(st: CommentStore, id: Option<int>, body: Option<Comment>): (r: (Reply<Comment>, CommentStore))
    ensures r.0.Done? <==> GoodId(id) && id.value in st.rows && ValidateComment(body).None?
    ensures r.0.Fail? ==> r.0.code == BAD_REQUEST && r.1 == st
    ensures Locate(st, id, "comment").Some? ==> r.0.reason == Locate(st, id, "comment").value
    ensures r.0.Done? ==> r.0.value == body.value && r.1.rows == st.rows[id.value := body.value] && r.1.next == st.next
  {
    if Locate(st, id, "comment").Some? then (Fail(BAD_REQUEST, Locate(st, id, "comment").value), st)
    else if ValidateComment(body).Some? then (Fail(BAD_REQUEST, ValidateComment(body).value), st)
    else (Done(OK, body.value), st.Put(id.value, body.value))
  }

  // Pictures.

  /** `kind` is the picture's `type` column. */
  datatype Picture = Picture(kind: Option<string>, path: Option<string>, altText: Option<string>, dateTime: Option<int>, doneBy: Option<int>)

  type PictureStore = Table<Picture>

  /** `validatePicture`: a body, then type and path present, then a good user id; the alt text is optional. */
  function ValidatePicture(p: Option<Picture>): (e: Option<Reason>)
    ensures e.None? <==> p.Some? && Present(p.value.kind) && Present(p.value.path) && GoodId(p.value.doneBy)
    ensures p.Some? && !Present(p.value.kind) ==> e == Some(Required("type"))
    ensures e.Some? ==> e.value.Required?
  {
    if p.None? then Some(Required("picture"))
    else if !Present(p.value.kind) then Some(Required("type"))
    else if !Present(p.value.path) then Some(Required("path"))
    else if !GoodId(p.value.doneBy) then Some(Required("user ID"))
    else None
  }

  /** `createPicture`: validated, then stamped with the current time and stored. */
  function CreatePicture(st: PictureStore, body: Option<Picture>, now: int): (r: (Reply<(int, Picture)>, PictureStore))
    requires st.Valid()
    ensures r.1.Valid()
    ensures r.0.Done? <==> ValidatePicture(body).None?
    ensures r.0.Fail? ==> r.0.code == BAD_REQUEST && r.1 == st
    ensures r.0.Done? ==> r.0.code == OK
    ensures r.0.Done? ==> var (id, p) := r.0.value;
      id !in st.rows && r.1.rows == st.rows[id := p] && p.dateTime == Some(now)
      && p.kind == body.value.kind && p.path == body.value.path && p.altText == body.value.altText && p.doneBy == body.value.doneBy
  {
    SaveChecked(st, ValidatePicture(body), if body.Some? then body.value.(dateTime := Some(now)) else Picture(None, None, None, Some(now), None), OK)
  }

  /** `updatePicture`: type, path, alt text (null included) and user id are overwritten; the upload time is kept. */
  function UpdatePicture(st: PictureStore, id: Option<int>, body: Option<Picture>): (r: (Reply<Picture>, PictureStore))
    ensures r.0.Done? <==> GoodId(id) && id.value in st.rows && ValidatePicture(body).None?
    ensures r.0.Fail? ==> r.0.code == BAD_REQUEST && r.1 == st
    ensures Locate(st, id, "picture").Some? ==> r.0.reason == Locate(st, id, "picture").value
    ensures r.0.Done? ==> r.1.rows == st.rows[id.value := r.0.value] && r.1.next == st.next
    ensures r.0.Done? ==> r.0.value == body.value.(dateTime := st.rows[id.value].dateTime)
  {
    if Locate(st, id, "picture").Some? then (Fail(BAD_REQUEST, Locate(st, id, "picture").value), st)
    else if ValidatePicture(body).Some? then (Fail(BAD_REQUEST, ValidatePicture(body).value), st)
    else
      var p := st.rows[id.value].(kind := body.value.kind, path := body.value.path, altText := body.value.altText, doneBy := body.value.doneBy);
      (Done(OK, p), st.Put(id.value, p))
  }

  /** `getPicturesByType`: the pictures of exactly that type; a blank type is refused. */
  function PicturesByType(st: PictureStore, kind: Option<string>): (r: Reply<set<int>>)
    ensures r.Fail? <==> !Present(kind)
    ensures r.Fail? ==> r.code == BAD_REQUEST
    ensures r.Done? ==> forall id :: id in r.value <==> id in st.rows && st.rows[id].kind == kind
  {
    if !Present(kind) then Fail(BAD_REQUEST, Required("type"))
    else Done(OK, set id | id in st.rows && st.rows[id].kind == kind)
  }

  /** Updating a picture moves it to the new type's listing; its upload time does not change. */
  lemma PictureUpdateMovesType(st: PictureStore, id: int, body: Picture)
    requires id > 0 && id in st.rows && ValidatePicture(Some(body)).None?
    ensures var st' := UpdatePicture(st, Some(id), Some(body)).1;
      && id in PicturesByType(st', body.kind).value
      && (Present(st.rows[id].kind) && st.rows[id].kind != body.kind ==> id !in PicturesByType(st', st.rows[id].kind).value)
      && st'.rows[id].dateTime == st.rows[id].dateTime
  {
  }

  // Blog categories.

  datatype Category = Category(name: Option<string>, doneBy: Option<int>)

  type CategoryStore = Table<Category>

  /** `validateCategory`: a body, a present name, a good user id. */
  function ValidateCategory(c: Option<Category>): (e: Option<Reason>)
    ensures e.None? <==> c.Some? && Present(c.value.name) && GoodId(c.value.doneBy)
    ensures e.Some? ==> e.value.Required?
  {
    if c.None? then Some(Required("category"))
    else if !Present(c.value.name) then Some(Required("name"))
    else if !GoodId(c.value.doneBy) then Some(Required("user ID"))
    else None
  }

  /** `findByName`: the categories holding exactly that name. */
  function Holders(st: CategoryStore, name: Option<string>): (ids: set<int>)
    ensures forall id :: id in ids <==> id in st.rows && st.rows[id].name == name
  {
    set id | id in st.rows && st.rows[id].name == name
  }

  /** No two categories share a name. */
  ghost predicate NamesUnique(st: CategoryStore) {
    forall a, b :: a in st.rows && b in st.rows && st.rows[a].name == st.rows[b].name ==> a == b
  }

  /** `createCategory`: validated, then refused when any category holds the name, then stored. */
  function CreateCategory(st: CategoryStore, body: Option<Category>): (r: (Reply<(int, Category)>, CategoryStore))
    requires st.Valid()
    ensures r.1.Valid()
    ensures r.0.Done? <==> ValidateCategory(body).None? && !Found(Holders(st, body.value.name))
    ensures r.0.Fail? ==> r.1 == st && r.0.code in {BAD_REQUEST, SERVER_ERROR}
    ensures r.0.Fail? && ValidateCategory(body).None? && !Several(Holders(st, body.value.name)) ==> r.0 == Fail(BAD_REQUEST, Duplicate("name"))
    ensures r.0.Done? ==> r.0.value.0 !in st.rows && r.0.value.1 == body.value && r.1.rows == st.rows[r.0.value.0 := body.value]
  {
    if ValidateCategory(body).Some? then (Fail(BAD_REQUEST, ValidateCategory(body).value), st)
    else
      var holders := Holders(st, body.value.name);
      if Several(holders) then (Fail(SERVER_ERROR, Internal), st)
      else if Found(holders) then (Fail(BAD_REQUEST, Duplicate("name")), st)
      else SaveChecked(st, None, body.value, OK)
  }

  /**
   * `updateCategory`: existence, then validation, then the name check, which lets a category
   * keep its own name; then name and user id are overwritten.
   */
  function UpdateCategory(st: CategoryStore, id: Option<int>, body: Option<Category>): (r: (Reply<Category>, CategoryStore))
    ensures r.0.Done? <==> GoodId(id) && id.value in st.rows && ValidateCategory(body).None?
                           && !Several(Holders(st, body.value.name)) && Holders(st, body.value.name) <= {id.value}
    ensures r.0.Fail? ==> r.1 == st && r.0.code in {BAD_REQUEST, SERVER_ERROR}
    ensures Locate(st, id, "category").Some? ==> r.0 == Fail(BAD_REQUEST, Locate(st, id, "category").value)
    ensures r.0.Done? ==> r.0.value == body.value && r.1.rows == st.rows[id.value := body.value] && r.1.next == st.next
  {
    if Locate(st, id, "category").Some? then (Fail(BAD_REQUEST, Locate(st, id, "category").value), st)
    else if ValidateCategory(body).Some? then (Fail(BAD_REQUEST, ValidateCategory(body).value), st)
    else
      var holders := Holders(st, body.value.name);
      if Several(holders) then (Fail(SERVER_ERROR, Internal), st)
      else if exists h :: h in holders && h != id.value then (Fail(BAD_REQUEST, Duplicate("name")), st)
      else (Done(OK, body.value), st.Put(id.value, body.value))
  }

  /** Under unique names the name finder never sees two rows, so create and update never fail with 500. */
  lemma UniqueNamesNeverSeveral(st: CategoryStore, name: Option<string>)
    requires NamesUnique(st)
    ensures !Several(Holders(st, name))
  {
  }

  /** Create, update and delete keep category names unique. */
  lemma CategoryWritesKeepNamesUnique(st: CategoryStore, id: Option<int>, body: Option<Category>)
    requires st.Valid() && NamesUnique(st)
    ensures NamesUnique(CreateCategory(st, body).1)
    ensures NamesUnique(UpdateCategory(st, id, body).1)
    ensures NamesUnique(Delete(st, id, "category").1)
  {
    CreateCategoryKeepsNamesUnique(st, body);
    UpdateCategoryKeepsNamesUnique(st, id, body);
  }

  lemma CreateCategoryKeepsNamesUnique(st: CategoryStore, body: Option<Category>)
    requires st.Valid() && NamesUnique(st)
    ensures NamesUnique(CreateCategory(st, body).1)
  {
    var (c, st1) := CreateCategory(st, body);
    if c.Done? {
      forall a, b | a in st1.rows && b in st1.rows && st1.rows[a].name == st1.rows[b].name ensures a == b {
        assert a !in st.rows ==> b !in Holders(st, body.value.name);
        assert b !in st.rows ==> a !in Holders(st, body.value.name);
      }
    }
  }

  lemma UpdateCategoryKeepsNamesUnique(st: CategoryStore, id: Option<int>, body: Option<Category>)
    requires st.Valid() && NamesUnique(st)
    ensures NamesUnique(UpdateCategory(st, id, body).1)
  {
    var (u, st2) := UpdateCategory(st, id, body);
    if u.Done? {
      forall a, b | a in st2.rows && b in st2.rows && st2.rows[a].name == st2.rows[b].name ensures a == b {
        assert a == id.value || b == id.value ==> a in Holders(st, body.value.name) || a == id.value;
        assert a == id.value || b == id.value ==> b in Holders(st, body.value.name) || b == id.value;
      }
    }
  }

  /** A category may be saved again under its own name, while another category's name is refused. */
  lemma CategoryRenameRule(st: CategoryStore, a: int, b: int, doneBy: int)
    requires NamesUnique(st) && a > 0 && a in st.rows && b in st.rows && a != b && doneBy > 0
    requires Present(st.rows[a].name) && Present(st.rows[b].name)
    ensures UpdateCategory(st, Some(a), Some(Category(st.rows[a].name, Some(doneBy)))).0.Done?
    ensures UpdateCategory(st, Some(a), Some(Category(st.rows[b].name, Some(doneBy)))).0 == Fail(BAD_REQUEST, Duplicate("name"))
  {
    UniqueNamesNeverSeveral(st, st.rows[a].name);
    UniqueNamesNeverSeveral(st, st.rows[b].name);
    assert forall k :: k in Holders(st, st.rows[a].name) ==> k == a;
    assert b in Holders(st, st.rows[b].name);
  }

  /** Saving the same body twice is the same as saving it once, for every content update. */
  lemma ContentUpdatesIdempotent(blogs: BlogStore, posts: PostStore, comments: CommentStore, pictures: PictureStore, id: Option<int>,
                                 blog: Option<Blog>, post: Option<Post>, comment: Option<Comment>, picture: Option<Picture>)
    ensures var b := UpdateBlog(blogs, id, blog).1; UpdateBlog(b, id, blog).1 == b
    ensures var p := UpdatePost(posts, blogs, id, post).1; UpdatePost(p, blogs, id, post).1 == p
    ensures var c := UpdateComment(comments, id, comment).1; UpdateComment(c, id, comment).1 == c
    ensures var p := UpdatePicture(pictures, id, picture).1; UpdatePicture(p, id, picture).1 == p
  {
    SecondSaveChangesNothing(UpdateBlog(blogs, id, blog).1, id);
    SecondSaveChangesNothing(UpdatePost(posts, blogs, id, post).1, id);
    SecondSaveChangesNothing(UpdateComment(comments, id, comment).1, id);
    SecondSaveChangesNothing(UpdatePicture(pictures, id, picture).1, id);
  }

  /** Writing back a row equal to the stored one leaves the table as it is. */
  lemma SecondSaveChangesNothing<T>(st: Table<T>, id: Option<int>)
    ensures id.Some? && id.value in st.rows ==> st.Put(id.value, st.rows[id.value]) == st
  {
    if id.Some? && id.value in st.rows {
      assert st.rows[id.value := st.rows[id.value]] == st.rows;
    }
  }

  /** The same holds for category updates: a category's second save finds its own name only. */
  lemma CategoryUpdateIdempotent(st: CategoryStore, id: Option<int>, body: Option<Category>)
    ensures var st' := UpdateCategory(st, id, body).1; UpdateCategory(st', id, body).1 == st'
  {
    var (r, st') := UpdateCategory(st, id, body);
    if r.Done? {
      assert forall k :: k in Holders(st', body.value.name) ==> k in Holders(st, body.value.name) || k == id.value;
      assert st'.rows[id.value := body.value] == st'.rows;
    }
  }
}

=== FILE: common.dfy ===
/** Shared vocabulary: optional (nullable) values and the outcome of an endpoint or service call. */
module Common {

  /** A Java reference that may be null. */
  datatype Option<+T> = None | Some(value: T)

  /** Why a request was refused; one tag per kind of message the application returns or throws. */
  datatype Reason =
    | Required(field: string)   // "<field> is required", "Valid <field> is required"
    | InvalidId                 // "Invalid ... ID" (an id <= 0)
    | NotFound(what: string)    // "... not found" (absent, or soft-deleted where that applies)
    | Duplicate(field: string)  // "... already exists", "already in use", "already liked"
    | BadCredentials            // "Invalid username or password"
    | Unauthenticated           // "Authentication required"
    | BadToken                  // "Invalid refresh token"
    | WrongPassword             // "Current password is incorrect"
    | PasswordTooShort          // "New password must be at least 6 characters long"
    | PasswordMismatch          // "New password and confirmation do not match"
    | Internal                  // any other exception (null dereference, non-unique result, ...)

  /** The HTTP-level outcome: a success status with its payload, or a failure status with its reason. */
  datatype Reply<+T> = Done(code: int, value: T) | Fail(code: int, reason: Reason)

  /** The payload of a call that answers with no body. */
  datatype Unit = Unit

  const OK := 200
  const CREATED := 201
  const NO_CONTENT := 204
  const BAD_REQUEST := 400
  const UNAUTHORIZED := 401
  const NOT_FOUND := 404
  const SERVER_ERROR := 500
}

=== FILE: data_init.dfy ===
/**
 * The start-up data of the blog application: the three account categories and the default
 * administrator, each created only when missing, so that starting the application again
 * changes nothing.
 */
module DataInit {
  import opened Common
  import opened Tables
  import opened Accounts

  const ADMIN_USERNAME := "admin"
  const ADMIN_PASSWORD := "admin123"

  /** Every category and account of `d` is still stored in `d'`, unchanged. */
  predicate Keeps(d: Directory, d': Directory) {
    && (forall id :: id in d.categories.rows ==> id in d'.categories.rows && d'.categories.rows[id] == d.categories.rows[id])
    && (forall id :: id in d.accounts.rows ==> id in d'.accounts.rows && d'.accounts.rows[id] == d.accounts.rows[id])
  }

  lemma KeepsTransitive(d1: Directory, d2: Directory, d3: Directory)
    requires Keeps(d1, d2) && Keeps(d2, d3)
    ensures Keeps(d1, d3)
  {
  }

  /** `createCategoryIfNotExists`: the category of that name, saved first when there is none. */
  function EnsureCategory(d: Directory, name: string, description: string): (r: (Directory, int))
    requires Valid(d)
    ensures Valid(r.0) && r.0.accounts == d.accounts && Keeps(d, r.0)
    ensures FindCategory(r.0, name) == Some(r.1)
    ensures FindCategory(d, name).Some? ==> r == (d, FindCategory(d, name).value)
    ensures FindCategory(d, name).None? ==>
      r.1 !in d.categories.rows && r.0.categories.rows == d.categories.rows[r.1 := AccountCategory(name, Some(description))]
  {
    match FindCategory(d, name)
    case Some(id) => (d, id)
    case None =>
      var (d', id) := AddCategory(d, AccountCategory(name, Some(description)));
      assert d'.categories.rows[id].name == name;
      (d', id)
  }

  /** The default administrator, with its password hashed and the gender "not specified". */
  function AdminAccount(enc: Encoder, category: int): Account {
    Account(ADMIN_USERNAME, enc.encode(ADMIN_PASSWORD), "admin@igihecyubuntu.com", "System Administrator",
            Some("+250788000000"), Some("not specified"), true, category)
  }

  /** `createAccountIfNotExists` for the administrator: an account named "admin", saved first when there is none. */
  function EnsureAdmin(d: Directory, enc: Encoder, category: int): (r: (Directory, int))
    requires Valid(d) && category in d.categories.rows
    ensures Valid(r.0) && r.0.categories == d.categories && Keeps(d, r.0)
    ensures FindAccount(r.0, Some(ADMIN_USERNAME)) == Some(r.1)
    ensures FindAccount(d, Some(ADMIN_USERNAME)).Some? ==> r == (d, FindAccount(d, Some(ADMIN_USERNAME)).value)
    ensures FindAccount(d, Some(ADMIN_USERNAME)).None? ==>
      r.1 !in d.accounts.rows && r.0.accounts.rows == d.accounts.rows[r.1 := AdminAccount(enc, category)]
  {
    match FindAccount(d, Some(ADMIN_USERNAME))
    case Some(id) => (d, id)
    case None =>
      var (d', id) := AddAccount(d, AdminAccount(enc, category));
      assert d'.accounts.rows[id].username == ADMIN_USERNAME;
      (d', id)
  }

  /** A category that was found is found again, under the same id, once rows have only been added. */
  lemma StillFound(d: Directory, d': Directory, name: string)
    requires Valid(d) && Valid(d') && Keeps(d, d') && FindCategory(d, name).Some?
    ensures FindCategory(d', name) == FindCategory(d, name)
  {
    var c := FindCategory(d, name).value;
    assert c in d'.categories.rows && d'.categories.rows[c].name == name;
  }

  /** The three categories of `run`, each created when missing. */
  function EnsureCategories(d: Directory): (r: (Directory, int))
    requires Valid(d)
    ensures Valid(r.0) && Keeps(d, r.0) && r.0.accounts == d.accounts
    ensures FindCategory(r.0, "ADMIN") == Some(r.1) && FindCategory(r.0, "CLIENT").Some? && FindCategory(r.0, "MEMBER").Some?
    ensures FindCategory(d, "ADMIN").Some? && FindCategory(d, "CLIENT").Some? && FindCategory(d, "MEMBER").Some? ==> r.0 == d
  {
    var (d1, admin) := EnsureCategory(d, "ADMIN", "System Administrator Category");
    var (d2, _) := EnsureCategory(d1, "CLIENT", "Client Category");
    StillFound(d1, d2, "ADMIN");
    var (d3, _) := EnsureCategory(d2, "MEMBER", "Church Member Category");
    StillFound(d2, d3, "ADMIN");
    StillFound(d2, d3, "CLIENT");
    KeepsTransitive(d, d1, d2);
    KeepsTransitive(d, d2, d3);
    (d3, admin)
  }

  /**
   * `run`: the categories ADMIN, CLIENT and MEMBER, then the administrator in ADMIN. Rows
   * already stored are never changed; an existing "admin" account is kept as it is, whatever
   * its category.
   */
  function Run(d: Directory, enc: Encoder): (r: Directory)
    requires Valid(d)
    ensures Valid(r) && Keeps(d, r)
    ensures FindCategory(r, "ADMIN").Some? && FindCategory(r, "CLIENT").Some? && FindCategory(r, "MEMBER").Some?
    ensures FindAccount(r, Some(ADMIN_USERNAME)).Some?
    ensures FindAccount(d, Some(ADMIN_USERNAME)).Some? ==> r.accounts == d.accounts
    ensures FindAccount(d, Some(ADMIN_USERNAME)).None? ==>
      var id := FindAccount(r, Some(ADMIN_USERNAME)).value;
      && r.accounts.rows == d.accounts.rows[id := AdminAccount(enc, r.accounts.rows[id].category)]
      && RoleOf(r, id) == "ADMIN"
  {
    var (d1, admin) := EnsureCategories(d);
    var (d2, id) := EnsureAdmin(d1, enc, admin);
    StillFound(d1, d2, "ADMIN");
    StillFound(d1, d2, "CLIENT");
    StillFound(d1, d2, "MEMBER");
    KeepsTransitive(d, d1, d2);
    d2
  }

  /** Starting the application a second time changes nothing. */
  lemma RunIdempotent(d: Directory, enc: Encoder)
    requires Valid(d)
    ensures Run(Run(d, enc), enc) == Run(d, enc)
  {
  }
}

=== FILE: document_controllers.dfy ===
/**
 * The thirteen document controllers of the file-management application, each an instance of
 * the soft-delete engine: its schema, and per controller the list precedence, the create
 * validation and the columns update may write, stated with the controller's own column names.
 */
module DocumentControllers {
  import opened Common
  import opened JavaText
  import opened Tables
  import opened SoftDelete

  /** A nullable column read as an optional value. */
  function Col(r: Row, c: string): Option<Value> {
    if c in r.cols then Some(r.cols[c]) else None
  }

  /**
   * `next` is `prev` with every column of `fields` that the request carries copied from the
   * request; every other column, the flag included, is as it was.
   */
  ghost predicate WritesExactly(prev: Row, req: Row, next: Row, fields: set<string>) {
    && next.active == prev.active
    && forall c :: Col(next, c) == (if c in fields && Col(req, c).Some? then Col(req, c) else Col(prev, c))
  }

  /** The refusal of a controller that checks the name, then all three references at once. */
  function CombinedRefusal(name: string, body: Row): Option<Reason> {
    if !NonBlank(body, name) then Some(Required(name))
    else if Col(body, DONE_BY).None? || Col(body, DOCUMENT).None? || Col(body, STATUS).None? then Some(Required(REFERENCES))
    else None
  }

  /** The refusal of a controller that checks the name, then doneBy, document and status one at a time. */
  function StepwiseRefusal(name: string, body: Row): Option<Reason> {
    if !NonBlank(body, name) then Some(Required(name))
    else if Col(body, DONE_BY).None? then Some(Required(DONE_BY))
    else if Col(body, DOCUMENT).None? then Some(Required(DOCUMENT))
    else if Col(body, STATUS).None? then Some(Required(STATUS))
    else None
  }

  /** For a controller that checks the references together, its refusals are the combined ones, then the name rule. */
  lemma CombinedIsRefusal(sch: Schema, st: Store, body: Row)
    requires sch.refCheck == Combined
    ensures CombinedRefusal(sch.name, body).Some? ==> CreateRefusal(sch, st, body) == CombinedRefusal(sch.name, body)
    ensures CombinedRefusal(sch.name, body).None? && !sch.uniqueName ==> CreateRefusal(sch, st, body).None?
  {
    if NonBlank(body, sch.name) {
      assert HasRefs(body) <==> Col(body, DONE_BY).Some? && Col(body, DOCUMENT).Some? && Col(body, STATUS).Some?;
    }
  }

  /** For a controller that checks the references one at a time, its refusals are the stepwise ones, then the name rule. */
  lemma StepwiseIsRefusal(sch: Schema, st: Store, body: Row)
    requires sch.refCheck == OneByOne
    ensures StepwiseRefusal(sch.name, body).Some? ==> CreateRefusal(sch, st, body) == StepwiseRefusal(sch.name, body)
    ensures StepwiseRefusal(sch.name, body).None? && !sch.uniqueName ==> CreateRefusal(sch, st, body).None?
  {
    if NonBlank(body, sch.name) {
      assert Col(body, DONE_BY).None? <==> DONE_BY !in body.cols;
      assert Col(body, DOCUMENT).None? <==> DOCUMENT !in body.cols;
      assert Col(body, STATUS).None? <==> STATUS !in body.cols;
    }
  }

  // ---- CommFollowupAudit: commercial follow-up audits

  const CommFollowupAudit := Schema("auditTitle", {"auditTitle", "auditDate", "auditor", "findings", "recommendations", "followupDate", "status"},
    ("auditTitle", "findings"), false, false, false, Combined, false)

  /** Listing commercial follow-up audits: search on auditTitle or findings, then status, else every active row. */
  lemma CommFollowupAuditList(st: Store, q: ListQuery)
    ensures List(CommFollowupAudit, st, q) ==
           if q.search.Some? && !IsBlank(q.search.value) then SearchIds(st, ("auditTitle", "findings"), q.search.value)
           else if q.statusId.Some? then ActiveWithRef(st, STATUS, q.statusId.value)
           else ActiveIds(st)
  {
    ListPrecedence(CommFollowupAudit, st, q);
  }

  /** Creating commercial follow-up audits: the checks in order, and no uniqueness rule; a valid body becomes a new active row. */
  lemma CommFollowupAuditCreate(st: Store, body: Row)
    requires st.Valid()
    ensures var r := Create(CommFollowupAudit, st, body).0;
      && (CombinedRefusal("auditTitle", body).Some? ==> r == Fail(BAD_REQUEST, CombinedRefusal("auditTitle", body).value))
      && (CombinedRefusal("auditTitle", body).None? ==> r.Done? && Create(CommFollowupAudit, st, body).1.rows[r.value] == body.(active := true))
  {
    CombinedIsRefusal(CommFollowupAudit, st, body);
  }

  /** Updating commercial follow-up audits writes exactly these columns when the request carries them; doneBy, document and the flag never change. */
  lemma CommFollowupAuditUpdate(st: Store, id: int, req: Row)
    ensures var (r, st') := Update(CommFollowupAudit, st, id, req);
      r.Done? ==> WritesExactly(st.rows[id], req, st'.rows[id],
        {"auditTitle", "auditDate", "auditor", "findings", "recommendations", "followupDate", "status"})
  {
  }

  // ---- DueDiligence: due-diligence reports

  const DueDiligence := Schema("projectName", {"projectName", "entityName", "scope", "findingsReport", "recommendations", "completionDate", "status"},
    ("projectName", "scope"), false, false, false, Combined, false)

  /** Listing due-diligence reports: search on projectName or scope, then status, else every active row. */
  lemma DueDiligenceList(st: Store, q: ListQuery)
    ensures List(DueDiligence, st, q) ==
           if q.search.Some? && !IsBlank(q.search.value) then SearchIds(st, ("projectName", "scope"), q.search.value)
           else if q.statusId.Some? then ActiveWithRef(st, STATUS, q.statusId.value)
           else ActiveIds(st)
  {
    ListPrecedence(DueDiligence, st, q);
  }

  /** Creating due-diligence reports: the checks in order, and no uniqueness rule; a valid body becomes a new active row. */
  lemma DueDiligenceCreate(st: Store, body: Row)
    requires st.Valid()
    ensures var r := Create(DueDiligence, st, body).0;
      && (CombinedRefusal("projectName", body).Some? ==> r == Fail(BAD_REQUEST, CombinedRefusal("projectName", body).value))
      && (CombinedRefusal("projectName", body).None? ==> r.Done? && Create(DueDiligence, st, body).1.rows[r.value] == body.(active := true))
  {
    CombinedIsRefusal(DueDiligence, st, body);
  }

  /** Updating due-diligence reports writes exactly these columns when the request carries them; doneBy, document and the flag never change. */
  lemma DueDiligenceUpdate(st: Store, id: int, req: Row)
    ensures var (r, st') := Update(DueDiligence, st, id, req);
      r.Done? ==> WritesExactly(st.rows[id], req, st'.rows[id],
        {"projectName", "entityName", "scope", "findingsReport", "recommendations", "completionDate", "status"})
  {
  }

  // ---- CommThirdParty: commercial third parties

  const CommThirdParty := Schema("thirdPartyName", {"thirdPartyName", "serviceType", "contactInfo", "contractTerms", "serviceLevel", "status"},
    ("thirdPartyName", "serviceType"), false, false, false, Combined, false)

  /** Listing commercial third parties: search on thirdPartyName or serviceType, then status, else every active row. */
  lemma CommThirdPartyList(st: Store, q: ListQuery)
    ensures List(CommThirdParty, st, q) ==
           if q.search.Some? && !IsBlank(q.search.value) then SearchIds(st, ("thirdPartyName", "serviceType"), q.search.value)
           else if q.statusId.Some? then ActiveWithRef(st, STATUS, q.statusId.value)
           else ActiveIds(st)
  {
    ListPrecedence(CommThirdParty, st, q);
  }

  /** Creating commercial third parties: the checks in order, and no uniqueness rule; a valid body becomes a new active row. */
  lemma CommThirdPartyCreate(st: Store, body: Row)
    requires st.Valid()
    ensures var r := Create(CommThirdParty, st, body).0;
      && (CombinedRefusal("thirdPartyName", body).Some? ==> r == Fail(BAD_REQUEST, CombinedRefusal("thirdPartyName", body).value))
      && (CombinedRefusal("thirdPartyName", body).None? ==> r.Done? && Create(CommThirdParty, st, body).1.rows[r.value] == body.(active := true))
  {
    CombinedIsRefusal(CommThirdParty, st, body);
  }

  /** Updating commercial third parties writes exactly these columns when the request carries them; doneBy, document and the flag never change. */
  lemma CommThirdPartyUpdate(st: Store, id: int, req: Row)
    ensures var (r, st') := Update(CommThirdParty, st, id, req);
      r.Done? ==> WritesExactly(st.rows[id], req, st'.rows[id],
        {"thirdPartyName", "serviceType", "contactInfo", "contractTerms", "serviceLevel", "status"})
  {
  }

  // ---- CargoDamage: cargo-damage incidents

  const CargoDamage := Schema("incidentId", {"incidentId", "cargoType", "damageDescription", "damageAmount", "incidentDate", "carrier", "status"},
    ("incidentId", "cargoType"), false, false, false, Combined, false)

  /** Listing cargo-damage incidents: search on incidentId or cargoType, then status, else every active row. */
  lemma CargoDamageList(st: Store, q: ListQuery)
    ensures List(CargoDamage, st, q) ==
           if q.search.Some? && !IsBlank(q.search.value) then SearchIds(st, ("incidentId", "cargoType"), q.search.value)
           else if q.statusId.Some? then ActiveWithRef(st, STATUS, q.statusId.value)
           else ActiveIds(st)
  {
    ListPrecedence(CargoDamage, st, q);
  }

  /** Creating cargo-damage incidents: the checks in order, and no uniqueness rule; a valid body becomes a new active row. */
  lemma CargoDamageCreate(st: Store, body: Row)
    requires st.Valid()
    ensures var r := Create(CargoDamage, st, body).0;
      && (CombinedRefusal("incidentId", body).Some? ==> r == Fail(BAD_REQUEST, CombinedRefusal("incidentId", body).value))
      && (CombinedRefusal("incidentId", body).None? ==> r.Done? && Create(CargoDamage, st, body).1.rows[r.value] == body.(active := true))
  {
    CombinedIsRefusal(CargoDamage, st, body);
  }

  /** Updating cargo-damage incidents writes exactly these columns when the request carries them; doneBy, document and the flag never change. */
  lemma CargoDamageUpdate(st: Store, id: int, req: Row)
    ensures var (r, st') := Update(CargoDamage, st, id, req);
      r.Done? ==> WritesExactly(st.rows[id], req, st'.rows[id],
        {"incidentId", "cargoType", "damageDescription", "damageAmount", "incidentDate", "carrier", "status"})
  {
  }

  // ---- LitigationFollowup: litigation follow-ups

  const LitigationFollowup := Schema("caseNumber", {"caseNumber", "caseName", "plaintiff", "defendant", "caseStatus", "nextHearingDate", "status"},
    ("caseNumber", "caseName"), false, false, false, Combined, false)

  /** Listing litigation follow-ups: search on caseNumber or caseName, then status, else every active row. */
  lemma LitigationFollowupList(st: Store, q: ListQuery)
    ensures List(LitigationFollowup, st, q) ==
           if q.search.Some? && !IsBlank(q.search.value) then SearchIds(st, ("caseNumber", "caseName"), q.search.value)
           else if q.statusId.Some? then ActiveWithRef(st, STATUS, q.statusId.value)
           else ActiveIds(st)
  {
    ListPrecedence(LitigationFollowup, st, q);
  }

  /** Creating litigation follow-ups: the checks in order, and no uniqueness rule; a valid body becomes a new active row. */
  lemma LitigationFollowupCreate(st: Store, body: Row)
    requires st.Valid()
    ensures var r := Create(LitigationFollowup, st, body).0;
      && (CombinedRefusal("caseNumber", body).Some? ==> r == Fail(BAD_REQUEST, CombinedRefusal("caseNumber", body).value))
      && (CombinedRefusal("caseNumber", body).None? ==> r.Done? && Create(LitigationFollowup, st, body).1.rows[r.value] == body.(active := true))
  {
    CombinedIsRefusal(LitigationFollowup, st, body);
  }

  /** Updating litigation follow-ups writes exactly these columns when the request carries them; doneBy, document and the flag never change. */
  lemma LitigationFollowupUpdate(st: Store, id: int, req: Row)
    ensures var (r, st') := Update(LitigationFollowup, st, id, req);
      r.Done? ==> WritesExactly(st.rows[id], req, st'.rows[id],
        {"caseNumber", "caseName", "plaintiff", "defendant", "caseStatus", "nextHearingDate", "status"})
  {
  }

  // ---- Insurance: insurance policies

  const Insurance := Schema("policyNumber", {"policyNumber", "insuranceType", "insuranceCompany", "coverageAmount", "premiumAmount", "startDate", "endDate", "status"},
    ("policyNumber", "insuranceType"), false, false, false, Combined, false)

  /** Listing insurance policies: search on policyNumber or insuranceType, then status, else every active row. */
  lemma InsuranceList(st: Store, q: ListQuery)
    ensures List(Insurance, st, q) ==
           if q.search.Some? && !IsBlank(q.search.value) then SearchIds(st, ("policyNumber", "insuranceType"), q.search.value)
           else if q.statusId.Some? then ActiveWithRef(st, STATUS, q.statusId.value)
           else ActiveIds(st)
  {
    ListPrecedence(Insurance, st, q);
  }

  /** Creating insurance policies: the checks in order, and no uniqueness rule; a valid body becomes a new active row. */
  lemma InsuranceCreate(st: Store, body: Row)
    requires st.Valid()
    ensures var r := Create(Insurance, st, body).0;
      && (CombinedRefusal("policyNumber", body).Some? ==> r == Fail(BAD_REQUEST, CombinedRefusal("policyNumber", body).value))
      && (CombinedRefusal("policyNumber", body).None? ==> r.Done? && Create(Insurance, st, body).1.rows[r.value] == body.(active := true))
  {
    CombinedIsRefusal(Insurance, st, body);
  }

  /** Updating insurance policies writes exactly these columns when the request carries them; doneBy, document and the flag never change. */
  lemma InsuranceUpdate(st: Store, id: int, req: Row)
    ensures var (r, st') := Update(Insurance, st, id, req);
      r.Done? ==> WritesExactly(st.rows[id], req, st'.rows[id],
        {"policyNumber", "insuranceType", "insuranceCompany", "coverageAmount", "premiumAmount", "startDate", "endDate", "status"})
  {
  }

  // ---- ThirdPartyClaims: third-party claims

  const ThirdPartyClaims := Schema("claimNumber", {"claimNumber", "claimantName", "claimType", "claimAmount", "claimDate", "settlementAmount", "claimStatus", "status"},
    ("claimNumber", "claimantName"), false, false, false, Combined, false)

  /** Listing third-party claims: search on claimNumber or claimantName, then status, else every active row. */
  lemma ThirdPartyClaimsList(st: Store, q: ListQuery)
    ensures List(ThirdPartyClaims, st, q) ==
           if q.search.Some? && !IsBlank(q.search.value) then SearchIds(st, ("claimNumber", "claimantName"), q.search.value)
           else if q.statusId.Some? then ActiveWithRef(st, STATUS, q.statusId.value)
           else ActiveIds(st)
  {
    ListPrecedence(ThirdPartyClaims, st, q);
  }

  /** Creating third-party claims: the checks in order, and no uniqueness rule; a valid body becomes a new active row. */
  lemma ThirdPartyClaimsCreate(st: Store, body: Row)
    requires st.Valid()
    ensures var r := Create(ThirdPartyClaims, st, body).0;
      && (CombinedRefusal("claimNumber", body).Some? ==> r == Fail(BAD_REQUEST, CombinedRefusal("claimNumber", body).value))
      && (CombinedRefusal("claimNumber", body).None? ==> r.Done? && Create(ThirdPartyClaims, st, body).1.rows[r.value] == body.(active := true))
  {
    CombinedIsRefusal(ThirdPartyClaims, st, body);
  }

  /** Updating third-party claims writes exactly these columns when the request carries them; doneBy, document and the flag never change. */
  lemma ThirdPartyClaimsUpdate(st: Store, id: int, req: Row)
    ensures var (r, st') := Update(ThirdPartyClaims, st, id, req);
      r.Done? ==> WritesExactly(st.rows[id], req, st'.rows[id],
        {"claimNumber", "claimantName", "claimType", "claimAmount", "claimDate", "settlementAmount", "claimStatus", "status"})
  {
  }

  // ---- PermiConstruction: construction permits

  const PermiConstruction := Schema("numeroPermis", {"numeroPermis", "projet", "localisation", "dateDelivrance", "dateExpiration", "autoriteDelivrance", "sectionCategory", "status"},
    ("numeroPermis", "projet"), true, true, true, OneByOne, true)

  /** Listing construction permits: search on numeroPermis or projet, then status, then section category, then document, else every active row. */
  lemma PermiConstructionList(st: Store, q: ListQuery)
    ensures List(PermiConstruction, st, q) ==
           if q.search.Some? && !IsBlank(q.search.value) then SearchIds(st, ("numeroPermis", "projet"), q.search.value)
           else if q.statusId.Some? then ActiveWithRef(st, STATUS, q.statusId.value)
           else if q.sectionCategoryId.Some? then ActiveWithRef(st, SECTION_CATEGORY, q.sectionCategoryId.value)
           else if q.documentId.Some? then ActiveWithRef(st, DOCUMENT, q.documentId.value)
           else ActiveIds(st)
  {
    ListPrecedence(PermiConstruction, st, q);
  }

  /** Creating construction permits: the checks in order, then the active-number uniqueness check, then a new active row. */
  lemma PermiConstructionCreate(st: Store, body: Row)
    requires st.Valid()
    ensures var r := Create(PermiConstruction, st, body).0;
      && (StepwiseRefusal("numeroPermis", body).Some? ==> r == Fail(BAD_REQUEST, StepwiseRefusal("numeroPermis", body).value))
      && (StepwiseRefusal("numeroPermis", body).None? && Taken(st, "numeroPermis", body.cols["numeroPermis"]) ==>
            r == Fail(BAD_REQUEST, Duplicate("numeroPermis")))
      && (StepwiseRefusal("numeroPermis", body).None? && !Taken(st, "numeroPermis", body.cols["numeroPermis"]) ==>
            r.Done? && Create(PermiConstruction, st, body).1.rows[r.value] == body.(active := true))
  {
    StepwiseIsRefusal(PermiConstruction, st, body);
  }

  /** Updating construction permits writes exactly these columns when the request carries them; doneBy, document and the flag never change. */
  lemma PermiConstructionUpdate(st: Store, id: int, req: Row)
    ensures var (r, st') := Update(PermiConstruction, st, id, req);
      r.Done? ==> WritesExactly(st.rows[id], req, st'.rows[id],
        {"numeroPermis", "projet", "localisation", "dateDelivrance", "dateExpiration", "autoriteDelivrance", "sectionCategory", "status"})
  {
  }

  // ---- CommAssetLand: commercial land assets

  const CommAssetLand := Schema("assetName", {"assetName", "location", "surfaceArea", "assetValue", "currentStatus", "sectionCategory", "status"},
    ("assetName", "location"), true, true, true, OneByOne, false)

  /** Listing commercial land assets: search on assetName or location, then status, then section category, then document, else every active row. */
  lemma CommAssetLandList(st: Store, q: ListQuery)
    ensures List(CommAssetLand, st, q) ==
           if q.search.Some? && !IsBlank(q.search.value) then SearchIds(st, ("assetName", "location"), q.search.value)
           else if q.statusId.Some? then ActiveWithRef(st, STATUS, q.statusId.value)
           else if q.sectionCategoryId.Some? then ActiveWithRef(st, SECTION_CATEGORY, q.sectionCategoryId.value)
           else if q.documentId.Some? then ActiveWithRef(st, DOCUMENT, q.documentId.value)
           else ActiveIds(st)
  {
    ListPrecedence(CommAssetLand, st, q);
  }

  /** Creating commercial land assets: the checks in order, and no uniqueness rule; a valid body becomes a new active row. */
  lemma CommAssetLandCreate(st: Store, body: Row)
    requires st.Valid()
    ensures var r := Create(CommAssetLand, st, body).0;
      && (StepwiseRefusal("assetName", body).Some? ==> r == Fail(BAD_REQUEST, StepwiseRefusal("assetName", body).value))
      && (StepwiseRefusal("assetName", body).None? ==> r.Done? && Create(CommAssetLand, st, body).1.rows[r.value] == body.(active := true))
  {
    StepwiseIsRefusal(CommAssetLand, st, body);
  }

  /** Updating commercial land assets writes exactly these columns when the request carries them; doneBy, document and the flag never change. */
  lemma CommAssetLandUpdate(st: Store, id: int, req: Row)
    ensures var (r, st') := Update(CommAssetLand, st, id, req);
      r.Done? ==> WritesExactly(st.rows[id], req, st'.rows[id],
        {"assetName", "location", "surfaceArea", "assetValue", "currentStatus", "sectionCategory", "status"})
  {
  }

  // ---- CertLicenses: certificates and licences

  const CertLicenses := Schema("certificateName", {"certificateName", "licenseNumber", "issuingAuthority", "issueDate", "expiryDate", "status"},
    ("certificateName", "issuingAuthority"), false, true, true, OneByOne, false)

  /** Listing certificates and licences: search on certificateName or issuingAuthority, then status, then document, else every active row. */
  lemma CertLicensesList(st: Store, q: ListQuery)
    ensures List(CertLicenses, st, q) ==
           if q.search.Some? && !IsBlank(q.search.value) then SearchIds(st, ("certificateName", "issuingAuthority"), q.search.value)
           else if q.statusId.Some? then ActiveWithRef(st, STATUS, q.statusId.value)
           else if q.documentId.Some? then ActiveWithRef(st, DOCUMENT, q.documentId.value)
           else ActiveIds(st)
  {
    ListPrecedence(CertLicenses, st, q);
  }

  /** Creating certificates and licences: the checks in order, and no uniqueness rule; a valid body becomes a new active row. */
  lemma CertLicensesCreate(st: Store, body: Row)
    requires st.Valid()
    ensures var r := Create(CertLicenses, st, body).0;
      && (StepwiseRefusal("certificateName", body).Some? ==> r == Fail(BAD_REQUEST, StepwiseRefusal("certificateName", body).value))
      && (StepwiseRefusal("certificateName", body).None? ==> r.Done? && Create(CertLicenses, st, body).1.rows[r.value] == body.(active := true))
  {
    StepwiseIsRefusal(CertLicenses, st, body);
  }

  /** Updating certificates and licences writes exactly these columns when the request carries them; doneBy, document and the flag never change. */
  lemma CertLicensesUpdate(st: Store, id: int, req: Row)
    ensures var (r, st') := Update(CertLicenses, st, id, req);
      r.Done? ==> WritesExactly(st.rows[id], req, st'.rows[id],
        {"certificateName", "licenseNumber", "issuingAuthority", "issueDate", "expiryDate", "status"})
  {
  }

  // ---- EquipmentId: equipment records

  const EquipmentId := Schema("equipmentName", {"equipmentName", "serialNumber", "manufacturer", "model", "location", "sectionCategory", "status"},
    ("equipmentName", "location"), true, true, true, OneByOne, false)

  /** Listing equipment records: search on equipmentName or location, then status, then section category, then document, else every active row. */
  lemma EquipmentIdList(st: Store, q: ListQuery)
    ensures List(EquipmentId, st, q) ==
           if q.search.Some? && !IsBlank(q.search.value) then SearchIds(st, ("equipmentName", "location"), q.search.value)
           else if q.statusId.Some? then ActiveWithRef(st, STATUS, q.statusId.value)
           else if q.sectionCategoryId.Some? then ActiveWithRef(st, SECTION_CATEGORY, q.sectionCategoryId.value)
           else if q.documentId.Some? then ActiveWithRef(st, DOCUMENT, q.documentId.value)
           else ActiveIds(st)
  {
    ListPrecedence(EquipmentId, st, q);
  }

  /** Creating equipment records: the checks in order, and no uniqueness rule; a valid body becomes a new active row. */
  lemma EquipmentIdCreate(st: Store, body: Row)
    requires st.Valid()
    ensures var r := Create(EquipmentId, st, body).0;
      && (StepwiseRefusal("equipmentName", body).Some? ==> r == Fail(BAD_REQUEST, StepwiseRefusal("equipmentName", body).value))
      && (StepwiseRefusal("equipmentName", body).None? ==> r.Done? && Create(EquipmentId, st, body).1.rows[r.value] == body.(active := true))
  {
    StepwiseIsRefusal(EquipmentId, st, body);
  }

  /** Updating equipment records writes exactly these columns when the request carries them; doneBy, document and the flag never change. */
  lemma EquipmentIdUpdate(st: Store, id: int, req: Row)
    ensures var (r, st') := Update(EquipmentId, st, id, req);
      r.Done? ==> WritesExactly(st.rows[id], req, st'.rows[id],
        {"equipmentName", "serialNumber", "manufacturer", "model", "location", "sectionCategory", "status"})
  {
  }

  // ---- Estate: estate properties

  const Estate := Schema("propertyName", {"propertyName", "location", "propertyType", "estateValue", "ownershipStatus", "sectionCategory", "status"},
    ("propertyName", "location"), true, true, true, OneByOne, false)

  /** Listing estate properties: search on propertyName or location, then status, then section category, then document, else every active row. */
  lemma EstateList(st: Store, q: ListQuery)
    ensures List(Estate, st, q) ==
           if q.search.Some? && !IsBlank(q.search.value) then SearchIds(st, ("propertyName", "location"), q.search.value)
           else if q.statusId.Some? then ActiveWithRef(st, STATUS, q.statusId.value)
           else if q.sectionCategoryId.Some? then ActiveWithRef(st, SECTION_CATEGORY, q.sectionCategoryId.value)
           else if q.documentId.Some? then ActiveWithRef(st, DOCUMENT, q.documentId.value)
           else ActiveIds(st)
  {
    ListPrecedence(Estate, st, q);
  }

  /** Creating estate properties: the checks in order, and no uniqueness rule; a valid body becomes a new active row. */
  lemma EstateCreate(st: Store, body: Row)
    requires st.Valid()
    ensures var r := Create(Estate, st, body).0;
      && (StepwiseRefusal("propertyName", body).Some? ==> r == Fail(BAD_REQUEST, StepwiseRefusal("propertyName", body).value))
      && (StepwiseRefusal("propertyName", body).None? ==> r.Done? && Create(Estate, st, body).1.rows[r.value] == body.(active := true))
  {
    StepwiseIsRefusal(Estate, st, body);
  }

  /** Updating estate properties writes exactly these columns when the request carries them; doneBy, document and the flag never change. */
  lemma EstateUpdate(st: Store, id: int, req: Row)
    ensures var (r, st') := Update(Estate, st, id, req);
      r.Done? ==> WritesExactly(st.rows[id], req, st'.rows[id],
        {"propertyName", "location", "propertyType", "estateValue", "ownershipStatus", "sectionCategory", "status"})
  {
  }

  // ---- CommCompPolicies: compliance policies

  const CommCompPolicies := Schema("policyName", {"policyName", "requirement", "complianceLevel", "effectiveDate", "reviewDate", "status"},
    ("policyName", "requirement"), false, true, true, Combined, false)

  /** Listing compliance policies: search on policyName or requirement, then status, then document, else every active row. */
  lemma CommCompPoliciesList(st: Store, q: ListQuery)
    ensures List(CommCompPolicies, st, q) ==
           if q.search.Some? && !IsBlank(q.search.value) then SearchIds(st, ("policyName", "requirement"), q.search.value)
           else if q.statusId.Some? then ActiveWithRef(st, STATUS, q.statusId.value)
           else if q.documentId.Some? then ActiveWithRef(st, DOCUMENT, q.documentId.value)
           else ActiveIds(st)
  {
    ListPrecedence(CommCompPolicies, st, q);
  }

  /** Creating compliance policies: the checks in order, and no uniqueness rule; a valid body becomes a new active row. */
  lemma CommCompPoliciesCreate(st: Store, body: Row)
    requires st.Valid()
    ensures var r := Create(CommCompPolicies, st, body).0;
      && (CombinedRefusal("policyName", body).Some? ==> r == Fail(BAD_REQUEST, CombinedRefusal("policyName", body).value))
      && (CombinedRefusal("policyName", body).None? ==> r.Done? && Create(CommCompPolicies, st, body).1.rows[r.value] == body.(active := true))
  {
    CombinedIsRefusal(CommCompPolicies, st, body);
  }

  /** Updating compliance policies writes exactly these columns when the request carries them; doneBy, document and the flag never change. */
  lemma CommCompPoliciesUpdate(st: Store, id: int, req: Row)
    ensures var (r, st') := Update(CommCompPolicies, st, id, req);
      r.Done? ==> WritesExactly(st.rows[id], req, st'.rows[id],
        {"policyName", "requirement", "complianceLevel", "effectiveDate", "reviewDate", "status"})
  {
  }

  // ---- Properties particular to one controller.

  /** A soft-deleted permit's number may be issued again, leaving two stored permits with that number. */
  lemma PermitNumberReusableAfterDelete(st: Store, id: int, body: Row)
    requires st.Valid()
    requires StepwiseRefusal("numeroPermis", body).None?
    requires id in st.rows && st.rows[id].active && Col(st.rows[id], "numeroPermis") == Col(body, "numeroPermis")
    requires forall k :: k in st.rows && k != id && st.rows[k].active ==> Col(st.rows[k], "numeroPermis") != Col(body, "numeroPermis")
    ensures Create(PermiConstruction, st, body).0 == Fail(BAD_REQUEST, Duplicate("numeroPermis"))
    ensures var st1 := Delete(st, id).1;
      var (r, st2) := Create(PermiConstruction, st1, body);
      r.Done? && r.value != id && Col(st2.rows[id], "numeroPermis") == Col(st2.rows[r.value], "numeroPermis")
  {
    assert Taken(st, "numeroPermis", body.cols["numeroPermis"]);
    forall k | k in st.rows && k != id && st.rows[k].active && "numeroPermis" in st.rows[k].cols
      ensures st.rows[k].cols["numeroPermis"] != body.cols["numeroPermis"]
    {
      assert Col(st.rows[k], "numeroPermis") != Col(body, "numeroPermis");
    }
    NameFreedByDelete(PermiConstruction, st, id, body);
  }

  /** Update does not re-check permit numbers: an active permit can take another active permit's number. */
  lemma PermitUpdateAllowsDuplicateNumber(st: Store, a: int, b: int)
    requires a != b && a in st.rows && b in st.rows && st.rows[a].active && st.rows[b].active
    requires Col(st.rows[b], "numeroPermis").Some?
    ensures var req := Row(map["numeroPermis" := st.rows[b].cols["numeroPermis"]], false);
      var (r, st') := Update(PermiConstruction, st, a, req);
      r.Done? && st'.rows[a].active && st'.rows[b].active
      && Col(st'.rows[a], "numeroPermis") == Col(st'.rows[b], "numeroPermis")
  {
    var req := Row(map["numeroPermis" := st.rows[b].cols["numeroPermis"]], false);
    UpdateSkipsUniqueness(PermiConstruction, st, a, b, req);
  }

  /** Equipment create does not look at serial numbers: two active rows may share one. */
  lemma EquipmentSerialNotUnique(st: Store, body: Row)
    requires st.Valid() && StepwiseRefusal("equipmentName", body).None?
    requires exists k :: k in st.rows && st.rows[k].active && Col(st.rows[k], "serialNumber") == Col(body, "serialNumber")
    ensures var (r, st') := Create(EquipmentId, st, body);
      r.Done? && exists k :: k in st'.rows && k != r.value && st'.rows[k].active
                             && Col(st'.rows[k], "serialNumber") == Col(st'.rows[r.value], "serialNumber")
  {
    var k :| k in st.rows && st.rows[k].active && Col(st.rows[k], "serialNumber") == Col(body, "serialNumber");
    StepwiseIsRefusal(EquipmentId, st, body);
    var (r, st') := Create(EquipmentId, st, body);
    assert r.Done?;
    assert k in st'.rows && k != r.value && st'.rows[k] == st.rows[k];
  }
}

=== FILE: document_repositories.dfy ===
/**
 * The hand-written JPQL conditions of the document repositories, as condition trees. JPQL binds
 * AND tighter than OR, so each tree below is the query's WHERE clause with that precedence
 * made explicit. A comparison involving a null column is unknown, and WHERE keeps only rows
 * whose condition is true; with AND and OR alone, "true" is computed by reading unknown as false.
 */
module DocumentRepositories {
  import opened Common
  import opened JavaText
  import opened SqlLike
  import opened SoftDelete

  /** A WHERE clause over one row, given the `:search` parameter. */
  datatype Cond =
    | IsActive                 // `x.active = true`
    | Like(col: string)        // `LOWER(x.col) LIKE LOWER(CONCAT('%', :search, '%'))`
    | And(l: Cond, r: Cond)
    | Or(l: Cond, r: Cond)

  predicate Holds(c: Cond, r: Row, term: string) {
    match c
    case IsActive => r.active
    case Like(col) => ColLike(r, col, term)
    case And(a, b) => Holds(a, r, term) && Holds(b, r, term)
    case Or(a, b) => Holds(a, r, term) || Holds(b, r, term)
  }

  /** A condition of the shape `active = true AND (...)`: the soft-delete guard covers the whole clause. */
  predicate Guarded(c: Cond) {
    c.And? && c.l == IsActive
  }

  /** A guarded query never returns a soft-deleted row, whatever the search term. */
  lemma GuardedSelectsActiveOnly(c: Cond, r: Row, term: string)
    requires Guarded(c) && Holds(c, r, term)
    ensures r.active
  {
  }

  /** `active = true AND (LOWER(a) LIKE ... OR LOWER(b) LIKE ...)`: the shape of every two-column search. */
  function TwoColumnSearch(a: string, b: string): Cond {
    And(IsActive, Or(Like(a), Like(b)))
  }

  // The declared queries, by repository.

  const InsuranceByPolicyOrType := TwoColumnSearch("policyNumber", "insuranceType")
  const EquipmentByNameOrLocation := TwoColumnSearch("equipmentName", "location")
  const CommCompPoliciesByNameOrRequirement := TwoColumnSearch("policyName", "requirement")
  const CommCompPoliciesSearchTerms := TwoColumnSearch("reference", "description")
  const CommAssetLandByNameOrLocation := TwoColumnSearch("assetName", "location")
  const CommAssetLandByReference := And(IsActive, Like("reference"))
  const DueDiligenceByProjectOrScope := TwoColumnSearch("projectName", "scope")
  const DueDiligenceSearchTerms := TwoColumnSearch("reference", "auditor")
  const CargoDamageByClaimOrDescription := TwoColumnSearch("claimNumber", "damageDescription")
  const LitigationByCaseNumberOrTitle := TwoColumnSearch("caseNumber", "caseTitle")
  const ThirdPartyClaimsByClaimOrParty := TwoColumnSearch("claimNumber", "thirdPartyName")

  /** The equipment search-terms query as written: `active AND type LIKE .. OR serial LIKE .. OR plate LIKE ..`. */
  const EquipmentSearchTermsAsWritten := Or(Or(And(IsActive, Like("equipmentType")), Like("serialNumber")), Like("plateNumber"))

  /** The same query with the disjunction parenthesised, as every other search query of the application is. */
  const EquipmentSearchTerms := And(IsActive, Or(Or(Like("equipmentType"), Like("serialNumber")), Like("plateNumber")))

  /** The list endpoints' search, as the soft-delete engine states it, is the two-column query. */
  lemma TwoColumnSearchIsSearchHit(a: string, b: string, r: Row, term: string)
    ensures Holds(TwoColumnSearch(a, b), r, term) <==> SearchHit(r, (a, b), term)
  {
    assert Holds(Or(Like(a), Like(b)), r, term) <==> ColLike(r, a, term) || ColLike(r, b, term);
  }

  /** Every declared search query except the equipment search-terms one carries the soft-delete guard. */
  lemma DeclaredSearchesGuarded()
    ensures Guarded(InsuranceByPolicyOrType) && Guarded(EquipmentByNameOrLocation)
    ensures Guarded(CommCompPoliciesByNameOrRequirement) && Guarded(CommCompPoliciesSearchTerms)
    ensures Guarded(CommAssetLandByNameOrLocation) && Guarded(CommAssetLandByReference)
    ensures Guarded(DueDiligenceByProjectOrScope) && Guarded(DueDiligenceSearchTerms)
    ensures Guarded(CargoDamageByClaimOrDescription) && Guarded(LitigationByCaseNumberOrTitle)
    ensures Guarded(ThirdPartyClaimsByClaimOrParty) && Guarded(EquipmentSearchTerms)
    ensures !Guarded(EquipmentSearchTermsAsWritten)
  {
  }

  /** The list controllers search exactly the columns their repositories declare, where the repository declares the query. */
  lemma ControllersUseDeclaredSearches(st: Store, term: string)
    ensures forall id :: id in st.rows ==>
      (SearchHit(st.rows[id], ("policyNumber", "insuranceType"), term) <==> Holds(InsuranceByPolicyOrType, st.rows[id], term))
      && (SearchHit(st.rows[id], ("equipmentName", "location"), term) <==> Holds(EquipmentByNameOrLocation, st.rows[id], term))
      && (SearchHit(st.rows[id], ("policyName", "requirement"), term) <==> Holds(CommCompPoliciesByNameOrRequirement, st.rows[id], term))
      && (SearchHit(st.rows[id], ("assetName", "location"), term) <==> Holds(CommAssetLandByNameOrLocation, st.rows[id], term))
      && (SearchHit(st.rows[id], ("projectName", "scope"), term) <==> Holds(DueDiligenceByProjectOrScope, st.rows[id], term))
  {
    forall id | id in st.rows
      ensures (SearchHit(st.rows[id], ("policyNumber", "insuranceType"), term) <==> Holds(InsuranceByPolicyOrType, st.rows[id], term))
      && (SearchHit(st.rows[id], ("equipmentName", "location"), term) <==> Holds(EquipmentByNameOrLocation, st.rows[id], term))
      && (SearchHit(st.rows[id], ("policyName", "requirement"), term) <==> Holds(CommCompPoliciesByNameOrRequirement, st.rows[id], term))
      && (SearchHit(st.rows[id], ("assetName", "location"), term) <==> Holds(CommAssetLandByNameOrLocation, st.rows[id], term))
      && (SearchHit(st.rows[id], ("projectName", "scope"), term) <==> Holds(DueDiligenceByProjectOrScope, st.rows[id], term))
    {
      var r := st.rows[id];
      TwoColumnSearchIsSearchHit("policyNumber", "insuranceType", r, term);
      TwoColumnSearchIsSearchHit("equipmentName", "location", r, term);
      TwoColumnSearchIsSearchHit("policyName", "requirement", r, term);
      TwoColumnSearchIsSearchHit("assetName", "location", r, term);
      TwoColumnSearchIsSearchHit("projectName", "scope", r, term);
    }
  }

  /** As written, the equipment search-terms query returns a soft-deleted row whose serial number matches. */
  lemma EquipmentSearchTermsLeaksDeleted()
    ensures var r := Row(map["serialNumber" := Text("sn1")], false);
      !r.active && Holds(EquipmentSearchTermsAsWritten, r, "sn1")
  {
    var r := Row(map["serialNumber" := Text("sn1")], false);
    var t := "sn1";
    assert NoWild(t);
    ContainsPattern(t, t);
    assert t <= t[0..];
    assert LikeMatch(t, "%" + t + "%");
    assert Lower(t) == t;
    assert Lower("%" + t + "%") == "%" + t + "%";
    assert ColLike(r, "serialNumber", t);
    assert Holds(Or(And(IsActive, Like("equipmentType")), Like("serialNumber")), r, t);
  }

  /** Corrected, it returns exactly the active rows the as-written query returns, and no others. */
  lemma EquipmentSearchTermsCorrected(r: Row, term: string)
    ensures Holds(EquipmentSearchTerms, r, term) ==> r.active
    ensures Holds(EquipmentSearchTerms, r, term) <==> r.active && Holds(EquipmentSearchTermsAsWritten, r, term)
  {
    var ty, sn, pl := ColLike(r, "equipmentType", term), ColLike(r, "serialNumber", term), ColLike(r, "plateNumber", term);
    assert Holds(Or(Like("equipmentType"), Like("serialNumber")), r, term) == (ty || sn);
    assert Holds(Or(Or(Like("equipmentType"), Like("serialNumber")), Like("plateNumber")), r, term) == ((ty || sn) || pl);
    assert Holds(EquipmentSearchTerms, r, term) == (r.active && ((ty || sn) || pl));
    assert Holds(IsActive, r, term) == r.active;
    assert Holds(Like("equipmentType"), r, term) == ty;
    assert Holds(And(IsActive, Like("equipmentType")), r, term) == (r.active && ty);
    assert Holds(Or(And(IsActive, Like("equipmentType")), Like("serialNumber")), r, term) == ((r.active && ty) || sn);
    assert Holds(EquipmentSearchTermsAsWritten, r, term) == (((r.active && ty) || sn) || pl);
  }

  /** The search is blind to the case of the term: an upper- or lower-cased term selects the same rows. */
  lemma SearchIgnoresTermCase(c: Cond, r: Row, term: string)
    ensures Holds(c, r, Lower(term)) <==> Holds(c, r, term)
    ensures Holds(c, r, Upper(term)) <==> Holds(c, r, term)
  {
    match c
    case IsActive =>
    case Like(col) =>
      forall i | 0 <= i < |term| ensures LowerChar(Lower(term)[i]) == LowerChar(term[i]) && LowerChar(Upper(term)[i]) == LowerChar(term[i]) {
        LowerCharIdempotent(term[i]);
      }
      LowerPattern(term, Lower(term));
      LowerPattern(term, Upper(term));
    case And(a, b) =>
      SearchIgnoresTermCase(a, r, term);
      SearchIgnoresTermCase(b, r, term);
    case Or(a, b) =>
      SearchIgnoresTermCase(a, r, term);
      SearchIgnoresTermCase(b, r, term);
  }

  /** Two terms that agree once lower-cased build the same lower-cased pattern. */
  lemma LowerPattern(t: string, u: string)
    requires |t| == |u| && forall i :: 0 <= i < |t| ==> LowerChar(u[i]) == LowerChar(t[i])
    ensures Lower("%" + u + "%") == Lower("%" + t + "%")
  {
  }

  lemma LowerCharIdempotent(c: char)
    ensures LowerChar(LowerChar(c)) == LowerChar(c)
    ensures LowerChar(UpperChar(c)) == LowerChar(c)
  {
  }

  // The insurance expiry query: `active = true AND expiryDate <= CURRENT_DATE + :days`.

  /** The date column as a day number; a null or non-date column never compares true. */
  predicate DayAtMost(r: Row, c: string, limit: int) {
    c in r.cols && r.cols[c].Day? && r.cols[c].d <= limit
  }

  predicate InsuranceExpiring(r: Row, today: int, days: int) {
    r.active && DayAtMost(r, "expiryDate", today + days)
  }

  /** A wider window selects every row a narrower one does; already-expired policies are always in it. */
  lemma ExpiringWindowMonotone(r: Row, today: int, days1: int, days2: int)
    requires days1 <= days2
    ensures InsuranceExpiring(r, today, days1) ==> InsuranceExpiring(r, today, days2)
    ensures r.active && DayAtMost(r, "expiryDate", today) && days1 >= 0 ==> InsuranceExpiring(r, today, days1)
    ensures InsuranceExpiring(r, today, days1) ==> r.active
  {
  }
}

=== FILE: java_text.dfy ===
/**
 * The Java string operations the application's checks rely on: String.trim (which strips every
 * char whose code is at most U+0020 from both ends), "blank" (empty after trim), and case
 * mapping, which is modelled on ASCII letters only.
 */
module JavaText {
  import opened Common

  /** A char String.trim removes: any code point at most U+0020. */
  predicate IsTrimmable(c: char) {
    c <= ' '
  }

  function TrimStart(s: string): (r: string)
    ensures |r| <= |s| && r == s[|s| - |r|..]
    ensures r == [] || !IsTrimmable(r[0])
    ensures forall i :: 0 <= i < |s| - |r| ==> IsTrimmable(s[i])
  {
    if |s| > 0 && IsTrimmable(s[0]) then TrimStart(s[1..]) else s
  }

  function TrimEnd(s: string): (r: string)
    ensures |r| <= |s| && r == s[..|r|]
    ensures r == [] || !IsTrimmable(r[|r| - 1])
    ensures forall i :: |r| <= i < |s| ==> IsTrimmable(s[i])
  {
    if |s| > 0 && IsTrimmable(s[|s| - 1]) then TrimEnd(s[..|s| - 1]) else s
  }

  /** Java's String.trim. */
  function Trim(s: string): (r: string)
    ensures r == [] || (!IsTrimmable(r[0]) && !IsTrimmable(r[|r| - 1]))
    ensures |r| <= |s|
  {
    TrimEnd(TrimStart(s))
  }

  /** `s.trim().isEmpty()`. */
  predicate IsBlank(s: string) {
    |Trim(s)| == 0
  }

  /** `s != null && !s.trim().isEmpty()`: the check every required text field goes through. */
  predicate Present(s: Option<string>) {
    s.Some? && !IsBlank(s.value)
  }

  /** A string is blank exactly when every one of its chars is trimmable. */
  lemma BlankIffAllTrimmable(s: string)
    ensures IsBlank(s) <==> forall i :: 0 <= i < |s| ==> IsTrimmable(s[i])
  {
    var t := TrimStart(s);
    if |t| > 0 {
      assert t[0] == s[|s| - |t|];
    }
  }

  /** Trimming twice is trimming once. */
  lemma TrimIdempotent(s: string)
    ensures Trim(Trim(s)) == Trim(s)
  {
    TrimKeepsTrimmed(Trim(s));
  }

  /** Trimming keeps a string that has no trimmable char at either end. */
  lemma TrimKeepsTrimmed(s: string)
    requires s == [] || (!IsTrimmable(s[0]) && !IsTrimmable(s[|s| - 1]))
    ensures Trim(s) == s
  {
    assert TrimStart(s) == s;
    assert TrimEnd(s) == s;
  }

  function LowerChar(c: char): char {
    if 'A' <= c <= 'Z' then (c as int + 32) as char else c
  }

  function UpperChar(c: char): char {
    if 'a' <= c <= 'z' then (c as int - 32) as char else c
  }

  /** String.toLowerCase, on ASCII letters. */
  function Lower(s: string): (r: string)
    ensures |r| == |s| && forall i :: 0 <= i < |s| ==> r[i] == LowerChar(s[i])
  {
    seq(|s|, i requires 0 <= i < |s| => LowerChar(s[i]))
  }

  /** String.toUpperCase, on ASCII letters. */
  function Upper(s: string): (r: string)
    ensures |r| == |s| && forall i :: 0 <= i < |s| ==> r[i] == UpperChar(s[i])
  {
    seq(|s|, i requires 0 <= i < |s| => UpperChar(s[i]))
  }

  /** Lower-casing never produces or removes a trimmable char, so it commutes with trim. */
  lemma {:induction false} LowerCommutesWithTrim(s: string)
    ensures Trim(Lower(s)) == Lower(Trim(s))
  {
    LowerTrimStart(s);
    LowerTrimEnd(TrimStart(s));
  }

  lemma {:induction false} LowerTrimStart(s: string)
    ensures TrimStart(Lower(s)) == Lower(TrimStart(s))
  {
    if |s| > 0 && IsTrimmable(s[0]) {
      assert Lower(s)[1..] == Lower(s[1..]);
      LowerTrimStart(s[1..]);
    } else if |s| > 0 {
      assert !IsTrimmable(Lower(s)[0]);
    }
  }

  lemma {:induction false} LowerTrimEnd(s: string)
    ensures TrimEnd(Lower(s)) == Lower(TrimEnd(s))
  {
    if |s| > 0 && IsTrimmable(s[|s| - 1]) {
      assert Lower(s)[..|s| - 1] == Lower(s[..|s| - 1]);
      LowerTrimEnd(s[..|s| - 1]);
    } else if |s| > 0 {
      assert !IsTrimmable(Lower(s)[|s| - 1]);
    }
  }

  /** String.startsWith. */
  predicate StartsWith(s: string, prefix: string) {
    prefix <= s
  }
}

=== FILE: likes.dfy ===
/**
 * The likes service of the blog application: a user likes a post at most once, and the
 * toggle endpoint turns that like on and off. Likes are deleted for good. The finder
 * `findByPostIdAndDoneBy` returns at most one like and throws when it finds several; the
 * likes controller turns that exception, like every other, into a bad request (400).
 */
module Likes {
  import opened Common
  import opened Tables
  import opened BlogServices

  datatype Like = Like(postId: Option<int>, dateTime: Option<int>, doneBy: Option<int>)

  type LikeStore = Table<Like>

  /** `findByPostIdAndDoneBy`: the likes of one user on one post. */
  function Matches(st: LikeStore, postId: int, doneBy: int): (ids: set<int>)
    ensures forall id :: id in ids <==> id in st.rows && st.rows[id].postId == Some(postId) && st.rows[id].doneBy == Some(doneBy)
  {
    set id | id in st.rows && st.rows[id].postId == Some(postId) && st.rows[id].doneBy == Some(doneBy)
  }

  /** `countByPostId`: the likes of one post. */
  function LikesOf(st: LikeStore, postId: int): (ids: set<int>)
    ensures forall id :: id in ids <==> id in st.rows && st.rows[id].postId == Some(postId)
  {
    st.Children((l: Like) => l.postId, postId)
  }

  /** The (post, user) pairs that have a like. */
  function Pairs(st: LikeStore): (ps: set<(Option<int>, Option<int>)>)
    ensures forall p :: p in ps <==> exists id :: id in st.rows && (st.rows[id].postId, st.rows[id].doneBy) == p
  {
    set id | id in st.rows :: (st.rows[id].postId, st.rows[id].doneBy)
  }

  /** At most one like per post and user. */
  ghost predicate AtMostOnePerPair(st: LikeStore) {
    forall a, b :: a in st.rows && b in st.rows && st.rows[a].postId == st.rows[b].postId && st.rows[a].doneBy == st.rows[b].doneBy ==> a == b
  }

  /** `validateLikeData`: a good post id, then a good user id, then a post that exists. */
  function ValidateLikeData(posts: PostStore, postId: Option<int>, doneBy: Option<int>): (e: Option<Reason>)
    ensures e.None? <==> GoodId(postId) && GoodId(doneBy) && postId.value in posts.rows
    ensures !GoodId(postId) ==> e == Some(Required("post ID"))
    ensures GoodId(postId) && !GoodId(doneBy) ==> e == Some(Required("user ID"))
    ensures GoodId(postId) && GoodId(doneBy) && postId.value !in posts.rows ==> e == Some(NotFound("post"))
  {
    if !GoodId(postId) then Some(Required("post ID"))
    else if !GoodId(doneBy) then Some(Required("user ID"))
    else if postId.value !in posts.rows then Some(NotFound("post"))
    else None
  }

  /**
   * `toggleLike`: after validation, an existing like of the user on the post is removed and
   * nothing is returned; otherwise a like stamped with the current time is added and returned.
   */
  function Toggle(st: LikeStore, posts: PostStore, postId: Option<int>, doneBy: Option<int>, now: int): (r: (Reply<Option<(int, Like)>>, LikeStore))
    requires st.Valid()
    ensures r.1.Valid()
    ensures r.0.Fail? ==> r.1 == st && r.0.code == BAD_REQUEST
    ensures ValidateLikeData(posts, postId, doneBy).Some? ==> r.0 == Fail(BAD_REQUEST, ValidateLikeData(posts, postId, doneBy).value)
    ensures ValidateLikeData(posts, postId, doneBy).None? && Several(Matches(st, postId.value, doneBy.value)) ==> r.0 == Fail(BAD_REQUEST, Internal)
    ensures r.0.Done? <==> ValidateLikeData(posts, postId, doneBy).None? && !Several(Matches(st, postId.value, doneBy.value))
    ensures r.0.Done? && r.0.value.None? ==> var m := Matches(st, postId.value, doneBy.value);
      && |m| == 1 && r.1.rows.Keys == st.rows.Keys - m
      && (forall id :: id in r.1.rows ==> r.1.rows[id] == st.rows[id])
    ensures r.0.Done? && r.0.value.Some? ==> var (id, like) := r.0.value.value;
      && !Found(Matches(st, postId.value, doneBy.value))
      && id !in st.rows && r.1.rows == st.rows[id := like]
      && like == Like(postId, Some(now), doneBy)
  {
    if ValidateLikeData(posts, postId, doneBy).Some? then (Fail(BAD_REQUEST, ValidateLikeData(posts, postId, doneBy).value), st)
    else
      var m := Matches(st, postId.value, doneBy.value);
      if Several(m) then (Fail(BAD_REQUEST, Internal), st)
      else if Found(m) then
        FoundOne(m);
        (Done(OK, None), st.RemoveAll(m))
      else
        var like := Like(postId, Some(now), doneBy);
        var (st', id) := st.Insert(like);
        (Done(OK, Some((id, like))), st')
  }

  /** `createLike`: a body, then validation, then the time stamp; a user who already likes the post is refused. */
  function CreateLike(st: LikeStore, posts: PostStore, body: Option<Like>, now: int): (r: (Reply<(int, Like)>, LikeStore))
    requires st.Valid()
    ensures r.1.Valid()
    ensures r.0.Fail? ==> r.1 == st && r.0.code == BAD_REQUEST
    ensures r.0.Done? ==> r.0.code == OK
    ensures body.Some? && ValidateLikeData(posts, body.value.postId, body.value.doneBy).None?
            && Several(Matches(st, body.value.postId.value, body.value.doneBy.value))
            ==> r.0 == Fail(BAD_REQUEST, Internal)
    ensures r.0.Done? <==> body.Some? && ValidateLikeData(posts, body.value.postId, body.value.doneBy).None?
                           && !Found(Matches(st, body.value.postId.value, body.value.doneBy.value))
    ensures body.Some? && ValidateLikeData(posts, body.value.postId, body.value.doneBy).None?
            && Found(Matches(st, body.value.postId.value, body.value.doneBy.value))
            && !Several(Matches(st, body.value.postId.value, body.value.doneBy.value))
            ==> r.0 == Fail(BAD_REQUEST, Duplicate("like"))
    ensures r.0.Done? ==> var (id, like) := r.0.value;
      id !in st.rows && r.1.rows == st.rows[id := like] && like == body.value.(dateTime := Some(now))
  {
    if body.None? then (Fail(BAD_REQUEST, Required("like")), st)
    else if ValidateLikeData(posts, body.value.postId, body.value.doneBy).Some? then
      (Fail(BAD_REQUEST, ValidateLikeData(posts, body.value.postId, body.value.doneBy).value), st)
    else
      var like := body.value.(dateTime := Some(now));
      var m := Matches(st, like.postId.value, like.doneBy.value);
      if Several(m) then (Fail(BAD_REQUEST, Internal), st)
      else if Found(m) then (Fail(BAD_REQUEST, Duplicate("like")), st)
      else SaveChecked(st, None, like, OK)
  }

  /** `getLikesCountByPost`: the number of likes of the post; a bad id is refused, a missing post counts none. */
  function CountByPost(st: LikeStore, postId: Option<int>): (r: Reply<nat>)
    ensures r.Fail? <==> !GoodId(postId)
    ensures r.Fail? ==> r == Fail(BAD_REQUEST, InvalidId)
    ensures r.Done? ==> r.value == |LikesOf(st, postId.value)|
  {
    if !GoodId(postId) then Fail(BAD_REQUEST, InvalidId)
    else Done(OK, |LikesOf(st, postId.value)|)
  }

  /** While pairs are unique the finder never sees two likes, so toggle and create never take the several-rows refusal. */
  lemma UniquePairsNeverSeveral(st: LikeStore, postId: int, doneBy: int)
    requires AtMostOnePerPair(st)
    ensures !Several(Matches(st, postId, doneBy))
  {
  }

  /** Toggle, create and delete keep at most one like per post and user. */
  lemma WritesKeepAtMostOnePerPair(st: LikeStore, posts: PostStore, postId: Option<int>, doneBy: Option<int>, body: Option<Like>, id: Option<int>, now: int)
    requires st.Valid() && AtMostOnePerPair(st)
    ensures AtMostOnePerPair(Toggle(st, posts, postId, doneBy, now).1)
    ensures AtMostOnePerPair(CreateLike(st, posts, body, now).1)
    ensures AtMostOnePerPair(Delete(st, id, "like").1)
  {
    var (t, st1) := Toggle(st, posts, postId, doneBy, now);
    if t.Done? && t.value.Some? {
      var m := Matches(st, postId.value, doneBy.value);
      forall a, b | a in st1.rows && b in st1.rows && st1.rows[a].postId == st1.rows[b].postId && st1.rows[a].doneBy == st1.rows[b].doneBy
        ensures a == b
      {
        assert a !in st.rows ==> b !in m;
        assert b !in st.rows ==> a !in m;
      }
    }
    var (c, st2) := CreateLike(st, posts, body, now);
    if c.Done? {
      var m := Matches(st, body.value.postId.value, body.value.doneBy.value);
      forall a, b | a in st2.rows && b in st2.rows && st2.rows[a].postId == st2.rows[b].postId && st2.rows[a].doneBy == st2.rows[b].doneBy
        ensures a == b
      {
        assert a !in st.rows ==> b !in m;
        assert b !in st.rows ==> a !in m;
      }
    }
  }

  /** Removing one like of a post takes one off the post's count; adding one puts one on. */
  lemma CountAfterRemoveAndAdd(st: LikeStore, st': LikeStore, gone: int, added: int, like: Like, postId: int)
    requires gone in st.rows && st.rows[gone].postId == Some(postId) && added !in st.rows && like.postId == Some(postId)
    requires st'.rows == (st.rows - {gone})[added := like]
    ensures |LikesOf(st', postId)| == |LikesOf(st, postId)|
  {
    var before := LikesOf(st, postId);
    assert LikesOf(st', postId) == (before - {gone}) + {added};
    assert |before - {gone}| == |before| - 1;
    assert added !in before - {gone};
  }

  /**
   * Toggling the same pair twice restores the pairs that have a like and every post's count:
   * a like that was added is removed again, and a like that was removed comes back (under a
   * new id and time).
   */
  lemma ToggleTwiceRestores(st: LikeStore, posts: PostStore, postId: int, doneBy: int, now1: int, now2: int, q: int)
    requires st.Valid() && AtMostOnePerPair(st) && postId > 0 && doneBy > 0 && postId in posts.rows
    ensures var st1 := Toggle(st, posts, Some(postId), Some(doneBy), now1).1;
      var (r2, st2) := Toggle(st1, posts, Some(postId), Some(doneBy), now2);
      && r2.Done?
      && Pairs(st2) == Pairs(st)
      && CountByPost(st2, Some(q)) == CountByPost(st, Some(q))
  {
    var m := Matches(st, postId, doneBy);
    UniquePairsNeverSeveral(st, postId, doneBy);
    var (r1, st1) := Toggle(st, posts, Some(postId), Some(doneBy), now1);
    WritesKeepAtMostOnePerPair(st, posts, Some(postId), Some(doneBy), None, None, now1);
    UniquePairsNeverSeveral(st1, postId, doneBy);
    var (r2, st2) := Toggle(st1, posts, Some(postId), Some(doneBy), now2);
    if r1.value.Some? {
      var n := r1.value.value.0;
      assert st1.rows == st.rows[n := r1.value.value.1];
      assert forall k :: k in Matches(st1, postId, doneBy) <==> k == n;
      assert n in Matches(st1, postId, doneBy);
      assert r2.value.None?;
      assert st2.rows.Keys == st1.rows.Keys - {n};
      assert forall k :: k in st2.rows <==> k in st.rows;
      assert st2.rows == st.rows;
    } else {
      var x :| x in m;
      assert m == {x} by {
        assert forall y :: y in m ==> y == x;
      }
      assert st1.rows == st.rows - {x};
      assert !Found(Matches(st1, postId, doneBy));
      var n := r2.value.value.0;
      ReplaceKeepsPairsAndCounts(st, st2, x, n, Like(Some(postId), Some(now2), Some(doneBy)), q);
    }
  }

  /** Replacing one like by another on the same post and user keeps the pairs and every post's count. */
  lemma ReplaceKeepsPairsAndCounts(st: LikeStore, st': LikeStore, gone: int, added: int, like: Like, q: int)
    requires gone in st.rows && added !in st.rows && st'.rows == (st.rows - {gone})[added := like]
    requires like.postId == st.rows[gone].postId && like.doneBy == st.rows[gone].doneBy
    ensures Pairs(st') == Pairs(st)
    ensures |LikesOf(st', q)| == |LikesOf(st, q)|
  {
    forall p | p in Pairs(st) ensures p in Pairs(st') {
      var k :| k in st.rows && (st.rows[k].postId, st.rows[k].doneBy) == p;
      if k == gone { assert st'.rows[added] == like; } else { assert k in st'.rows; }
    }
    forall p | p in Pairs(st') ensures p in Pairs(st) {
      var k :| k in st'.rows && (st'.rows[k].postId, st'.rows[k].doneBy) == p;
      if k == added { assert gone in st.rows; } else { assert k in st.rows; }
    }
    if like.postId == Some(q) {
      CountAfterRemoveAndAdd(st, st', gone, added, like, q);
    } else {
      assert LikesOf(st', q) == LikesOf(st, q);
    }
  }

  /** Deleting a like takes exactly one off its post's count. */
  lemma DeleteLikeDropsCount(st: LikeStore, id: int)
    requires id > 0 && id in st.rows && st.rows[id].postId.Some? && st.rows[id].postId.value > 0
    ensures var p := st.rows[id].postId;
      CountByPost(Delete(st, Some(id), "like").1, p).value == CountByPost(st, p).value - 1
  {
    var p := st.rows[id].postId.value;
    var st' := Delete(st, Some(id), "like").1;
    assert LikesOf(st', p) == LikesOf(st, p) - {id};
  }
}

=== FILE: location.dfy ===
/**
 * The location-entity endpoints of the file-management application: named locations that
 * belong to a country, soft-deleted like the documents. The country table is only read here,
 * so it enters as the set of ids of its active rows.
 */
module Locations {
  import opened Common
  import opened Tables

  datatype Location = Location(name: Option<string>, description: Option<string>, country: Option<int>, active: bool)

  /** The request body; every field may be null. */
  datatype LocationRequest = LocationRequest(name: Option<string>, description: Option<string>, countryId: Option<int>)

  /** The response body: the country's id, or null when the location has none. */
  datatype LocationDto = LocationDto(id: int, name: Option<string>, countryId: Option<int>)

  type LocationStore = Table<Location>

  function ToDto(id: int, l: Location): (d: LocationDto)
    ensures d.id == id && d.name == l.name
    ensures d.countryId.None? <==> l.country.None?
    ensures l.country.Some? ==> d.countryId == l.country
  {
    LocationDto(id, l.name, l.country)
  }

  predicate Visible(st: LocationStore, id: int) {
    id in st.rows && st.rows[id].active
  }

  /** `findByIdAndActiveTrue(countryId)`: a null id finds nothing. */
  predicate CountryFound(countries: set<int>, countryId: Option<int>) {
    countryId.Some? && countryId.value in countries
  }

  /** All active locations, as response bodies. */
  function ListAll(st: LocationStore): (ds: set<LocationDto>)
    ensures forall d :: d in ds <==> Visible(st, d.id) && d == ToDto(d.id, st.rows[d.id])
  {
    set id | id in st.rows && st.rows[id].active :: ToDto(id, st.rows[id])
  }

  /** The active locations of one country; the country's own flag is not consulted. */
  function ListByCountry(st: LocationStore, countryId: int): (ds: set<LocationDto>)
    ensures forall d :: d in ds <==> Visible(st, d.id) && st.rows[d.id].country == Some(countryId) && d == ToDto(d.id, st.rows[d.id])
  {
    set id | id in st.rows && st.rows[id].active && st.rows[id].country == Some(countryId) :: ToDto(id, st.rows[id])
  }

  function Get(st: LocationStore, id: int): (r: Reply<LocationDto>)
    ensures r.Done? <==> Visible(st, id)
    ensures r.Done? ==> r == Done(OK, ToDto(id, st.rows[id]))
    ensures r.Fail? ==> r.code == NOT_FOUND
  {
    if Visible(st, id) then Done(OK, ToDto(id, st.rows[id])) else Fail(NOT_FOUND, NotFound("location"))
  }

  /** Create: the country must be found among the active ones; the new location is active. */
  function Create(st: LocationStore, countries: set<int>, req: LocationRequest): (r: (Reply<LocationDto>, LocationStore))
    requires st.Valid()
    ensures r.1.Valid()
    ensures r.0.Done? <==> CountryFound(countries, req.countryId)
    ensures r.0.Fail? ==> r.0.code == BAD_REQUEST && r.1 == st
    ensures r.0.Done? ==> (r.0.code == CREATED && r.0.value.id !in st.rows
                           && r.1.rows == st.rows[r.0.value.id := Location(req.name, req.description, req.countryId, true)])
  {
    if !CountryFound(countries, req.countryId) then (Fail(BAD_REQUEST, NotFound("country")), st)
    else
      var row := Location(req.name, req.description, req.countryId, true);
      var (st', id) := st.Insert(row);
      (Done(CREATED, ToDto(id, row)), st')
  }

  /**
   * Update: name and description are always overwritten, null included; the country changes
   * only when the request names an active one, and an unknown country is silently ignored.
   */
  function Update(st: LocationStore, countries: set<int>, id: int, req: LocationRequest): (r: (Reply<LocationDto>, LocationStore))
    ensures r.0.Done? <==> Visible(st, id)
    ensures r.0.Fail? ==> r.0.code == NOT_FOUND && r.1 == st
    ensures r.0.Done? ==> r.0.code == OK && r.1.rows.Keys == st.rows.Keys && id in r.1.rows
    ensures r.0.Done? ==> var l := r.1.rows[id];
              && l.name == req.name && l.description == req.description && l.active
              && l.country == (if CountryFound(countries, req.countryId) then req.countryId else st.rows[id].country)
              && r.0.value == ToDto(id, l)
    ensures r.0.Done? ==> forall k :: k in st.rows && k != id ==> r.1.rows[k] == st.rows[k]
  {
    if !Visible(st, id) then (Fail(NOT_FOUND, NotFound("location")), st)
    else
      var prev := st.rows[id];
      var country := if CountryFound(countries, req.countryId) then req.countryId else prev.country;
      var row := Location(req.name, req.description, country, true);
      (Done(OK, ToDto(id, row)), st.Put(id, row))
  }

  /** Delete: a soft delete answering 204 with no body. */
  function Delete(st: LocationStore, id: int): (r: (Reply<Unit>, LocationStore))
    ensures r.0.Done? <==> Visible(st, id)
    ensures r.0.Fail? ==> r.0.code == NOT_FOUND && r.1 == st
    ensures r.0.Done? ==> r.0.code == NO_CONTENT && r.1.rows == st.rows[id := st.rows[id].(active := false)]
  {
    if !Visible(st, id) then (Fail(NOT_FOUND, NotFound("location")), st)
    else (Done(NO_CONTENT, Unit), st.Put(id, st.rows[id].(active := false)))
  }

  /** Every active location points at a country from `countries`. */
  ghost predicate CountriesResolved(st: LocationStore, countries: set<int>) {
    forall id :: Visible(st, id) ==> st.rows[id].country.Some? && st.rows[id].country.value in countries
  }

  /** While the set of active countries stays the same, the endpoints never leave an active location without one. */
  lemma WritesKeepCountriesResolved(st: LocationStore, countries: set<int>, id: int, req: LocationRequest)
    requires st.Valid() && CountriesResolved(st, countries)
    ensures CountriesResolved(Create(st, countries, req).1, countries)
    ensures CountriesResolved(Update(st, countries, id, req).1, countries)
    ensures CountriesResolved(Delete(st, id).1, countries)
  {
  }

  /** A null name in an update request erases the stored name: update is a full overwrite. */
  lemma UpdateErasesName(st: LocationStore, countries: set<int>, id: int, req: LocationRequest)
    requires Visible(st, id) && req.name.None?
    ensures Update(st, countries, id, req).1.rows[id].name.None?
  {
  }

  /** An update naming an unknown or inactive country succeeds and keeps the old country. */
  lemma UpdateIgnoresUnknownCountry(st: LocationStore, countries: set<int>, id: int, req: LocationRequest)
    requires Visible(st, id) && !CountryFound(countries, req.countryId)
    ensures var (r, st') := Update(st, countries, id, req);
      r.Done? && st'.rows[id].country == st.rows[id].country
  {
  }

  /** After a delete the location is still stored but hidden: get and a second delete answer 404, and no list shows it. */
  lemma DeleteHides(st: LocationStore, id: int, countryId: int)
    requires Visible(st, id)
    ensures var st' := Delete(st, id).1;
      && id in st'.rows
      && Get(st', id).code == NOT_FOUND
      && Delete(st', id).0.code == NOT_FOUND
      && (forall d :: d in ListAll(st') ==> d.id != id)
      && (forall d :: d in ListByCountry(st', countryId) ==> d.id != id)
  {
  }

  /** What create answers is what a later get answers. */
  lemma CreateThenGet(st: LocationStore, countries: set<int>, req: LocationRequest)
    requires st.Valid() && CountryFound(countries, req.countryId)
    ensures var (r, st') := Create(st, countries, req);
      r.Done? && Get(st', r.value.id) == Done(OK, r.value)
  {
  }
}

=== FILE: soft_delete.dfy ===
/**
 * The record-keeping engine shared by every document controller of the file-management
 * application. A document row is a bag of named columns plus the `active` flag; the
 * controllers differ only in which column is the record's name, which columns an update may
 * overwrite, which two columns the free-text search looks at, and a handful of switches
 * (captured by `Schema`). Delete is a soft delete: the row stays and `active` turns false,
 * after which every endpoint treats it as absent.
 */
module SoftDelete {
  import opened Common
  import opened JavaText
  import opened SqlLike
  import opened Tables

  /** A column value. Dates and amounts are opaque numbers; a reference holds the referenced row's id. */
  datatype Value = Text(s: string) | Num(n: int) | Day(d: int) | Ref(id: int)

  /** A document row: its non-null columns and the soft-delete flag. */
  datatype Row = Row(cols: map<string, Value>, active: bool)

  type Store = Table<Row>

  const DONE_BY := "doneBy"
  const DOCUMENT := "document"
  const STATUS := "status"
  const SECTION_CATEGORY := "sectionCategory"
  /** The field named in the combined "DoneBy, Document, and Status are required" refusal. */
  const REFERENCES := "doneBy, document, status"

  /** How create reports a missing reference: one combined message, or one check per reference. */
  datatype RefCheck = Combined | OneByOne

  datatype Schema = Schema(
    name: string,              // column create requires to be non-blank
    updatable: set<string>,    // columns update copies from the request when non-null
    search: (string, string),  // columns the search query matches case-insensitively
    bySection: bool,           // list honours sectionCategoryId
    byDocument: bool,          // list honours documentId
    idGuard: bool,             // get-by-id refuses an id <= 0 before looking it up
    refCheck: RefCheck,
    uniqueName: bool)          // create refuses a name an active row already holds

  /** The optional filters of the list endpoint; paging and sorting are not modelled here. */
  datatype ListQuery = ListQuery(
    search: Option<string>,
    statusId: Option<int>,
    sectionCategoryId: Option<int>,
    documentId: Option<int>)

  /** The one repository query a list request ends up running. */
  datatype Branch = BySearch(term: string) | ByStatus(id: int) | BySection(id: int) | ByDocument(id: int) | AllActive

  predicate HasText(r: Row, c: string) {
    c in r.cols && r.cols[c].Text?
  }

  /** The column holds a string that is not blank: the `x != null && !x.trim().isEmpty()` test. */
  predicate NonBlank(r: Row, c: string) {
    HasText(r, c) && !IsBlank(r.cols[c].s)
  }

  predicate HasRefs(r: Row) {
    DONE_BY in r.cols && DOCUMENT in r.cols && STATUS in r.cols
  }

  /** A derived `...And<Column>_Id(id)` condition: the reference is non-null and points at `id`. */
  predicate RefIs(r: Row, c: string, id: int) {
    c in r.cols && r.cols[c] == Ref(id)
  }

  /** `LOWER(col) LIKE LOWER(CONCAT('%', term, '%'))`; a null column makes the comparison unknown, which never selects. */
  predicate ColLike(r: Row, c: string, term: string) {
    HasText(r, c) && LikeMatch(Lower(r.cols[c].s), Lower("%" + term + "%"))
  }

  /** `active = true AND (LOWER(c1) LIKE ... OR LOWER(c2) LIKE ...)`. */
  predicate SearchHit(r: Row, cols: (string, string), term: string) {
    r.active && (ColLike(r, cols.0, term) || ColLike(r, cols.1, term))
  }

  /** Some active row holds `v` in column `c`: an `existsBy<Column>AndActiveTrue` query. */
  predicate Taken(st: Store, c: string, v: Value) {
    exists id :: id in st.rows && st.rows[id].active && c in st.rows[id].cols && st.rows[id].cols[c] == v
  }

  /** The list endpoint's choice: a non-blank search wins, then status, then section, then document. */
  function ChooseBranch(sch: Schema, q: ListQuery): (b: Branch)
    ensures b.BySearch? <==> q.search.Some? && !IsBlank(q.search.value)
    ensures b.ByStatus? ==> q.statusId == Some(b.id)
    ensures b.BySection? ==> sch.bySection && q.sectionCategoryId == Some(b.id) && q.statusId.None?
    ensures b.ByDocument? ==> sch.byDocument && q.documentId == Some(b.id) && q.statusId.None?
    ensures b.AllActive? ==> q.statusId.None? && (sch.bySection ==> q.sectionCategoryId.None?)
                                               && (sch.byDocument ==> q.documentId.None?)
  {
    if q.search.Some? && !IsBlank(q.search.value) then BySearch(q.search.value)
    else if q.statusId.Some? then ByStatus(q.statusId.value)
    else if sch.bySection && q.sectionCategoryId.Some? then BySection(q.sectionCategoryId.value)
    else if sch.byDocument && q.documentId.Some? then ByDocument(q.documentId.value)
    else AllActive
  }

  predicate Selects(sch: Schema, r: Row, b: Branch) {
    match b
    case BySearch(t) => SearchHit(r, sch.search, t)
    case ByStatus(id) => r.active && RefIs(r, STATUS, id)
    case BySection(id) => r.active && RefIs(r, SECTION_CATEGORY, id)
    case ByDocument(id) => r.active && RefIs(r, DOCUMENT, id)
    case AllActive => r.active
  }

  /** The ids a list request returns, before paging. */
  function List(sch: Schema, st: Store, q: ListQuery): (ids: set<int>)
    ensures forall id :: id in ids ==> id in st.rows && st.rows[id].active
  {
    BranchIds(sch, st, ChooseBranch(sch, q))
  }

  function BranchIds(sch: Schema, st: Store, b: Branch): set<int> {
    set id | id in st.rows && Selects(sch, st.rows[id], b)
  }

  // Reference definitions of what each filter is meant to return.

  function ActiveIds(st: Store): set<int> {
    set id | id in st.rows && st.rows[id].active
  }

  function ActiveWithRef(st: Store, c: string, ref: int): set<int> {
    set id | id in st.rows && st.rows[id].active && RefIs(st.rows[id], c, ref)
  }

  function SearchIds(st: Store, cols: (string, string), term: string): set<int> {
    set id | id in st.rows && SearchHit(st.rows[id], cols, term)
  }

  /** The full precedence of the list filters, each level against its reference definition. */
  lemma ListPrecedence(sch: Schema, st: Store, q: ListQuery)
    ensures q.search.Some? && !IsBlank(q.search.value) ==>
              List(sch, st, q) == SearchIds(st, sch.search, q.search.value)
    ensures (q.search.None? || IsBlank(q.search.value)) && q.statusId.Some? ==>
              List(sch, st, q) == ActiveWithRef(st, STATUS, q.statusId.value)
    ensures (q.search.None? || IsBlank(q.search.value)) && q.statusId.None?
            && sch.bySection && q.sectionCategoryId.Some? ==>
              List(sch, st, q) == ActiveWithRef(st, SECTION_CATEGORY, q.sectionCategoryId.value)
    ensures (q.search.None? || IsBlank(q.search.value)) && q.statusId.None?
            && (!sch.bySection || q.sectionCategoryId.None?) && sch.byDocument && q.documentId.Some? ==>
              List(sch, st, q) == ActiveWithRef(st, DOCUMENT, q.documentId.value)
    ensures (q.search.None? || IsBlank(q.search.value)) && q.statusId.None?
            && (!sch.bySection || q.sectionCategoryId.None?) && (!sch.byDocument || q.documentId.None?) ==>
              List(sch, st, q) == ActiveIds(st)
  {
    var l := List(sch, st, q);
    match ChooseBranch(sch, q)
    case BySearch(t) =>
      assert forall id :: id in l <==> id in SearchIds(st, sch.search, t);
    case ByStatus(v) =>
      assert forall id :: id in l <==> id in ActiveWithRef(st, STATUS, v);
    case BySection(v) =>
      assert forall id :: id in l <==> id in ActiveWithRef(st, SECTION_CATEGORY, v);
    case ByDocument(v) =>
      assert forall id :: id in l <==> id in ActiveWithRef(st, DOCUMENT, v);
    case AllActive =>
      assert forall id :: id in l <==> id in ActiveIds(st);
  }

  /** A whitespace-only search parameter is the same as no search parameter. */
  lemma BlankSearchIgnored(sch: Schema, st: Store, q: ListQuery)
    requires q.search.Some? && IsBlank(q.search.value)
    ensures List(sch, st, q) == List(sch, st, q.(search := None))
  {
    assert ChooseBranch(sch, q) == ChooseBranch(sch, q.(search := None));
  }

  /** A filter the controller does not accept changes nothing. */
  lemma UnsupportedFiltersIgnored(sch: Schema, st: Store, q: ListQuery)
    ensures !sch.bySection ==> List(sch, st, q) == List(sch, st, q.(sectionCategoryId := None))
    ensures !sch.byDocument ==> List(sch, st, q) == List(sch, st, q.(documentId := None))
  {
    if !sch.bySection {
      assert ChooseBranch(sch, q) == ChooseBranch(sch, q.(sectionCategoryId := None));
    }
    if !sch.byDocument {
      assert ChooseBranch(sch, q) == ChooseBranch(sch, q.(documentId := None));
    }
  }

  /** With a search term free of wildcards, a column matches exactly when it contains the term, ignoring ASCII case. */
  lemma SearchIsCaseInsensitiveSubstring(r: Row, c: string, term: string)
    requires NoWild(term)
    ensures ColLike(r, c, term) <==> HasText(r, c) && Contains(Lower(r.cols[c].s), Lower(term))
  {
    var lt := Lower(term);
    assert Lower("%" + term + "%") == "%" + lt + "%";
    assert NoWild(lt) by {
      forall i | 0 <= i < |lt| ensures lt[i] != '%' && lt[i] != '_' {
        assert lt[i] == LowerChar(term[i]);
      }
    }
    if HasText(r, c) {
      ContainsPattern(Lower(r.cols[c].s), lt);
    }
  }

  /** Get by id: only active rows are visible. */
  function GetById(sch: Schema, st: Store, id: int): (r: Reply<Row>)
    ensures r.Done? <==> id in st.rows && st.rows[id].active && !(sch.idGuard && id <= 0)
    ensures r.Done? ==> r.code == OK && r.value == st.rows[id]
    ensures r.Fail? ==> r.code == BAD_REQUEST
    ensures sch.idGuard && id <= 0 ==> r.Fail? && r.reason == InvalidId
  {
    if sch.idGuard && id <= 0 then Fail(BAD_REQUEST, InvalidId)
    else if id in st.rows && st.rows[id].active then Done(OK, st.rows[id])
    else Fail(BAD_REQUEST, NotFound("record"))
  }

  /** The first check create fails, in the order the controller makes them. */
  function CreateRefusal(sch: Schema, st: Store, body: Row): Option<Reason> {
    if !NonBlank(body, sch.name) then Some(Required(sch.name))
    else if sch.refCheck == Combined && !HasRefs(body) then Some(Required(REFERENCES))
    else if sch.refCheck == OneByOne && DONE_BY !in body.cols then Some(Required(DONE_BY))
    else if sch.refCheck == OneByOne && DOCUMENT !in body.cols then Some(Required(DOCUMENT))
    else if sch.refCheck == OneByOne && STATUS !in body.cols then Some(Required(STATUS))
    else if sch.uniqueName && Taken(st, sch.name, body.cols[sch.name]) then Some(Duplicate(sch.name))
    else None
  }

  /** Create: validate, then store the request body as a new active row. */
  function Create(sch: Schema, st: Store, body: Row): (r: (Reply<int>, Store))
    requires st.Valid()
    ensures r.1.Valid()
    ensures r.0.Done? <==>
              NonBlank(body, sch.name) && HasRefs(body)
              && !(sch.uniqueName && Taken(st, sch.name, body.cols[sch.name]))
    ensures r.0.Fail? ==> r.0.code == BAD_REQUEST && r.1 == st
    ensures r.0.Done? ==> r.0.code == OK && r.0.value !in st.rows
                          && r.1.rows == st.rows[r.0.value := body.(active := true)]
    ensures !NonBlank(body, sch.name) ==> r.0 == Fail(BAD_REQUEST, Required(sch.name))
    ensures CreateRefusal(sch, st, body).Some? ==> r.0 == Fail(BAD_REQUEST, CreateRefusal(sch, st, body).value)
  {
    match CreateRefusal(sch, st, body)
    case Some(why) => (Fail(BAD_REQUEST, why), st)
    case None =>
      var (st', id) := st.Insert(body.(active := true));
      (Done(OK, id), st')
  }

  /** The row an update leaves: each updatable column the request carries replaces the stored one. */
  function Patch(fields: set<string>, prev: Row, req: Row): (r: Row)
    ensures r.active == prev.active
    ensures forall c :: c in fields && c in req.cols ==> c in r.cols && r.cols[c] == req.cols[c]
    ensures forall c :: !(c in fields && c in req.cols) ==>
              (c in r.cols <==> c in prev.cols) && (c in prev.cols ==> r.cols[c] == prev.cols[c])
  {
    var keys := prev.cols.Keys + (req.cols.Keys * fields);
    Row(map c | c in keys :: if c in fields && c in req.cols then req.cols[c] else prev.cols[c], prev.active)
  }

  /** Update: a partial overwrite of an active row; a missing or deleted row is refused. */
  function Update(sch: Schema, st: Store, id: int, req: Row): (r: (Reply<Row>, Store))
    ensures r.0.Done? <==> id in st.rows && st.rows[id].active
    ensures r.0.Fail? ==> r.0.code == BAD_REQUEST && r.1 == st
    ensures r.0.Done? ==> r.0.code == OK && r.1.rows == st.rows[id := r.0.value] && r.1.next == st.next
    ensures r.0.Done? ==> r.0.value.active
    ensures r.0.Done? ==> forall c :: c in sch.updatable && c in req.cols ==>
              c in r.0.value.cols && r.0.value.cols[c] == req.cols[c]
    ensures r.0.Done? ==> forall c :: !(c in sch.updatable && c in req.cols) ==>
              (c in r.0.value.cols <==> c in st.rows[id].cols)
              && (c in st.rows[id].cols ==> r.0.value.cols[c] == st.rows[id].cols[c])
  {
    if id in st.rows && st.rows[id].active then
      var row := Patch(sch.updatable, st.rows[id], req);
      (Done(OK, row), st.Put(id, row))
    else
      (Fail(BAD_REQUEST, NotFound("record")), st)
  }

  /** Delete: a soft delete, which keeps the row and clears its flag. */
  function Delete(st: Store, id: int): (r: (Reply<Unit>, Store))
    ensures r.0.Done? <==> id in st.rows && st.rows[id].active
    ensures r.0.Fail? ==> r.0.code == BAD_REQUEST && r.1 == st
    ensures r.0.Done? ==> r.0.code == OK && r.1.rows.Keys == st.rows.Keys && r.1.next == st.next
                          && r.1.rows[id] == st.rows[id].(active := false)
                          && forall k :: k in st.rows && k != id ==> r.1.rows[k] == st.rows[k]
  {
    if id in st.rows && st.rows[id].active then
      (Done(OK, Unit), st.Put(id, st.rows[id].(active := false)))
    else
      (Fail(BAD_REQUEST, NotFound("record")), st)
  }

  // Properties relating several operations.

  /** After a delete the row is still stored, but get, update and a second delete all refuse it, and no list returns it. */
  lemma DeleteHidesRow(sch: Schema, st: Store, id: int, req: Row, q: ListQuery)
    requires Delete(st, id).0.Done?
    ensures var st' := Delete(st, id).1;
      && id in st'.rows && st'.rows[id].cols == st.rows[id].cols
      && GetById(sch, st', id).Fail?
      && Update(sch, st', id, req).0.Fail?
      && Delete(st', id).0.Fail?
      && id !in List(sch, st', q)
  {
  }

  /** Updating twice with the same request is the same as updating once. */
  lemma UpdateIdempotent(sch: Schema, st: Store, id: int, req: Row)
    requires Update(sch, st, id, req).0.Done?
    ensures var st1 := Update(sch, st, id, req).1;
      Update(sch, st1, id, req) == (Update(sch, st, id, req).0, st1)
  {
    var st1 := Update(sch, st, id, req).1;
    var row := st1.rows[id];
    assert Patch(sch.updatable, row, req) == row;
    assert st1.rows[id := row] == st1.rows;
  }

  /** A row created and then fetched comes back as the body that was sent, marked active. */
  lemma CreateThenGet(sch: Schema, st: Store, body: Row)
    requires st.Valid()
    requires Create(sch, st, body).0.Done?
    ensures var (r, st') := Create(sch, st, body);
      GetById(sch, st', r.value) == Done(OK, body.(active := true))
  {
  }

  /** The store's id invariant survives every write. */
  lemma WritesKeepValid(sch: Schema, st: Store, id: int, req: Row)
    requires st.Valid()
    ensures Create(sch, st, req).1.Valid()
    ensures Update(sch, st, id, req).1.Valid()
    ensures Delete(st, id).1.Valid()
  {
  }

  /**
   * Where create enforces a unique name, the check only looks at active rows: once the one
   * active holder of a name is soft-deleted, a new row may take that name again, and the store
   * then holds two rows with it.
   */
  lemma NameFreedByDelete(sch: Schema, st: Store, id: int, body: Row)
    requires st.Valid()
    requires sch.uniqueName && NonBlank(body, sch.name) && HasRefs(body)
    requires id in st.rows && st.rows[id].active
    requires sch.name in st.rows[id].cols && st.rows[id].cols[sch.name] == body.cols[sch.name]
    requires forall k :: k in st.rows && k != id && st.rows[k].active && sch.name in st.rows[k].cols ==>
               st.rows[k].cols[sch.name] != body.cols[sch.name]
    ensures Create(sch, st, body).0.Fail?
    ensures var st1 := Delete(st, id).1;
      var (r, st2) := Create(sch, st1, body);
      r.Done? && id in st2.rows && r.value in st2.rows && r.value != id
      && st2.rows[id].cols[sch.name] == st2.rows[r.value].cols[sch.name]
  {
    var st1 := Delete(st, id).1;
    assert !Taken(st1, sch.name, body.cols[sch.name]);
  }

  /**
   * Update never re-checks the unique name: an active row can be renamed to the name another
   * active row holds.
   */
  lemma UpdateSkipsUniqueness(sch: Schema, st: Store, a: int, b: int, req: Row)
    requires a != b && a in st.rows && b in st.rows && st.rows[a].active && st.rows[b].active
    requires sch.name in sch.updatable && sch.name in st.rows[b].cols
    requires req.cols == map[sch.name := st.rows[b].cols[sch.name]]
    ensures var (r, st') := Update(sch, st, a, req);
      r.Done? && st'.rows[a].active && st'.rows[b].active
      && st'.rows[a].cols[sch.name] == st'.rows[b].cols[sch.name]
  {
  }

  /** Without a uniqueness rule, create accepts any valid body whatever the store holds. */
  lemma NoUniquenessWithoutRule(sch: Schema, st: Store, body: Row)
    requires st.Valid() && !sch.uniqueName
    ensures Create(sch, st, body).0.Done? <==> NonBlank(body, sch.name) && HasRefs(body)
  {
  }
}

=== FILE: sorted_listing.dfy ===
/**
 * The document endpoints that list with a fixed sort instead of the caller's: expiring insurance
 * policies, permits and certificates (by expiry date, ascending), third-party claims of one
 * status (by claim date, descending) and land assets of one section (by name, ascending).
 * Nulls sort first in ascending order and last in descending order, as MySQL sorts them;
 * strings compare char by char. Paging is not modelled: the whole ordered result is returned.
 */
module SortedListing {
  import opened Common
  import opened SoftDelete
  import opened DocumentControllers
  import opened DocumentRepositories

  /** Lexicographic order on strings, by char code. */
  predicate StrLe(a: string, b: string)
    decreases |a|
  {
    a == [] || (b != [] && (a[0] < b[0] || (a[0] == b[0] && StrLe(a[1..], b[1..]))))
  }

  lemma {:induction false} StrLeTotal(a: string, b: string)
    ensures StrLe(a, b) || StrLe(b, a)
    decreases |a|
  {
    if a != [] && b != [] && a[0] == b[0] {
      StrLeTotal(a[1..], b[1..]);
    }
  }

  lemma {:induction false} StrLeTrans(a: string, b: string, c: string)
    requires StrLe(a, b) && StrLe(b, c)
    ensures StrLe(a, c)
    decreases |a|
  {
    if a != [] && b != [] && c != [] && a[0] == b[0] && b[0] == c[0] {
      StrLeTrans(a[1..], b[1..], c[1..]);
    }
  }

  function Rank(v: Value): nat {
    match v
    case Text(_) => 0
    case Num(_) => 1
    case Day(_) => 2
    case Ref(_) => 3
  }

  /** The order of one column's values; values of different kinds (which one column never mixes) go by kind. */
  predicate ValueLe(a: Value, b: Value) {
    if Rank(a) != Rank(b) then Rank(a) < Rank(b)
    else match (a, b)
      case (Text(x), Text(y)) => StrLe(x, y)
      case (Num(x), Num(y)) => x <= y
      case (Day(x), Day(y)) => x <= y
      case (Ref(x), Ref(y)) => x <= y
      case _ => true
  }

  /** Null sorts before every value. */
  predicate KeyLe(a: Option<Value>, b: Option<Value>) {
    a.None? || (b.Some? && ValueLe(a.value, b.value))
  }

  lemma KeyLeTotal(a: Option<Value>, b: Option<Value>)
    ensures KeyLe(a, b) || KeyLe(b, a)
  {
    if a.Some? && b.Some? && a.value.Text? && b.value.Text? {
      StrLeTotal(a.value.s, b.value.s);
    }
  }

  lemma KeyLeTrans(a: Option<Value>, b: Option<Value>, c: Option<Value>)
    requires KeyLe(a, b) && KeyLe(b, c)
    ensures KeyLe(a, c)
  {
    if a.Some? && a.value.Text? && b.value.Text? && c.value.Text? {
      StrLeTrans(a.value.s, b.value.s, c.value.s);
    }
  }

  /** The sort key of a stored row. */
  function Key(st: Store, col: string, id: int): Option<Value> {
    if id in st.rows then Col(st.rows[id], col) else None
  }

  /** `a` may come before `b` under the sort on `col` in the given direction. */
  predicate Before(st: Store, col: string, desc: bool, a: int, b: int) {
    if desc then KeyLe(Key(st, col, b), Key(st, col, a)) else KeyLe(Key(st, col, a), Key(st, col, b))
  }

  lemma BeforeTotal(st: Store, col: string, desc: bool, a: int, b: int)
    ensures Before(st, col, desc, a, b) || Before(st, col, desc, b, a)
  {
    KeyLeTotal(Key(st, col, a), Key(st, col, b));
  }

  lemma BeforeTrans(st: Store, col: string, desc: bool, a: int, b: int, c: int)
    requires Before(st, col, desc, a, b) && Before(st, col, desc, b, c)
    ensures Before(st, col, desc, a, c)
  {
    if desc {
      KeyLeTrans(Key(st, col, c), Key(st, col, b), Key(st, col, a));
    } else {
      KeyLeTrans(Key(st, col, a), Key(st, col, b), Key(st, col, c));
    }
  }

  predicate Sorted(st: Store, col: string, desc: bool, s: seq<int>) {
    forall i, j :: 0 <= i < j < |s| ==> Before(st, col, desc, s[i], s[j])
  }

  /** An element that comes before `x` and before everything in `u` may head any ordering of `u` and `x`. */
  lemma ConsSorted(st: Store, col: string, desc: bool, y: int, x: int, u: seq<int>, t: seq<int>)
    requires Before(st, col, desc, y, x) && Sorted(st, col, desc, t)
    requires forall j :: 0 <= j < |u| ==> Before(st, col, desc, y, u[j])
    requires multiset(t) == multiset(u) + multiset{x}
    ensures Sorted(st, col, desc, [y] + t)
  {
    forall j | 0 <= j < |t| ensures Before(st, col, desc, y, t[j]) {
      assert t[j] in multiset(t);
      if t[j] != x {
        assert t[j] in multiset(u);
        var k :| 0 <= k < |u| && u[k] == t[j];
      }
    }
    forall i, j | 0 <= i < j < |[y] + t| ensures Before(st, col, desc, ([y] + t)[i], ([y] + t)[j]) {
      if i > 0 { assert ([y] + t)[i] == t[i - 1] && ([y] + t)[j] == t[j - 1]; }
      else { assert ([y] + t)[j] == t[j - 1]; }
    }
  }

  /** Inserts `x` into an ordered sequence, keeping it ordered. */
  function InsertSorted(st: Store, col: string, desc: bool, x: int, s: seq<int>): (r: seq<int>)
    requires Sorted(st, col, desc, s)
    ensures Sorted(st, col, desc, r)
    ensures multiset(r) == multiset(s) + multiset{x}
    decreases |s|
  {
    if s == [] then [x]
    else if Before(st, col, desc, x, s[0]) then
      assert forall j :: 0 <= j < |s| ==> Before(st, col, desc, x, s[j]) by {
        forall j | 0 <= j < |s| ensures Before(st, col, desc, x, s[j]) {
          if j > 0 { BeforeTrans(st, col, desc, x, s[0], s[j]); }
        }
      }
      [x] + s
    else
      BeforeTotal(st, col, desc, x, s[0]);
      var t := InsertSorted(st, col, desc, x, s[1..]);
      assert s == [s[0]] + s[1..];
      assert forall j :: 0 <= j < |s[1..]| ==> Before(st, col, desc, s[0], s[1..][j]) by {
        forall j | 0 <= j < |s[1..]| ensures Before(st, col, desc, s[0], s[1..][j]) {
          assert s[1..][j] == s[j + 1];
        }
      }
      ConsSorted(st, col, desc, s[0], x, s[1..], t);
      [s[0]] + t
  }

  /**
   * The ids of `sel`, each exactly once, in sort order: what a fixed-sort endpoint answers.
   * The ids are taken in increasing order and inserted one by one.
   */
  method SortedIds(st: Store, sel: set<int>, col: string, desc: bool) returns (out: seq<int>)
    requires st.Valid() && forall id :: id in sel ==> id in st.rows
    ensures Sorted(st, col, desc, out)
    ensures forall id :: multiset(out)[id] == if id in sel then 1 else 0
    ensures forall id :: id in out <==> id in sel
  {
    out := [];
    var i := 1;
    while i < st.next
      invariant 1 <= i <= st.next
      invariant Sorted(st, col, desc, out)
      invariant forall id :: multiset(out)[id] == if id in sel && id < i then 1 else 0
    {
      if i in sel {
        out := InsertSorted(st, col, desc, i, out);
      }
      i := i + 1;
    }
    assert forall id :: id in out <==> multiset(out)[id] > 0;
  }

  // The endpoints.

  /** Active rows of `st` satisfying the selection predicate, gathered into a set. */
  function ActiveWhere(st: Store, col: string, v: Value): (ids: set<int>)
    ensures forall id :: id in ids <==> id in st.rows && st.rows[id].active && Col(st.rows[id], col) == Some(v)
  {
    set id | id in st.rows && st.rows[id].active && Col(st.rows[id], col) == Some(v)
  }

  /** Active rows whose date column falls on or before `limit`. */
  function ActiveDueBy(st: Store, col: string, limit: int): (ids: set<int>)
    ensures forall id :: id in ids <==> id in st.rows && st.rows[id].active && DayAtMost(st.rows[id], col, limit)
  {
    set id | id in st.rows && st.rows[id].active && DayAtMost(st.rows[id], col, limit)
  }

  /**
   * Rows expiring within `days` of `today` on the date column `col`, earliest expiry first: the
   * construction permits (on `dateExpiration`), the certificates and licences (on `expiryDate`),
   * and the insurance policies (on `endDate`, the date the insurance controller writes and sorts by).
   */
  method ExpiringListing(st: Store, col: string, today: int, days: int) returns (out: seq<int>)
    requires st.Valid()
    ensures forall id :: id in out <==> id in st.rows && st.rows[id].active && DayAtMost(st.rows[id], col, today + days)
    ensures forall id :: multiset(out)[id] == if id in st.rows && st.rows[id].active && DayAtMost(st.rows[id], col, today + days) then 1 else 0
    ensures Sorted(st, col, false, out)
  {
    out := SortedIds(st, ActiveDueBy(st, col, today + days), col, false);
  }

  /** Third-party claims with the given claim status, latest claim date first. */
  method ClaimsByStatusListing(st: Store, claimStatus: string) returns (out: seq<int>)
    requires st.Valid()
    ensures forall id :: id in out <==> id in st.rows && st.rows[id].active && Col(st.rows[id], "claimStatus") == Some(Text(claimStatus))
    ensures forall id :: multiset(out)[id] == if id in st.rows && st.rows[id].active && Col(st.rows[id], "claimStatus") == Some(Text(claimStatus)) then 1 else 0
    ensures Sorted(st, "claimDate", true, out)
    ensures forall i, j :: 0 <= i < j < |out| && Key(st, "claimDate", out[i]).None? ==> Key(st, "claimDate", out[j]).None?
  {
    out := SortedIds(st, ActiveWhere(st, "claimStatus", Text(claimStatus)), "claimDate", true);
  }

  /** Land assets of one section category, by asset name. */
  method AssetLandBySectionListing(st: Store, sectionCategoryId: int) returns (out: seq<int>)
    requires st.Valid()
    ensures forall id :: id in out <==> id in st.rows && st.rows[id].active && RefIs(st.rows[id], SECTION_CATEGORY, sectionCategoryId)
    ensures forall id :: multiset(out)[id] == if id in st.rows && st.rows[id].active && RefIs(st.rows[id], SECTION_CATEGORY, sectionCategoryId) then 1 else 0
    ensures Sorted(st, "assetName", false, out)
    ensures forall i, j :: 0 <= i < j < |out| && Key(st, "assetName", out[j]).None? ==> Key(st, "assetName", out[i]).None?
  {
    out := SortedIds(st, ActiveWhere(st, SECTION_CATEGORY, Ref(sectionCategoryId)), "assetName", false);
  }
}

=== FILE: sql_like.dfy ===
/**
 * The SQL LIKE operator as the repositories' JPQL uses it: '%' matches any run of chars, '_'
 * matches exactly one char, every other char matches itself. No escape char is declared by the
 * queries, so none is modelled.
 */
module SqlLike {

  /** `t LIKE p`. */
  function LikeMatch(t: string, p: string): (r: bool)
    decreases |t| + |p|
  {
    if p == [] then t == []
    else if p[0] == '%' then LikeMatch(t, p[1..]) || (|t| > 0 && LikeMatch(t[1..], p))
    else if p[0] == '_' then |t| > 0 && LikeMatch(t[1..], p[1..])
    else |t| > 0 && t[0] == p[0] && LikeMatch(t[1..], p[1..])
  }

  /** A string with neither wildcard in it. */
  predicate NoWild(s: string) {
    forall i :: 0 <= i < |s| ==> s[i] != '%' && s[i] != '_'
  }

  /** `s` occurs in `t` as a contiguous piece. */
  predicate Contains(t: string, s: string) {
    exists i :: 0 <= i <= |t| && s <= t[i..]
  }

  /** The pattern '%' matches every string, the empty one included. */
  lemma {:induction false} PercentMatchesAll(t: string)
    ensures LikeMatch(t, "%")
  {
    assert "%"[1..] == [];
    if |t| > 0 {
      PercentMatchesAll(t[1..]);
    }
  }

  /** A literal prefix followed by '%' matches exactly the strings that start with it. */
  lemma {:induction false} PrefixPattern(t: string, s: string)
    requires NoWild(s)
    ensures LikeMatch(t, s + "%") <==> s <= t
  {
    if s == [] {
      assert s + "%" == "%";
      PercentMatchesAll(t);
    } else {
      assert (s + "%")[0] == s[0];
      assert (s + "%")[1..] == s[1..] + "%";
      assert NoWild(s[1..]) by {
        forall i | 0 <= i < |s[1..]| ensures s[1..][i] != '%' && s[1..][i] != '_' {
          assert s[1..][i] == s[i + 1];
        }
      }
      if |t| > 0 {
        PrefixPattern(t[1..], s[1..]);
        assert s <= t <==> (t[0] == s[0] && s[1..] <= t[1..]);
      }
    }
  }

  /** A leading '%' lets the rest of the pattern match any suffix of the text. */
  lemma {:induction false} LeadingPercent(t: string, q: string)
    ensures LikeMatch(t, "%" + q) <==> exists i :: 0 <= i <= |t| && LikeMatch(t[i..], q)
    decreases |t|
  {
    var p := "%" + q;
    assert p[0] == '%' && p[1..] == q;
    assert t[0..] == t;
    if |t| > 0 {
      LeadingPercent(t[1..], q);
      if exists i :: 1 <= i <= |t| && LikeMatch(t[i..], q) {
        var i :| 1 <= i <= |t| && LikeMatch(t[i..], q);
        assert t[1..][i - 1..] == t[i..];
      }
      if exists j :: 0 <= j <= |t| - 1 && LikeMatch(t[1..][j..], q) {
        var j :| 0 <= j <= |t| - 1 && LikeMatch(t[1..][j..], q);
        assert t[1..][j..] == t[j + 1..];
      }
    }
  }

  /** `%s%` with a wildcard-free `s` is the substring test. */
  lemma ContainsPattern(t: string, s: string)
    requires NoWild(s)
    ensures LikeMatch(t, "%" + s + "%") <==> Contains(t, s)
  {
    assert "%" + s + "%" == "%" + (s + "%");
    LeadingPercent(t, s + "%");
    forall i | 0 <= i <= |t|
      ensures LikeMatch(t[i..], s + "%") <==> s <= t[i..]
    {
      PrefixPattern(t[i..], s);
    }
  }

  /** A pattern made of '%' alone. */
  predicate AllPercent(p: string) {
    forall i :: 0 <= i < |p| ==> p[i] == '%'
  }

  /** A non-empty pattern of '%' alone matches every string. */
  lemma {:induction false} PercentsMatchAll(t: string, p: string)
    requires |p| > 0 && AllPercent(p)
    ensures LikeMatch(t, p)
  {
    if |p| == 1 {
      assert p == "%";
      PercentMatchesAll(t);
    } else {
      assert AllPercent(p[1..]) by {
        forall i | 0 <= i < |p[1..]| ensures p[1..][i] == '%' {
          assert p[1..][i] == p[i + 1];
        }
      }
      assert p[0] == '%';
      PercentsMatchAll(t, p[1..]);
    }
  }

  /** A search term made of '%' alone, such as "%" or "", matches every non-null column. */
  lemma WildcardTermMatchesAll(t: string, term: string)
    requires AllPercent(term)
    ensures LikeMatch(t, "%" + term + "%")
  {
    var p := "%" + term + "%";
    forall i | 0 <= i < |p| ensures p[i] == '%' {
      if 0 < i < |p| - 1 {
        assert p[i] == term[i - 1];
      }
    }
    PercentsMatchAll(t, p);
  }

  /** A pattern holding a '_' never matches the empty column: each '_' needs a char of its own. */
  lemma {:induction false} UnderscoreNeedsChar(p: string)
    requires exists i :: 0 <= i < |p| && p[i] == '_'
    ensures !LikeMatch([], p)
  {
    var i :| 0 <= i < |p| && p[i] == '_';
    if p[0] == '%' {
      assert p[1..][i - 1] == '_';
      UnderscoreNeedsChar(p[1..]);
    }
  }
}

=== FILE: tables.dfy ===
/** A database table keyed by an IDENTITY column: the database hands out increasing positive ids. */
module Tables {
  import opened Common

  datatype Table<T> = Table(rows: map<int, T>, next: int) {

    /** Every stored id is positive and below the next id the database will hand out. */
    ghost predicate Valid() {
      next >= 1 && forall id :: id in rows ==> 1 <= id < next
    }

    /** Persists a new row under a fresh id and answers that id. */
    function Insert(v: T): (r: (Table<T>, int))
      requires Valid()
      ensures r.0.Valid()
      ensures r.1 >= 1 && r.1 !in rows
      ensures r.0.rows == rows[r.1 := v]
      ensures forall id :: id in r.0.rows ==> id <= r.1
    {
      (Table(rows[next := v], next + 1), next)
    }

    /** The lowest stored id in `ids`: a finder that returns one row, scanning ids upward; none when no stored row is in `ids`. */
    function Find(ids: set<int>): (r: Option<int>)
      requires Valid()
      ensures r.Some? ==> r.value in ids && r.value in rows
      ensures r.None? <==> forall id :: id in rows ==> id !in ids
    {
      var r := Lowest(ids * rows.Keys, 1, next);
      assert r.None? ==> forall id :: id in rows ==> 1 <= id < next && id !in ids * rows.Keys;
      r
    }

    /** Overwrites a stored row; ids are not handed out again. */
    function Put(id: int, v: T): (r: Table<T>)
      requires id in rows
      ensures Valid() ==> r.Valid()
      ensures r.rows == rows[id := v] && r.rows.Keys == rows.Keys
    {
      Table(rows[id := v], next)
    }

    /** Removes a row for good (a hard delete). */
    function Remove(id: int): (r: Table<T>)
      ensures Valid() ==> r.Valid()
      ensures r.rows == rows - {id} && id !in r.rows
    {
      Table(rows - {id}, next)
    }

    /** The rows whose foreign key `parent` names the row `id` of another table: a `findBy...Id` finder. */
    function Children(parent: T -> Option<int>, id: int): (ids: set<int>)
      ensures forall k :: k in ids <==> k in rows && parent(rows[k]) == Some(id)
    {
      set k | k in rows && parent(rows[k]) == Some(id)
    }

    /** Removes, for good, every row whose id is in `ids`, as one delete statement with a WHERE clause does. */
    function RemoveAll(ids: set<int>): (r: Table<T>)
      ensures Valid() ==> r.Valid()
      ensures r.rows.Keys == rows.Keys - ids
      ensures forall id :: id in r.rows ==> r.rows[id] == rows[id]
    {
      Table(rows - ids, next)
    }
  }

  /** The smallest member of `ids` in [lo, hi). */
  function Lowest(ids: set<int>, lo: int, hi: int): (r: Option<int>)
    ensures r.Some? ==> r.value in ids && lo <= r.value < hi
    ensures r.Some? ==> (forall k :: lo <= k < r.value ==> k !in ids)
    ensures r.None? ==> (forall k :: lo <= k < hi ==> k !in ids)
    decreases hi - lo
  {
    if lo >= hi then None
    else if lo in ids then Some(lo)
    else Lowest(ids, lo + 1, hi)
  }

  /** The ids some query found. */
  predicate Found(ids: set<int>) {
    exists id :: id in ids
  }

  /** More than one row found: a finder declared to return at most one row then throws. */
  predicate Several(ids: set<int>) {
    exists a, b :: a in ids && b in ids && a != b
  }

  /** A finder that returns at most one row found exactly one. */
  lemma FoundOne(ids: set<int>)
    requires Found(ids) && !Several(ids)
    ensures |ids| == 1
  {
    var x :| x in ids;
    assert forall y :: y in ids ==> y == x;
    assert ids == {x};
  }

  function Empty<T>(): (r: Table<T>)
    ensures r.Valid() && r.rows == map[]
  {
    Table(map[], 1)
  }
}

=== FILE: user_profile.dfy ===
/**
 * The profile endpoints of the blog application: an authenticated user edits their own
 * profile or changes their password. The controller answers every exception the service
 * throws with 400, and a request without an authenticated user with 401.
 */
module UserProfile {
  import opened Common
  import opened JavaText
  import opened Tables
  import opened Accounts
  import opened Auth

  datatype UpdateUserRequest = UpdateUserRequest(fullName: Option<string>, email: Option<string>,
                                                 phoneNumber: Option<string>, gender: Option<string>)

  /** The stored account with the present fields of the request written over it, trimmed; the gender is lower-cased too. */
  function Revised(a: Account, req: UpdateUserRequest): Account {
    a.(fullName := if Present(req.fullName) then Trim(req.fullName.value) else a.fullName,
       email := if Present(req.email) then Trim(req.email.value) else a.email,
       phoneNumber := if Present(req.phoneNumber) then Some(Trim(req.phoneNumber.value)) else a.phoneNumber,
       gender := if Present(req.gender) then Some(Trim(Lower(req.gender.value))) else a.gender)
  }

  /** No account but the user's own holds `email`. */
  predicate EmailFree(d: Directory, username: string, email: string) {
    forall id :: id in d.accounts.rows && d.accounts.rows[id].email == email ==> d.accounts.rows[id].username == username
  }

  /**
   * `findByEmail(probe)` and the "already in use" test: the update may go on when no account
   * holds `probe` or the one that does is the user's own. The finder returns one row, so
   * several holders make it throw.
   */
  function EmailCheck(d: Directory, username: string, probe: string): (r: Option<Reason>)
    requires Valid(d)
    ensures r.None? <==> EmailFree(d, username, probe)
    ensures r.Some? ==> r.value in {Internal, Duplicate("email")}
  {
    var holders := set id | id in d.accounts.rows && d.accounts.rows[id].email == probe;
    if Several(holders) then
      var a, b :| a in holders && b in holders && a != b;
      assert d.accounts.rows[a].username != d.accounts.rows[b].username;
      Some(Internal)
    else
      assert forall id :: id in d.accounts.rows && d.accounts.rows[id].email == probe ==> id in holders;
      match d.accounts.Find(holders)
      case None => None
      case Some(h) =>
        assert forall id :: id in holders ==> id == h;
        if d.accounts.rows[h].username == username then None else Some(Duplicate("email"))
  }

  /**
   * `updateUser` as written: the email is looked up exactly as sent but stored trimmed, so an
   * email sent with surrounding blanks is never found on the account that already holds it.
   */
  function UpdateUserAsWritten(d: Directory, username: Option<string>, req: UpdateUserRequest): (r: (Reply<Account>, Directory))
    requires Valid(d)
    ensures Valid(r.1)
    ensures r.0.Fail? ==> r.1 == d
    ensures r.0.Done? <==> FindAccount(d, username).Some? && (Present(req.email) ==> EmailFree(d, username.value, req.email.value))
    ensures r.0.Done? ==> var id := FindAccount(d, username).value;
      && r.0.code == OK && r.1.accounts.rows == d.accounts.rows[id := Revised(d.accounts.rows[id], req)]
  {
    match FindAccount(d, username)
    case None => (Fail(if username.None? then UNAUTHORIZED else BAD_REQUEST, if username.None? then Unauthenticated else NotFound("user")), d)
    case Some(id) =>
      var problem := if Present(req.email) then EmailCheck(d, username.value, req.email.value) else None;
      if problem.Some? then (Fail(BAD_REQUEST, problem.value), d)
      else
        var a := Revised(d.accounts.rows[id], req);
        (Done(OK, a), PutAccount(d, id, a))
  }

  /**
   * `updateUser`, with the email looked up in the trimmed form it is stored in. A missing user
   * and an email another account holds are refused with 400, a request with no authenticated
   * user with 401; otherwise the present fields are stored and the saved account returned.
   */
  function UpdateUser(d: Directory, username: Option<string>, req: UpdateUserRequest): (r: (Reply<Account>, Directory))
    requires Valid(d)
    ensures Valid(r.1)
    ensures username.None? ==> r == (Fail(UNAUTHORIZED, Unauthenticated), d)
    ensures r.0.Fail? ==> r.1 == d && (username.Some? ==> r.0.code == BAD_REQUEST)
    ensures username.Some? && FindAccount(d, username).None? ==> r.0 == Fail(BAD_REQUEST, NotFound("user"))
    ensures r.0.Done? <==> FindAccount(d, username).Some? && (Present(req.email) ==> EmailFree(d, username.value, Trim(req.email.value)))
    ensures r.0.Done? ==> var id := FindAccount(d, username).value;
      && r.0.code == OK && id in r.1.accounts.rows && r.0.value == r.1.accounts.rows[id]
      && r.1.accounts.rows == d.accounts.rows[id := Revised(d.accounts.rows[id], req)]
      && (Present(req.email) ==> forall k :: k in r.1.accounts.rows && k != id ==> r.1.accounts.rows[k].email != r.0.value.email)
  {
    match FindAccount(d, username)
    case None => (Fail(if username.None? then UNAUTHORIZED else BAD_REQUEST, if username.None? then Unauthenticated else NotFound("user")), d)
    case Some(id) =>
      var problem := if Present(req.email) then EmailCheck(d, username.value, Trim(req.email.value)) else None;
      if problem.Some? then (Fail(BAD_REQUEST, problem.value), d)
      else
        var a := Revised(d.accounts.rows[id], req);
        (Done(OK, a), PutAccount(d, id, a))
  }

  /** Two accounts, "a" holding the email "a@x.com" and "b" holding "b@x.com". */
  function TwoAccounts(): (d: Directory)
    ensures Valid(d)
  {
    Directory(Table(map[1 := Account("a", "$2a", "a@x.com", "A", None, None, true, 1),
                        2 := Account("b", "$2b", "b@x.com", "B", None, None, true, 1)], 3),
              Table(map[1 := AccountCategory("CLIENT", None)], 2))
  }

  /**
   * As written, a user can take the email another account holds by sending it with surrounding
   * blanks: the lookup misses the holder, and both accounts end up with the same email.
   */
  lemma UpdateUserAsWrittenSharesEmail(d: Directory, username: string, e: string, holder: int)
    requires Valid(d) && FindAccount(d, Some(username)).Some?
    requires holder in d.accounts.rows && d.accounts.rows[holder].username != username
    requires Present(Some(e)) && d.accounts.rows[holder].email == Trim(e) && EmailFree(d, username, e)
    ensures var (r, d') := UpdateUserAsWritten(d, Some(username), UpdateUserRequest(None, Some(e), None, None));
      && r.Done? && holder in d'.accounts.rows && d'.accounts.rows[holder].email == Trim(e)
      && var id := FindAccount(d, Some(username)).value;
         id != holder && id in d'.accounts.rows && d'.accounts.rows[id].email == Trim(e)
  {
  }

  /** Trimming " a@x.com" drops its leading blank. */
  lemma TrimsLeadingBlank()
    ensures Trim(" a@x.com") == "a@x.com" && Present(Some(" a@x.com"))
  {
    var s := " a@x.com";
    assert TrimStart(s) == s[1..];
    assert TrimEnd(s[1..]) == s[1..];
  }

  /** For instance "b" sending " a@x.com" while "a" holds "a@x.com". */
  lemma SharedEmailExample(d: Directory, s: string)
    requires d == TwoAccounts() && s == " a@x.com"
    ensures var (r, d') := UpdateUserAsWritten(d, Some("b"), UpdateUserRequest(None, Some(s), None, None));
      && r.Done? && d'.accounts.rows[1].email == d'.accounts.rows[2].email == "a@x.com"
  {
    TrimsLeadingBlank();
    SharedEmailExampleApplies(d, s);
    UpdateUserAsWrittenSharesEmail(d, "b", s, 1);
  }

  /** The example meets the conditions of the general case: "b" exists, "a" holds the trimmed email, nobody the untrimmed one. */
  lemma SharedEmailExampleApplies(d: Directory, s: string)
    requires d == TwoAccounts() && s == " a@x.com"
    ensures Valid(d) && FindAccount(d, Some("b")) == Some(2)
    ensures 1 in d.accounts.rows && d.accounts.rows[1].username != "b" && d.accounts.rows[1].email == "a@x.com"
    ensures EmailFree(d, "b", s)
  {
    assert d.accounts.rows[2].username == "b";
  }

  /** Lower-casing twice is lower-casing once. */
  lemma LowerIdempotent(s: string)
    ensures Lower(Lower(s)) == Lower(s)
  {
  }

  /** Writing the same profile fields twice stores what writing them once stores. */
  lemma RevisedIdempotent(a: Account, req: UpdateUserRequest)
    ensures Revised(Revised(a, req), req) == Revised(a, req)
  {
    if Present(req.fullName) { TrimIdempotent(req.fullName.value); }
    if Present(req.email) { TrimIdempotent(req.email.value); }
    if Present(req.phoneNumber) { TrimIdempotent(req.phoneNumber.value); }
    if Present(req.gender) {
      var g := req.gender.value;
      LowerCommutesWithTrim(Lower(g));
      LowerIdempotent(g);
      TrimIdempotent(Lower(g));
    }
  }

  /** A profile update that succeeded succeeds again when repeated, and changes nothing the second time. */
  lemma UpdateUserIdempotent(d: Directory, username: Option<string>, req: UpdateUserRequest)
    requires Valid(d) && UpdateUser(d, username, req).0.Done?
    ensures var (r1, d1) := UpdateUser(d, username, req);
      var (r2, d2) := UpdateUser(d1, username, req);
      r2 == r1 && d2 == d1
  {
    var (r1, d1) := UpdateUser(d, username, req);
    var id := FindAccount(d, username).value;
    assert d1.accounts.rows[id].username == username.value;
    assert FindAccount(d1, username) == Some(id);
    RevisedIdempotent(d.accounts.rows[id], req);
    if Present(req.email) {
      assert EmailFree(d1, username.value, Trim(req.email.value));
    }
  }

  datatype ChangePasswordRequest = ChangePasswordRequest(currentPassword: Option<string>, newPassword: Option<string>,
                                                         confirmNewPassword: Option<string>)

  /** The shortest new password `changePassword` accepts, counted in chars. */
  const MIN_PASSWORD_LENGTH := 6

  /**
   * `changePassword`: the current password must match the stored hash, the new one be at least
   * six chars long and equal its confirmation; then its hash replaces the stored password. The
   * checks run in that order; a null current password makes the encoder throw.
   */
  function ChangePassword(d: Directory, username: Option<string>, req: ChangePasswordRequest, enc: Encoder): (r: (Reply<bool>, Directory))
    requires Valid(d)
    ensures Valid(r.1)
    ensures username.None? ==> r == (Fail(UNAUTHORIZED, Unauthenticated), d)
    ensures r.0.Fail? ==> r.1 == d && (username.Some? ==> r.0.code == BAD_REQUEST)
    ensures username.Some? && FindAccount(d, username).None? ==> r.0 == Fail(BAD_REQUEST, NotFound("user"))
    ensures r.0.Done? <==> && FindAccount(d, username).Some? && req.currentPassword.Some?
                           && enc.matches(req.currentPassword.value, d.accounts.rows[FindAccount(d, username).value].password)
                           && req.newPassword.Some? && |req.newPassword.value| >= MIN_PASSWORD_LENGTH
                           && req.confirmNewPassword == req.newPassword
    ensures r.0.Fail? && FindAccount(d, username).Some? && req.currentPassword.Some?
            && !enc.matches(req.currentPassword.value, d.accounts.rows[FindAccount(d, username).value].password)
            ==> r.0.reason == WrongPassword
    ensures r.0.Fail? && r.0.reason == PasswordMismatch ==> req.newPassword.Some? && |req.newPassword.value| >= MIN_PASSWORD_LENGTH
    ensures r.0.Done? ==> var id := FindAccount(d, username).value;
      && r.0 == Done(OK, true)
      && r.1.accounts.rows == d.accounts.rows[id := d.accounts.rows[id].(password := enc.encode(req.newPassword.value))]
  {
    match FindAccount(d, username)
    case None => (Fail(if username.None? then UNAUTHORIZED else BAD_REQUEST, if username.None? then Unauthenticated else NotFound("user")), d)
    case Some(id) =>
      var a := d.accounts.rows[id];
      if req.currentPassword.None? then (Fail(BAD_REQUEST, Internal), d)
      else if !enc.matches(req.currentPassword.value, a.password) then (Fail(BAD_REQUEST, WrongPassword), d)
      else if req.newPassword.None? || |req.newPassword.value| < MIN_PASSWORD_LENGTH then (Fail(BAD_REQUEST, PasswordTooShort), d)
      else if req.confirmNewPassword != req.newPassword then (Fail(BAD_REQUEST, PasswordMismatch), d)
      else (Done(OK, true), PutAccount(d, id, a.(password := enc.encode(req.newPassword.value))))
  }

  /** After a password change the new password logs in, through the encoder and without writing anything. */
  lemma ChangePasswordThenLogin(d: Directory, username: Option<string>, req: ChangePasswordRequest, enc: Encoder, tokens: Tokens, expiration: int)
    requires Valid(d) && ChangePassword(d, username, req, enc).0.Done? && Consistent(enc, req.newPassword.value)
    ensures var d1 := ChangePassword(d, username, req, enc).1;
      var (r, d2) := Login(d1, LoginRequest(username, req.newPassword), enc, tokens, expiration);
      r.Done? && d2 == d1
  {
    var id := FindAccount(d, username).value;
    var d1 := ChangePassword(d, username, req, enc).1;
    assert d1.accounts.rows[id].username == username.value;
    assert FindAccount(d1, username) == Some(id);
  }
}
